=== FILE: README.md ===
# laravel-nestedset in Dafny

A model of the tree engine of laravel-nestedset, the Eloquent package that
stores trees in one flat table using the nested-set encoding. Each row
carries a left bound `_lft`, a right bound `_rgt`, a `parent_id`, an
optional scope (the columns that split one table into independent trees)
and, for soft-deleting models, a `deleted_at` stamp. Every change the
query builder makes to the tree is integer range arithmetic run as one
`UPDATE … SET col = CASE …` over the rows of the scope. The legacy engine
does the same arithmetic as separate passes: hide the moved subtree,
shift the values in between, reveal the subtree.

The table is an immutable `map<Key, Row>` (module `Types`). Each SQL update
becomes a pure function that rewrites all matching rows at once. The
project covers:

- **the bounds codec** (`Bounds`, `Moves`): `makeGap`, `moveNode` and the
  `CASE` patch of `columnPatch`;
- **the mutation engine of `NodeTrait`** (`Engine`, `EngineValid`): the
  pending actions and their cut points, insert of a new leaf, moving a
  saved subtree, hard and soft delete, restore, and the `is*Of`
  predicates;
- **the older `Node` class** (`NodeClass`): the same engine without
  scopes, plus the class's own static `fixTree`;
- **the consistency checker** (`Checker`): the four `countErrors` queries
  and `isBroken`;
- **the rebuilder** (`Dictionary`, `Renumber`, `Fix`, `SubtreeFix`,
  `Rebuild`): `fixTree`, `fixSubtree`, `fixNodes`, `reorderNodes`,
  `rebuildTree` and `buildRebuildDictionary`;
- **the legacy engine** of `Kalnoy\Nestedset\Node` (`Legacy`): hide the
  subtree by negating `_lft`, shift the values in between, reveal it at
  the new place;
- **assembling trees from loaded lists** (`Collection`,
  `LegacyCollection`): `linkNodes`, `toTree`, `getRootNodeId`,
  `toFlatTree`.

The central invariant is `Tree.Valid` (`ValidTree(t, s)` for one scope). It
requires four things:

- every row has `lft < rgt` with an odd difference;
- any two rows are apart or strictly nested, so no bound is shared;
- a row's parent is the nearest row that contains it;
- a row contained in no other row has no parent.

The package's tests assert this after every mutation. The model proves it
preserved by every save action (with the corrected parent of an insert
before or after a node, see "## Findings"), by delete and restore, by the whole-tree
`fixTree`, and by `rebuildTree`. For the legacy engine it is proved only
once that engine's bugs are corrected (see "## Findings"). Legacy
re-parenting as written agrees with the corrected version everywhere except
when a node is made its own parent, and that case breaks the tree.

Cross-checks between independent definitions:

- a move is a cut (close the subtree's gap) followed by a paste (open a
  gap at the landing place);
- the corrected legacy engine produces exactly the table that the query
  builder's engine produces;
- on a valid tree the checker counts no errors;
- the legacy `toTree` and the current one agree where PHP's loose `==`
  does not interfere.

Keys are natural numbers. Timestamps are natural numbers passed in as
`now`. The scope is a natural number. Each operation reads its rows fresh
from the table.

## Model

| member | source | states |
|---|---|---|
| Bounds.MakeGap | src/QueryBuilder.php:593-603 | every `_lft` and every `_rgt` at or past the cut moves by the height; smaller values and other scopes are untouched; the count of matched rows is at most the table size, and for a non-zero height it is exactly the number of rows of the scope whose stored row changed |
| Bounds.GapRoundTrip | src/QueryBuilder.php:593-603 | opening a gap of height h at a cut, then closing it from cut + h, gives back the original table |
| Bounds.GapKeepsOrder | src/QueryBuilder.php:637-646 | a gap keeps the order of any two bounds; their distance changes by the height exactly when the cut lies between them |
| Bounds.PlanMove | src/QueryBuilder.php:541-572 | the move is refused (cyclic) iff lft < position <= rgt; nothing is written iff position is lft or rgt + 1; otherwise gives the window [from, to], the signed height and distance for a forward or backward move |
| Bounds.MovePermutesWindow | src/QueryBuilder.php:650-659 | the move patch maps [from, to] onto itself, leaves values outside it alone, and has an inverse |
| Bounds.MoveLandsAtPosition | src/QueryBuilder.php:550-569 | the node's new `_lft` is the position (backward) or position minus the height (forward), and offsets inside the subtree are kept |
| Bounds.MoveTable | src/QueryBuilder.php:573-580 | the UPDATE patches every row of the scope and no row of another; a zero count means the table is unchanged |
| Bounds.MoveNode | src/QueryBuilder.php:541-581 | error iff the position lies inside the node; no rows written iff the position is lft or rgt + 1; other scopes untouched |
| Moves.MoveIsCutAndPaste | src/QueryBuilder.php:550-580 | a moved bound outside the subtree goes where closing the subtree's gap and then reopening it at the landing place sends it; a bound inside moves by the landing offset |
| Moves.MoveDecomposes | src/QueryBuilder.php:541-581 | on a separated subtree the moved table equals the table with the subtree cut out and the subtree's block inserted at the landing place |
| Moves.MoveValid | src/QueryBuilder.php:541-581 | moving a subtree of a valid tree to a position whose nearest enclosing row is the new parent gives a valid tree |
| Engine.LowerBound | src/NodeTrait.php:175-178 | the largest `_rgt` of the scope, or 0 for an empty scope |
| Engine.InsertNode | src/NodeTrait.php:614-624 | the new node gets [pos, pos + 1] and its parent; every other row of the scope is moved by the gap of 2 at pos; other scopes are untouched |
| Engine.InsertAt | src/NodeTrait.php:575-603 | a new node is inserted at the position; an existing node is moved; error iff the position is inside the existing node; "moved" iff rows were updated; the node's parent is set |
| Engine.MoveInto | src/NodeTrait.php:595-603 | moving a saved node: the same refusal and no-op conditions as the query builder's move; the node lands at the position with its height kept and the new parent set |
| Engine.ActionRoot | src/NodeTrait.php:150-168 | a new node goes to [max + 1, max + 2]; an existing root is a no-op returning false; an existing non-root is re-parented to null and moved so that its `_rgt` becomes the old maximum |
| Engine.Save | src/NodeTrait.php:113-226 | missing parent or target gives NotExisting; a new node without an action is made a root; a saved node without an action is untouched; other scopes never change |
| Engine.ParentRelationRead | src/NodeTrait.php:258-261 | the `parent` relation yields the parent id exactly when it names a row a query finds, so not a trashed row of a soft-deleting model; without soft deletes it is the plain lookup |
| Engine.SaveWritten | src/NodeTrait.php:495-505 | as written: every action but before/after saves as `Save` does, and every error is `Save`'s; before/after leaves the node with its own parent id when that is loosely equal to the target's, otherwise with the target's parent relation |
| EngineValid.SaveWrittenAgrees | src/NodeTrait.php:495-505 | on a valid scope with no row keyed 0 whose target's parent is not hidden as trashed, the written save and the corrected save give the same result |
| EngineValid.LooseSiblingBreaks | src/NodeTrait.php:495-505 | `2->beforeNode(1)` under row 0: null equals 0, so node 2 lands inside row 0 with a null parent and the scope is no longer a tree; the corrected save gives parent 0 and a valid tree |
| EngineValid.TrashedParentBreaks | src/NodeTrait.php:258-261 | inserting before the restored child of a trashed row: the relation reads null, so the node lands inside the trashed row with a null parent and the scope is no longer a tree; the corrected save gives a valid tree |
| Engine.Descendants | src/NodeTrait.php:629-637 | the rows of the node's scope whose `_lft` lies in [lft + 1, rgt], never the node itself |
| Engine.SoftDelete | src/NodeTrait.php:629-638 | stamps the node and its not-yet-trashed descendants; no bound, parent or other stamp changes |
| Engine.HardDelete | src/NodeTrait.php:629-650 | removes exactly the node and its descendants; every other row of the scope is moved back over the closed gap; rows before it and other scopes are unchanged |
| Engine.Delete | src/NodeTrait.php:629-650 | `hardDeleting()` chooses between the hard and the soft delete; a missing node changes nothing |
| Engine.Restore | src/NodeTrait.php:657-664 | clears the node's stamp and the stamps of those descendants trashed at or after it; nothing else changes |
| Engine.NodeHeight | src/NodeTrait.php:730-735 | 2 for a new node; an even number of at least 2 for a well-formed row |
| EngineValid.SaveValid | src/NodeTrait.php:113-226 | a save that succeeds keeps the scope a valid tree and leaves other scopes unchanged |
| EngineValid.SaveValidEverywhere | tests/ScopedNodeTest.php:55-64 | a save in one scope keeps every other valid scope valid |
| EngineValid.SaveAttaches | src/NodeTrait.php:453-505 | after append/prepend the node's parent is that parent; after before/after it is the target's parent; after make-root it is null |
| EngineValid.NewNodeSlot | src/NodeTrait.php:188-226 | a new node appended ends just before its parent's `_rgt`; prepended starts just after its parent's `_lft`; after/before sits right after/before the target |
| EngineValid.HardDeleteValid | src/NodeTrait.php:629-650 | a hard delete keeps the scope a valid tree |
| EngineValid.DeleteValid | src/NodeTrait.php:629-650 | either kind of delete keeps the scope valid and other scopes unchanged |
| EngineValid.RestoreValid | src/NodeTrait.php:657-664 | a restore keeps every valid scope valid |
| EngineValid.SoftDeleteRestore | src/NodeTrait.php:629-664 | restoring right after a soft delete gives back the table, when descendants already trashed were trashed earlier |
| EngineValid.DescendantMeansContained | src/NodeTrait.php:960-963 | in a valid tree `isDescendantOf` holds iff the other row strictly contains it, iff it is in the other's subtree |
| EngineValid.ChildIsDescendant | src/NodeTrait.php:960-999 | in a valid tree a child (loose `==` on the parent id) with a parent id is a descendant of its parent, and the parent an ancestor of the child; a root is a child of row 0 only |
| EngineValid.DescendantOrder | src/NodeTrait.php:960-963 | `isDescendantOf` is irreflexive, asymmetric and transitive on a valid tree |
| EngineValid.RootsApart | src/NodeTrait.php:984-987 | two roots are siblings and their intervals are disjoint |
| EngineValid.DescendantCountOfRow | src/NodeTrait.php:742-745 | the descendant count is 0 for a new node, and (rgt - lft - 1) / 2 for a well-formed row |
| NodeClass.ClassSave | src/Node.php:193-341 | with its pending action cleared by `clearAction()`, a new node keeps null bounds (error) and a saved node is untouched; errors only for a missing row, a cyclic move or null bounds |
| NodeClass.ClassSaveValid | src/Node.php:205-341 | a successful save keeps the table valid and attaches the node as the action says |
| NodeClass.ClassDelete | src/Node.php:722-757 | while `$deleting` is set only the node's own row is removed or stamped; otherwise the delete of `NodeTrait` runs |
| NodeClass.ClassDeleteValid | src/Node.php:722-757 | a delete outside the nested one keeps the table valid |
| NodeClass.NestedDeleteOrphans | src/Node.php:722-726 | the nested delete taken alone leaves a child naming a removed parent |
| NodeClass.ClassSoftDeleteRestore | src/Node.php:764-770 | restore undoes a soft delete, descendants included |
| NodeClass.StaticWalkReachesRoots | src/Node.php:1219-1267 | every loaded root is renumbered by the static walk |
| NodeClass.StaticFixTreeShape | src/Node.php:1219-1267 | only `_lft`/`_rgt` of reached rows change; unreached and (when soft-deleting) trashed rows are untouched; the reached rows get the bounds of a forest spanning 1 to the final cut |
| NodeClass.StaticFixTreeCount | src/Node.php:1219-1267 | the rows saved are exactly the rows changed; none is saved iff the table is unchanged |
| NodeClass.StaticFixTreeNull | src/Node.php:1230-1234 | `fixTree()` returns null (its `$fixed` never set) iff the table is unchanged, otherwise the positive number of rows changed |
| Checker.ValidHasNoErrors | src/QueryBuilder.php:669-838 | a valid scope has four zero counts and is not broken |
| Checker.NoWrongParent | src/QueryBuilder.php:746-782 | in a valid tree a child's `_lft` lies in its parent, and in no third row that lies in the parent |
| Checker.CorrectedCheckFindsParents | src/QueryBuilder.php:669-838 | with laminar rows and all four corrected counts zero, every parent id names the nearest containing row |
| Checker.NestedRootUndetected | src/QueryBuilder.php:669-838 | a row with a null parent nested inside another row passes all four checks although the tree is not valid |
| Checker.WrongParentNeedsThirdRow | src/QueryBuilder.php:746-782 | two rows, a child outside its parent: the query as written counts no error; the per-row check counts one |
| Dictionary.GroupBy | src/QueryBuilder.php:858-866 | grouping by parent id lists every row exactly once, and the groups have distinct parent ids |
| Dictionary.GroupByFind | src/QueryBuilder.php:858-866 | every grouped row is in the group of its parent id |
| Dictionary.WithParent | src/QueryBuilder.php:865 | the rows of the order with a given parent id, and no others |
| Dictionary.GroupByEntry | src/QueryBuilder.php:863-865 | the entry of a parent id in `groupBy` is the order filtered to that parent id (`WithParent`), and there is no entry when no row has it |
| Dictionary.GroupByMembers | src/QueryBuilder.php:865 | a row is in the group of a parent id iff it is in the order and has that parent id |
| Dictionary.Push | src/QueryBuilder.php:1058 | appending a model to its parent's group adds it to the dictionary and keeps the groups disjoint |
| Dictionary.Remove | src/QueryBuilder.php:947 | `unset` drops the entry of that parent id and nothing else |
| Dictionary.FindRemove | src/QueryBuilder.php:935-947 | removing a group splits the dictionary's members into that group's and the rest, disjointly |
| Dictionary.RekeyFacts | src/QueryBuilder.php:898-902 | storing the first group under `null` and unsetting its old key keeps the dictionary's shape, loses no member unless a roots' group existed, and decreases the loop measure |
| Renumber.ReorderNodes | src/QueryBuilder.php:928-951 | the rows numbered form a forest under the parent id, numbered from the cut with two numbers per model; when the parent id has an entry, its members are numbered in list order, each interval ending before the next begins; every numbered row's parent id is the key of an entry that lists it; the numbered rows and the members left partition the dictionary's members; an entry that leaves was walked in full, an entry left is unchanged, and no entry is left under a numbered row's key; a missing entry returns the dictionary and the cut unchanged |
| Renumber.ReorderGroup | src/QueryBuilder.php:935-946 | the `foreach` over one entry's list numbers a forest under that parent id from the cut; the list's models are numbered in list order, each interval ending before the next begins; each numbered row is a listed model with that parent id or a member of an entry keyed by its parent id; the numbered rows and the members left partition the list and the dictionary's members; an entry that leaves was walked in full, an entry left is unchanged, and no entry is left under a numbered row's key |
| Renumber.RootForestValid | src/QueryBuilder.php:928-951 | a forest numbered from the roots' entry is a valid tree |
| Fix.LftOrder | src/QueryBuilder.php:863 | `defaultOrder()`: the rows sorted by `_lft` (ties by key), each once |
| Fix.Orphans | src/QueryBuilder.php:896-904 | the orphan loop hands out the bounds of a forest; in whole-tree mode without a roots' entry every member is placed; in subtree mode without the root's group nothing is; every placed row is a root or keeps a parent id whose entry listed it |
| Fix.Walk | src/QueryBuilder.php:893-904 | the walk and the orphan loop together place only dictionary members, and all of them in whole-tree mode; every placed row is a root or keeps a parent id whose entry listed it |
| Fix.FixTreeParents | src/QueryBuilder.php:841-843 | after `fixTree()` the scope has the same rows; each keeps its parent id or becomes a root, and a row whose parent id names no row of the scope becomes a root (tests/NodeTest.php:679-698 expects this of row 2) |
| Fix.FixTreeKeeps | src/QueryBuilder.php:849-917 | on a valid scope `fixTree()` keeps every parent id, and of two siblings the one with the smaller `_lft` still has the smaller `_lft` |
| Fix.WalkForest | src/QueryBuilder.php:893-904 | the placed rows form a forest under the walked parent, starting at the first cut |
| Fix.FixNodes | src/QueryBuilder.php:887-917 | `fixNodes` keeps the key set and leaves other scopes untouched |
| Fix.FixTree | src/QueryBuilder.php:849-869 | `fixTree` keeps the key set and leaves other scopes untouched |
| Fix.WholeValid | src/QueryBuilder.php:887-917 | when the dictionary holds the whole scope, the result is a valid tree numbered within [1, 2n] |
| Fix.FixTreeValid | src/QueryBuilder.php:849-869 | `fixTree()` on any table (even a broken one) leaves the scope a valid tree numbered within [1, 2n], other scopes unchanged |
| Fix.FixTreeCount | src/QueryBuilder.php:887-917 | the count `fixTree()` returns is the number of rows changed, and zero iff nothing changed |
| Fix.WholeSaved | src/QueryBuilder.php:912-914 | each saved model keeps its own `deleted_at` |
| SubtreeFix.SubtreeDict | src/QueryBuilder.php:858-866 | the dictionary `fixSubtree` groups is made of exactly the rows below the root |
| SubtreeFix.WrittenLands | src/QueryBuilder.php:906-916 | in the corrected subtree fix every walked row and the root end up with the walk's bounds and parents |
| SubtreeFix.SubtreeGapCrosses | src/QueryBuilder.php:906-916 | on a three-row example the fix as written leaves a child over its parent's new right bound: not a valid tree |
| SubtreeFix.SubtreeWrittenHolds | src/QueryBuilder.php:906-916 | the corrected fix gives the valid tree on the same example |
| Rebuild.NewKey | src/QueryBuilder.php:1036-1040 | a new row's key is not in the table and exceeds every key in it |
| Rebuild.SaveNew | src/QueryBuilder.php:1036-1040 | a keyless item becomes a new row under the item's parent, added to the dictionary |
| Rebuild.SaveNamed | src/QueryBuilder.php:1042-1052 | a named item reuses its row, re-parented, and leaves the pending set |
| Rebuild.BuildItem | src/QueryBuilder.php:1030-1063 | fails iff the item names a key that is not pending (ModelNotFoundException); otherwise the table only grows or re-parents |
| Rebuild.BuildItems | src/QueryBuilder.php:1026-1065 | on success the pending set loses exactly the listed keys and the dictionary keeps its shape |
| Rebuild.BuildItemsKeeps | src/QueryBuilder.php:1026-1065 | the items only add rows or change parents, and rows outside the dictionary and the pending set stay so |
| Rebuild.BuildFails | src/QueryBuilder.php:1043-1046 | building fails iff the listed keys repeat or name a row that is not pending |
| Rebuild.BuildFrom | src/QueryBuilder.php:965-986 | the rows loaded are the scope (or the rows below the root); those not listed remain pending |
| Rebuild.RebuildFails | src/QueryBuilder.php:965-1065 | `rebuildTree` fails, with ModelNotFoundException, iff the listed keys repeat or name a row outside the loaded ones |
| Rebuild.BuildReach | src/QueryBuilder.php:1026-1065 | the dictionary walk up to the throw: what it reached is still a dictionary of the scope, and the table only gained rows of the scope and new parent ids |
| Rebuild.BuildReachAgrees | src/QueryBuilder.php:1026-1065 | the walk throws exactly when `buildRebuildDictionary` fails, and otherwise reaches its result |
| Rebuild.FailedRebuild | src/QueryBuilder.php:965-986 | the table a failing rebuild leaves: loaded rows change at most their parent id; new rows are of the scope and untrashed |
| Rebuild.RebuildFailsAtThrow | src/QueryBuilder.php:965-1006 | a rebuild fails exactly when the walk over its loaded rows reaches a throw |
| Rebuild.FailedRebuildKeepsWrites | src/QueryBuilder.php:1036-1046 | a keyless item before a key naming no row: the rebuild fails, yet the new row is saved and stays |
| Rebuild.FinishValid | src/QueryBuilder.php:988-1005 | once every row of the scope is listed or pending, the final `fixNodes` leaves a valid tree |
| Rebuild.RebuildValid | src/QueryBuilder.php:965-1006 | a successful whole-tree rebuild leaves the scope a valid tree |
| Rebuild.RebuildHardDeletes | src/QueryBuilder.php:988-993 | with delete and no soft deletes, a row of the scope survives iff the items list it |
| Rebuild.RebuildParents | src/QueryBuilder.php:988-1005 | after a successful rebuild every listed row and every new row is still in the table with the parent id the items gave it |
| Rebuild.RebuildUnderItems | src/QueryBuilder.php:1026-1063 | after a successful rebuild each item naming a row has that row under the enclosing item's key when that item names a row too, or a root at the top level (tests/NodeTest.php:794-819 expects this of rows 3 and 1) |
| Rebuild.RebuildTrash | src/QueryBuilder.php:994-1004 | otherwise every row survives, and an unlisted untrashed row is stamped iff delete is asked for |
| Legacy.ShiftNodes | src/Kalnoy/Nestedset/Node.php:439-492 | a zero amount or two missing ends is a no-op; only bounds in the range move; parents, scopes and stamps never change |
| Legacy.HideReveal | src/Kalnoy/Nestedset/Node.php:565-594 | hiding then revealing with a shift translates exactly the rows whose `_lft` is in the range |
| Legacy.HideRevealZero | src/Kalnoy/Nestedset/Node.php:565-594 | as written, a reveal with shift 0 hides again: the rows keep a negated `_lft` |
| Legacy.ShiftIsGap | src/Kalnoy/Nestedset/Node.php:439-492 | shifting every value from a cut is the query builder's `makeGap` on a table without scope |
| Legacy.ShiftRoundTrip | src/Kalnoy/Nestedset/Node.php:439-492 | opening and then closing a shift gives back the table |
| Legacy.RootAtOne | src/Kalnoy/Nestedset/Node.php:667-670 | in a valid tree numbered from 1, a row at 1 has no parent and is contained in no row |
| Legacy.InsertAt | src/Kalnoy/Nestedset/Node.php:291-376 | as written: refused iff lft < position < rgt; a new node lands at [pos, pos + 1]; the node takes the parent |
| Legacy.InsertAtFixed | src/Kalnoy/Nestedset/Node.php:291-376 | corrected: refused iff lft < position <= rgt, and the reveal always reveals |
| Legacy.PlanIsMoved | src/Kalnoy/Nestedset/Node.php:342-376 | the query builder's move patch sends every value where the legacy move does |
| Legacy.MoveAgrees | src/Kalnoy/Nestedset/Node.php:342-376 | on a valid tree numbered from 1, hide, shift and reveal give the query builder's moved table |
| Legacy.InsertAtAgrees | src/Kalnoy/Nestedset/Node.php:291-376 | the corrected `insertAt` + `save()` and the query builder's `insertAt` refuse the same positions and give the same table |
| Legacy.Target | src/Kalnoy/Nestedset/Node.php:217-281 | append/prepend use the parent's `_rgt` / `_lft` + 1; before/after need an existing, non-root target whose parent row loads (exists, and is not trashed when the model soft-deletes), and use its `_lft` / `_rgt` + 1 |
| Legacy.Place | src/Kalnoy/Nestedset/Node.php:189-307 | as written: the target's error, or `insertAt` at the target's position |
| Legacy.PlaceFixed | src/Kalnoy/Nestedset/Node.php:189-307 | the same with the corrected `insertAt` |
| Legacy.PlaceAgrees | src/Kalnoy/Nestedset/Node.php:189-307 | the corrected placement and the query builder's save of the same action succeed together and give the same table |
| Legacy.PlaceFixedValid | src/Kalnoy/Nestedset/Node.php:189-376 | the corrected placement keeps the tree valid and attaches the node as asked |
| Legacy.Delete | src/Kalnoy/Nestedset/Node.php:318-390 | as written: a root is refused; a hard delete removes only the node's row and closes its gap |
| Legacy.DeleteFixed | src/Kalnoy/Nestedset/Node.php:318-390 | corrected: a hard delete removes the node and its descendants |
| Legacy.DeleteLeaf | src/Kalnoy/Nestedset/Node.php:383-390 | on a leaf the written and the corrected delete agree |
| Legacy.DeleteFixedIsEngine | src/Kalnoy/Nestedset/Node.php:383-390 | the corrected hard delete is the query builder's hard delete |
| Legacy.DeleteFixedValid | src/Kalnoy/Nestedset/Node.php:318-390 | the corrected delete keeps the tree valid |
| Legacy.SetParent | src/Kalnoy/Nestedset/Node.php:651-660 | as written: a root is refused; a value loosely equal (`!=`) to the current parent id writes nothing; a new parent that is missing, or trashed on a soft-deleting model, is not found; otherwise the node is appended to it through the written `insertAt` |
| Legacy.SetParentFixed | src/Kalnoy/Nestedset/Node.php:651-660 | the same through the corrected `insertAt`; making a node its own parent is a cyclic move |
| Legacy.SetParentAgrees | src/Kalnoy/Nestedset/Node.php:291-296 | on a valid tree the written and the corrected re-parenting give the same result for every new parent other than the node itself |
| Legacy.SetParentFixedValid | src/Kalnoy/Nestedset/Node.php:651-660 | the corrected re-parenting keeps the tree valid and hangs the node under the new parent |
| Legacy.SetParentToSelf | src/Kalnoy/Nestedset/Node.php:651-660 | `setParentId` with the node's own key succeeds as written and breaks the tree; the corrected version refuses it |
| Legacy.AppendToSelf | src/Kalnoy/Nestedset/Node.php:291-296 | appending a node to itself passes the guard and breaks the tree; the corrected guard refuses it |
| Legacy.AppendToOwnParent | src/Kalnoy/Nestedset/Node.php:565-594 | appending a last child to its own parent leaves it hidden; the corrected reveal leaves the tree as it was |
| Legacy.DeleteOrphans | src/Kalnoy/Nestedset/Node.php:383-390 | hard-deleting an inner node leaves its child with stale bounds and a missing parent; the corrected delete removes the child too |
| Collection.LooseGroupIsGroup | src/Collection.php:64-68 | PHP's loose `==` on parent ids is strict equality when no id is 0 |
| Collection.FirstLeast | src/Collection.php:91-100 | the first item with the least `_lft` |
| Collection.RootNodeId | src/Collection.php:80-103 | a node gives its key, an explicit id is returned, otherwise the parent id of the node with the least `_lft` |
| Collection.ToTree | src/Collection.php:53-73 | exactly the items whose parent id equals the root id (loosely), taken from the input; empty for empty input |
| Collection.LinkNodes | src/Collection.php:17-40 | each node's children are the items whose parent id is its key, in order; each node's parent is as the loop leaves it |
| Collection.LinkNodesMeaning | src/Collection.php:17-40 | a node without parent id gets null; with a parent that is not loaded it is untouched; otherwise its parent is the last loaded node with that key |
| Collection.FlatTreeEnds | src/Collection.php:132-141 | with distinct keys and parents left of their children the flattening terminates |
| Collection.FlatTreeCycle | src/Collection.php:132-141 | two nodes each naming the other as parent make the recursion endless |
| Collection.FlatTreeMeaning | src/Collection.php:113-141 | the flat list holds only loaded items, each after its parent, contains every child of the root id and is closed under children |
| LegacyCollection.RootNodeId | src/Kalnoy/Nestedset/Collection.php:54-73 | an explicit id is returned; otherwise the parent id of the item with the least `_lft` |
| LegacyCollection.ToTree | src/Kalnoy/Nestedset/Collection.php:19-47 | the roots are the items whose parent id is the root id; no roots means no children set; each item's children are its group |
| LegacyCollection.ToTreesAgree | src/Kalnoy/Nestedset/Collection.php:19-47 | without 0 ids, the legacy and current `toTree` return the same roots, and the legacy children are the current groups |

## Left out

- SQL text, grammar wrapping, Eloquent events and `call_user_func_array` dispatch. Only `saveAsTransaction` and `deleteAsTransaction` open a transaction; each save and delete is one function here.
- The static `$actionsPerformed` counter and `refreshNode`: rows are always read fresh from the table.
- `applyNestedSetScope` and `newScopedQuery` are not part of this model; the scope is one natural number on every row, and every query of `NodeTrait` and `QueryBuilder` filters on it.
- The cross-scope check (the scoped tests expect a LogicException when a node is attached to a parent or target of another scope) lives in code outside this model; `Engine.Save` returns `ScopeMismatch` in that case.
- `rawNode` is not part of this model; it is taken to set `_lft`, `_rgt` and `parent_id` without queuing a tree action, as its call sites say.
- Ties in `_lft` under `defaultOrder()` and the order of `$existing` in `rebuildTree` are resolved by key.
- Rebuild.RebuildFails: the error result carries no table. `rebuildTree` opens no transaction, so the rows saved before the ModelNotFoundException stay written; `Rebuild.FailedRebuild` gives that table.
- Engine.Restore: restoring a node that was not trashed gives `restoreDescendants` a null stamp. The model reads `deleted_at >= NULL` as SQL does: no row matches, and only the node's own stamp is cleared. Query builders of Laravel 5.3 and later refuse a `>=` comparison with a null value (InvalidArgumentException) before any query runs. No framework version is pinned here, so that error path is not modelled.
- Rebuild.RebuildUnderItems: an item nested below an item without a key is left out of `Expected`, because the parent id it gets is the key of a row created during the build; `Rebuild.RebuildParents` covers that row through the built table instead. Both lemmas are stated for the whole-tree rebuild only.
- Fix.FixTreeParents: stated for the whole-tree `fixTree()` only; the subtree fix is covered by the `SubtreeFix` lemmas.
- Fix.FixTreeKeeps: stated for the whole-tree `fixTree()` only, and as the order of siblings, not as the exact bounds: the model does not prove that a valid scope keeps its `_lft` and `_rgt` values.
- Rebuild.NewKey: a new row's key is the largest key plus one; the database's auto-increment may choose another fresh key.
- Attributes other than the tree columns, `fill()` of item data, and the timestamp clock are not modelled.
- Rebuild.RebuildValid: the subtree mode of `rebuildTree` / `rebuildSubtree` is modelled but its validity is not proved.
- Rebuild.RebuildTrash: in subtree mode the soft-delete stamps of unlisted rows are lost for groups the orphan loop never reaches (the loop's behaviour as written).
- SubtreeFix.FixSubtreeWritten: only the corrected subtree fix's landing (WrittenLands) and one example are proved, not validity in general.
- NodeClass.StaticFixTreeShape: the static `fixTree()` of src/Node.php is characterised (forest bounds on reached rows) but not proved to give a valid tree, since unreached rows keep stale bounds.
- Legacy bare `save()` of a new node without `insertAt` leaves null bounds and is not modelled.
- Legacy appendTo a parent that does not exist reads its unset bounds; it is modelled as `NotExisting`.
- The legacy in-memory parent patch in `shiftNodes` (`abs($amount)` applied to the cached parent) is a caller-cache side effect and is left out.
- Legacy query scopes (`withDepth`, `pathTo`, `withoutRoot`) and the legacy column types (unsigned columns that the negated `_lft` of the hide step would violate under strict SQL modes) are not modelled.
- PHP's loose `==` and `!=` on parent ids (`LooseEq`, used by the collections, by legacy `setParentId`, by `isChildOf` and `isSiblingOf`, and by the written sibling test of `beforeOrAfterNode` in `Engine.SaveWritten`) are modelled only for `null` against 0; other juggling (numeric strings) is not.
- Engine.Save: an insert before or after a target gives the node the target's parent id, the parent the tree needs. The written `beforeOrAfterNode` compares parent ids loosely and reads the target's parent through a relation that hides a trashed row; `Engine.SaveWritten` models that, and it agrees with `Save` whenever no row is keyed 0 and the target's parent is not trashed (`EngineValid.SaveWrittenAgrees`). Outside those conditions the written save can break the tree (see "## Findings").
- EngineValid.SaveValid: proved for the corrected `Engine.Save`; it holds for the written save only under the conditions of `SaveWrittenAgrees`.
- EngineValid.SaveValidEverywhere: proved for the corrected `Engine.Save`, with the same conditions for the written save as `SaveValid`.
- EngineValid.SaveAttaches: the before/after clause (the target's parent id) is the corrected parent; the written save gives it under the conditions of `SaveWrittenAgrees`.
- NodeClass.ClassSave: `actionBeforeOrAfter` of src/Node.php makes the same loose sibling test and reads the same relation as `beforeOrAfterNode`; the class save is modelled with the corrected parent, through `Engine.Save`.
- NodeClass.ClassSaveValid: proved for the corrected parent of before/after, as `EngineValid.SaveValid` is; the written class save breaks the tree on the inputs of `LooseSiblingBreaks` and `TrashedParentBreaks`.
- Collection.RootNodeId requires a non-empty list when no root is given, matching its only callers, which return early on an empty list.
- Bounds are taken as non-null integers; `NULL` bounds appear only as the `NullBounds` error.
- Collection.ToFlatTree: an endless recursion on a parent cycle is modelled as `None` instead of a stack overflow.
- `reorderNodes` unsets a group before walking its members instead of after; with distinct keys the result is the same, and it gives the recursion its termination measure.
- Read-only query helpers, relations, `NestedSet` schema macros and the service provider are outside the engine.

## Findings

| source | as written | input that shows it | evidently intended | confidence | as-written member | corrected member |
|---|---|---|---|---|---|---|
| src/Kalnoy/Nestedset/Node.php:293 | `insertAt` refuses `lft < position < rgt`, so a node's own `_rgt` passes | appending node 2 = [2, 3] (child of 1 = [1, 4]) to itself: position 3 | refuse `lft < position <= rgt`, as the query builder does | not executed | Legacy.AppendToSelf | Legacy.InsertAtFixed |
| src/Kalnoy/Nestedset/Node.php:582-592 | `hideOrRevealNodes` with shift 0 hides instead of revealing | appending the last child 2 = [2, 3] to its own parent 1 = [1, 4]: shift 4 - 3 - 1 = 0, `_lft` stays -2 | a zero shift reveals in place | not executed | Legacy.AppendToOwnParent | Legacy.PlaceFixed |
| src/Kalnoy/Nestedset/Node.php:383-390 | hard delete closes the gap but leaves the descendants' rows | deleting 2 = [2, 5] from 1 = [1, 6] with child 3 = [3, 4]: row 3 stays under a missing parent | the descendants are removed with the node | not executed | Legacy.DeleteOrphans | Legacy.DeleteFixed |
| src/Kalnoy/Nestedset/Node.php:651-660 | `setParentId` appends the node to the row named by the value through `insertAt`, whose guard lets the node's own `_rgt` through | `setParentId(2)` on node 2 = [2, 3], child of 1 = [1, 4]: node 2 becomes its own parent at [1, 2] | re-parenting a node under itself is refused | not executed | Legacy.SetParentToSelf | Legacy.SetParentFixed |
| src/NodeTrait.php:495-505 | `beforeOrAfterNode` keeps the node's own parent id when `isSiblingOf` holds, and that test is PHP's loose `==`, so a null parent id equals 0 | row 0 = [1, 4] with child 1 = [2, 3], and a root 2 = [5, 6]: `2->beforeNode(1)` moves node 2 to [2, 3] inside row 0 with a null parent | the node takes the target's parent id | not executed | EngineValid.LooseSiblingBreaks | Engine.Save |
| src/NodeTrait.php:258-261 | a node that is not the target's sibling takes the target's `parent` relation, whose query hides a trashed row, so it gets a null parent id | a trashed root 1 = [1, 4], its child 2 = [2, 3] restored alone, and a root 3 = [5, 6]: `3->beforeNode(2)` moves node 3 to [2, 3] inside row 1 with a null parent | the node takes the target's parent id | not executed | EngineValid.TrashedParentBreaks | Engine.Save |
| src/QueryBuilder.php:764-781 | `wrong_parent` joins three aliases of the table, so a table of two rows counts nothing | parent 1 = [1, 2], child 2 = [3, 4] with parent 1 | a child outside its parent is an error whatever the table's size | not executed | Checker.WrongParentNeedsThirdRow | Checker.CorrectedCheckFindsParents |
| src/QueryBuilder.php:906-916 | `fixSubtree` opens the gap after the walk; rows the walk left clean are not saved, so a gap that moves them stays | root 1 = [1, 4], children 2 = [2, 3] and 3 = [4, 5]: the gap at 5 moves row 3 to [4, 7] over the root's [1, 6] | the walked bounds are the final bounds | not executed | SubtreeFix.SubtreeGapCrosses | SubtreeFix.SubtreeWrittenHolds |

=== FILE: blocks.dfy ===
/** Gaps and blocks: the two table shapes every tree mutation goes through.
    Opening a gap and putting a well-formed block into it under the block's
    nearest enclosing row is how a node is inserted (a one-row block) and
    how a moved subtree is put back; closing the gap a removed subtree
    leaves is how a node is deleted. Each keeps a valid table valid.
 */
module Blocks {
  import opened Types
  import opened Bounds
  import opened Tree

  /** Opening a gap (h >= 0) keeps the order of all bounds. */
  lemma OpenGapEmbeds(t: Table, cut: int, h: int)
    requires h >= 0
    ensures OrderEmbedding(t, x => GapValue(x, cut, h))
  {
    forall a, b | a in t && b in t
      ensures KeepsOrder(x => GapValue(x, cut, h), t[a], t[b])
    {
      GapKeepsOrder(t[a].lft, t[b].lft, cut, h);
      GapKeepsOrder(t[a].lft, t[b].rgt, cut, h);
      GapKeepsOrder(t[a].rgt, t[b].lft, cut, h);
      GapKeepsOrder(t[a].rgt, t[b].rgt, cut, h);
    }
  }

  /** No bound of `t` lies in [lo, hi]. */
  predicate AvoidsRange(t: Table, lo: int, hi: int) {
    forall k | k in t :: !(lo <= t[k].lft <= hi) && !(lo <= t[k].rgt <= hi)
  }

  /** Closing a gap (h < 0) keeps the order of all bounds when none of them
      lies in the range the gap removes. */
  lemma CloseGapEmbeds(t: Table, cut: int, h: int)
    requires h < 0 && AvoidsRange(t, cut + h, cut - 1)
    ensures OrderEmbedding(t, x => GapValue(x, cut, h))
  {
    forall a, b | a in t && b in t
      ensures KeepsOrder(x => GapValue(x, cut, h), t[a], t[b])
    {
      GapKeepsOrder(t[a].lft, t[b].lft, cut, h);
      GapKeepsOrder(t[a].lft, t[b].rgt, cut, h);
      GapKeepsOrder(t[a].rgt, t[b].lft, cut, h);
      GapKeepsOrder(t[a].rgt, t[b].rgt, cut, h);
    }
  }

  /** A gap of even height, opened or closed over bounds it keeps in order,
      keeps a valid table valid. */
  lemma {:induction false} GapValid(t: Table, cut: int, h: int)
    requires Valid(t)
    requires h % 2 == 0
    requires h >= 0 || AvoidsRange(t, cut + h, cut - 1)
    ensures Valid(GapRows(t, cut, h))
  {
    if h >= 0 {
      OpenGapEmbeds(t, cut, h);
    } else {
      CloseGapEmbeds(t, cut, h);
    }
    forall k | k in t
      ensures WellFormed(Shift(t[k], x => GapValue(x, cut, h)))
    {
      assert WellFormed(t[k]);
      GapKeepsOrder(t[k].lft, t[k].rgt, cut, h);
    }
    RelabelValid(t, x => GapValue(x, cut, h));
    assert GapRows(t, cut, h) == Relabel(t, x => GapValue(x, cut, h));
  }

  /** Containment between two rows survives a gap that keeps the order of
      their bounds, in both directions. */
  lemma GapRowContains(x: Row, y: Row, cut: int, h: int)
    requires h >= 0 || (
      && (x.lft < cut + h || x.lft >= cut) && (x.rgt < cut + h || x.rgt >= cut)
      && (y.lft < cut + h || y.lft >= cut) && (y.rgt < cut + h || y.rgt >= cut))
    ensures Contains(GapRow(x, cut, h), GapRow(y, cut, h)) <==> Contains(x, y)
  {
    GapKeepsOrder(x.lft, y.lft, cut, h);
    GapKeepsOrder(y.rgt, x.rgt, cut, h);
  }

  /** A block of rows ready to be put into the gap [p, p+h-1]: its top row
      `n` spans the whole gap and gets parent `q`, every other row sits
      inside the gap under its nearest container within the block. */
  predicate BlockOk(b: Table, n: Key, p: int, h: int, q: Option<Key>) {
    && n in b && b[n].lft == p && b[n].rgt == p + h - 1 && b[n].parent == q
    && (forall k | k in b :: p <= b[k].lft && b[k].rgt <= p + h - 1 && WellFormed(b[k]))
    && (forall x, y | x in b && y in b && x != y :: Laminar(b[x], b[y]))
    && (forall c | c in b && c != n :: b[c].parent.Some? && Nearest(b, b[c].parent.value, c))
  }

  /** The gap of height `h` opened at `p`, with the block's rows added. */
  function InsertBlock(u: Table, b: Table, p: int, h: int): Table {
    GapRows(u, p, h) + b
  }

  /** A row after the gap opening sits wholly outside the gap; it contains
      every block row exactly when it enclosed the cut point before. */
  lemma CrossRows(a: Row, g: Row, br: Row, p: int, h: int)
    requires h >= 0 && a.lft < a.rgt
    requires g == GapRow(a, p, h)
    requires p <= br.lft < br.rgt <= p + h - 1
    ensures Laminar(g, br) && !Contains(br, g)
    ensures Contains(g, br) <==> Encloses(a, p)
  {
  }

  /** The preconditions shared by the pieces of the insertion proof. */
  predicate InsertSetting(u: Table, b: Table, n: Key, p: int, h: int, q: Option<Key>) {
    && Valid(u)
    && BlockOk(b, n, p, h, q)
    && u.Keys !! b.Keys
    && NearestEnclosing(u, p, q)
    && h >= 2 && h % 2 == 0
  }

  /** A block's height is even and at least two: its top is well formed. */
  lemma InsertSettingHeight(top: Row, p: int, h: int)
    requires WellFormed(top) && top.lft == p && top.rgt == p + h - 1
    ensures h >= 2 && h % 2 == 0
  {
  }

  lemma {:induction false} InsertBlockCross(u: Table, b: Table, n: Key, p: int, h: int, q: Option<Key>)
    requires InsertSetting(u, b, n, p, h, q)
    ensures var r := InsertBlock(u, b, p, h);
      forall a, c | a in u && c in b ::
        && Laminar(r[a], r[c]) && !Contains(r[c], r[a])
        && (Contains(r[a], r[c]) <==> Encloses(u[a], p))
  {
    var g := GapRows(u, p, h);
    var r := InsertBlock(u, b, p, h);
    forall a, c | a in u && c in b
      ensures Laminar(r[a], r[c]) && !Contains(r[c], r[a])
      ensures Contains(r[a], r[c]) <==> Encloses(u[a], p)
    {
      assert WellFormed(u[a]) && WellFormed(b[c]);
      assert r[a] == g[a] && r[c] == b[c];
      CrossRows(u[a], g[a], b[c], p, h);
    }
  }

  lemma {:induction false} InsertBlockLaminar(u: Table, b: Table, n: Key, p: int, h: int, q: Option<Key>)
    requires InsertSetting(u, b, n, p, h, q)
    ensures var r := InsertBlock(u, b, p, h);
      && (forall k | k in r :: WellFormed(r[k]))
      && (forall x, y | x in r && y in r && x != y :: Laminar(r[x], r[y]))
  {
    var g := GapRows(u, p, h);
    GapValid(u, p, h);
    var r := InsertBlock(u, b, p, h);
    InsertBlockCross(u, b, n, p, h, q);
    forall k | k in r
      ensures WellFormed(r[k])
    {
      if k in b {
        assert r[k] == b[k];
      } else {
        assert r[k] == g[k];
      }
    }
    forall x, y | x in r && y in r && x != y
      ensures Laminar(r[x], r[y])
    {
      if x in u && y in u {
        assert r[x] == g[x] && r[y] == g[y];
      } else if x in b && y in b {
        assert r[x] == b[x] && r[y] == b[y];
      } else if x in u {
        assert Laminar(r[x], r[y]);
      } else {
        assert Laminar(r[y], r[x]);
      }
    }
  }

  lemma {:induction false} InsertBlockOldParents(u: Table, b: Table, n: Key, p: int, h: int, q: Option<Key>)
    requires InsertSetting(u, b, n, p, h, q)
    ensures var r := InsertBlock(u, b, p, h);
      forall c | c in u :: c in r && ParentOk(r, c)
  {
    var g := GapRows(u, p, h);
    GapValid(u, p, h);
    var r := InsertBlock(u, b, p, h);
    InsertBlockCross(u, b, n, p, h, q);
    forall c | c in u
      ensures ParentOk(r, c)
    {
      assert ParentOk(g, c);
      assert r[c] == g[c];
      match g[c].parent
      case None =>
        forall a | a in r
          ensures !Contains(r[a], r[c])
        {
          if a in u {
            assert r[a] == g[a];
          }
        }
      case Some(pc) =>
        assert r[pc] == g[pc];
        forall a | a in r
          ensures !(Contains(r[pc], r[a]) && Contains(r[a], r[c]))
        {
          if a in u {
            assert r[a] == g[a];
          }
        }
    }
  }

  lemma {:induction false} InsertBlockNewParents(u: Table, b: Table, n: Key, p: int, h: int, q: Option<Key>)
    requires InsertSetting(u, b, n, p, h, q)
    ensures var r := InsertBlock(u, b, p, h);
      forall c | c in b && c != n :: c in r && ParentOk(r, c)
  {
    var r := InsertBlock(u, b, p, h);
    InsertBlockCross(u, b, n, p, h, q);
    forall c | c in b && c != n
      ensures ParentOk(r, c)
    {
      var pc := b[c].parent.value;
      assert Nearest(b, pc, c);
      assert r[c] == b[c] && r[pc] == b[pc];
      forall a | a in r
        ensures !(Contains(r[pc], r[a]) && Contains(r[a], r[c]))
      {
        if a in b {
          assert r[a] == b[a];
        }
      }
    }
  }

  lemma {:induction false} InsertBlockTopParent(u: Table, b: Table, n: Key, p: int, h: int, q: Option<Key>)
    requires InsertSetting(u, b, n, p, h, q)
    ensures n in InsertBlock(u, b, p, h) && ParentOk(InsertBlock(u, b, p, h), n)
  {
    var g := GapRows(u, p, h);
    var r := InsertBlock(u, b, p, h);
    InsertBlockCross(u, b, n, p, h, q);
    assert r[n] == b[n];
    match q
    case None =>
      forall a | a in r
        ensures !Contains(r[a], r[n])
      {
        if a in u {
          assert !Encloses(u[a], p);
        } else {
          assert r[a] == b[a];
        }
      }
    case Some(x) =>
      assert Encloses(u[x], p);
      assert r[x] == g[x];
      forall a | a in r
        ensures !(Contains(r[x], r[a]) && Contains(r[a], r[n]))
      {
        if a in u {
          assert r[a] == g[a];
          if Contains(r[a], r[n]) {
            assert Encloses(u[a], p);
            GapRowContains(u[x], u[a], p, h);
          }
        } else {
          assert r[a] == b[a];
        }
      }
  }

  /** Putting a block into a gap opened at `p` under `p`'s nearest enclosing
      row keeps a valid table valid. */
  lemma InsertBlockValid(u: Table, b: Table, n: Key, p: int, h: int, q: Option<Key>)
    requires Valid(u)
    requires BlockOk(b, n, p, h, q)
    requires u.Keys !! b.Keys
    requires NearestEnclosing(u, p, q)
    ensures Valid(InsertBlock(u, b, p, h))
  {
    assert WellFormed(b[n]);
    InsertSettingHeight(b[n], p, h);
    InsertBlockLaminar(u, b, n, p, h, q);
    InsertBlockOldParents(u, b, n, p, h, q);
    InsertBlockNewParents(u, b, n, p, h, q);
    InsertBlockTopParent(u, b, n, p, h, q);
    var r := InsertBlock(u, b, p, h);
    forall c | c in r
      ensures ParentOk(r, c)
    {
      if c !in u && c != n {
        assert c in b;
      }
    }
  }

  /** Removing node `n`'s subtree and closing the gap it leaves keeps a valid
      table valid. */
  lemma {:induction false} RemoveSubtreeAndCloseValid(t: Table, n: Key)
    requires Valid(t) && n in t
    ensures Valid(GapRows(t - Subtree(t, n), t[n].rgt + 1, -(t[n].rgt - t[n].lft + 1)))
  {
    RemoveSubtreeValid(t, n);
    var rest := t - Subtree(t, n);
    assert WellFormed(t[n]);
    RestAvoidsSubtree(t, n);
    GapValid(rest, t[n].rgt + 1, -(t[n].rgt - t[n].lft + 1));
  }

  lemma RestAvoidsSubtree(t: Table, n: Key)
    requires Valid(t) && n in t
    ensures AvoidsRange(t - Subtree(t, n), t[n].lft, t[n].rgt)
  {
    SubtreeSeparated(t, n);
  }
}

=== FILE: bounds.dfy ===
/** The two bulk bound rewrites every tree operation is built from
    (src/QueryBuilder.php): `makeGap`, which opens (or, with a negative
    height, closes) a gap at a cut point, and `moveNode`, which swaps a
    node's interval with the block of values between it and the target
    position. Both touch only rows of the query's scope and rewrite each
    bound column independently through the same CASE expression.
 */
module Bounds {
  import opened Types

  /** The CASE expression of `makeGap` applied to one bound. */
  function GapValue(v: int, cut: int, h: int): int {
    if v >= cut then v + h else v
  }

  /** A row the `makeGap` UPDATE matches. */
  predicate GapMatches(r: Row, s: nat, cut: int) {
    r.scope == s && (r.lft >= cut || r.rgt >= cut)
  }

  /** The `makeGap` rewrite of both bounds of one row. */
  function GapRow(r: Row, cut: int, h: int): Row {
    r.(lft := GapValue(r.lft, cut, h), rgt := GapValue(r.rgt, cut, h))
  }

  /** The `makeGap` rewrite of every row of an unscoped table. */
  function GapRows(t: Table, cut: int, h: int): (r: Table)
    ensures r.Keys == t.Keys
    ensures forall k | k in t :: r[k] == GapRow(t[k], cut, h)
  {
    map k | k in t :: GapRow(t[k], cut, h)
  }

  /** The rows of scope `s` whose stored row differs between `t` and `t'`. */
  function ChangedInScope(t: Table, t': Table, s: nat): (ks: set<Key>)
    ensures forall k :: k in ks <==> k in t && k in t' && t[k].scope == s && t'[k] != t[k]
  {
    set k | k in t && k in t' && t[k].scope == s && t'[k] != t[k]
  }

  /** `makeGap(cut, h)`: the table after the UPDATE and the number of rows
      it affected. Within the scope the result is the rewrite of every row
      (a row the WHERE clause skips has no bound the rewrite would change);
      outside it nothing changes. For a non-zero height the count is the
      number of rows of the scope whose stored row changed. */
  function MakeGap(t: Table, s: nat, cut: int, h: int): (r: (Table, nat))
    ensures r.0.Keys == t.Keys
    ensures r.1 <= |t|
    ensures OtherScopesUnchanged(t, r.0, s)
    ensures forall k | k in t && t[k].lft < cut && t[k].rgt < cut :: r.0[k] == t[k]
    ensures InScope(r.0, s) == GapRows(InScope(t, s), cut, h)
    ensures h != 0 ==> r.1 == |ChangedInScope(t, r.0, s)|
  {
    var matched := set k | k in t && GapMatches(t[k], s, cut);
    assert matched <= t.Keys;
    CardSubset(matched, t.Keys);
    var t' := map k | k in t :: if GapMatches(t[k], s, cut) then GapRow(t[k], cut, h) else t[k];
    GapUpdate(t, t', s, cut, h);
    GapMatchedChanged(t, t', matched, s, cut, h);
    (t', |matched|)
  }

  /** The row-by-row UPDATE of `makeGap` on the whole table. */
  lemma GapUpdate(t: Table, t': Table, s: nat, cut: int, h: int)
    requires t'.Keys == t.Keys
    requires forall k | k in t :: t'[k] == if GapMatches(t[k], s, cut) then GapRow(t[k], cut, h) else t[k]
    ensures OtherScopesUnchanged(t, t', s)
    ensures forall k | k in t && t[k].lft < cut && t[k].rgt < cut :: t'[k] == t[k]
    ensures InScope(t', s) == GapRows(InScope(t, s), cut, h)
  {
    assert InScope(t', s) == GapRows(InScope(t, s), cut, h);
  }

  /** With a non-zero height the rows the UPDATE matches are exactly the
      rows of the scope it changes. */
  lemma GapMatchedChanged(t: Table, t': Table, matched: set<Key>, s: nat, cut: int, h: int)
    requires t'.Keys == t.Keys
    requires forall k | k in t :: t'[k] == if GapMatches(t[k], s, cut) then GapRow(t[k], cut, h) else t[k]
    requires forall k :: k in matched <==> k in t && GapMatches(t[k], s, cut)
    ensures h != 0 ==> matched == ChangedInScope(t, t', s)
  {
    if h != 0 {
      assert matched == ChangedInScope(t, t', s);
    }
  }

  /** `makeGap` rewrites every row of its scope. */
  lemma GapScopeRows(t: Table, s: nat, cut: int, h: int)
    ensures forall j | j in t && t[j].scope == s :: MakeGap(t, s, cut, h).0[j] == GapRow(t[j], cut, h)
  {
    var g := MakeGap(t, s, cut, h).0;
    forall j | j in t && t[j].scope == s
      ensures g[j] == GapRow(t[j], cut, h)
    {
      assert InScope(t, s)[j] == t[j];
      assert InScope(g, s)[j] == g[j];
    }
  }

  /** On a table holding one scope only, `makeGap` rewrites every row. */
  lemma GapOneScope(t: Table, s: nat, cut: int, h: int)
    requires forall k | k in t :: t[k].scope == s
    ensures MakeGap(t, s, cut, h).0 == GapRows(t, cut, h)
  {
    var a := MakeGap(t, s, cut, h).0;
    var b := GapRows(t, cut, h);
    forall k | k in t
      ensures a[k] == b[k]
    {
      assert InScope(t, s)[k] == t[k];
      assert InScope(a, s)[k] == a[k];
    }
    TablesEqual(a, b);
  }

  lemma CardSubset<T>(a: set<T>, b: set<T>)
    requires a <= b
    ensures |a| <= |b|
  {
    if a != {} {
      var x :| x in a;
      CardSubset(a - {x}, b - {x});
    }
  }

  /** Opening a gap of height `h >= 0` and then closing it again (a
      negative height at the shifted cut) gives back every bound. */
  lemma GapValueRoundTrip(v: int, cut: int, h: int)
    requires h >= 0
    ensures GapValue(GapValue(v, cut, h), cut + h, -h) == v
  {
  }

  /** The same round trip on a whole table: `makeGap(cut, h)` followed by
      `makeGap(cut + h, -h)` restores the table. */
  lemma GapRoundTrip(t: Table, s: nat, cut: int, h: int)
    requires h >= 0
    ensures MakeGap(MakeGap(t, s, cut, h).0, s, cut + h, -h).0 == t
  {
    var t1 := MakeGap(t, s, cut, h).0;
    var t2 := MakeGap(t1, s, cut + h, -h).0;
    forall k | k in t
      ensures t2[k] == t[k]
    {
      if t[k].scope == s {
        assert InScope(t2, s)[k] == t2[k];
        assert InScope(t1, s)[k] == t1[k];
        GapValueRoundTrip(t[k].lft, cut, h);
        GapValueRoundTrip(t[k].rgt, cut, h);
      }
    }
  }

  /** Opening a gap (h >= 0) keeps the order of any two bounds; closing one
      (h < 0) keeps it for bounds outside the closed range [cut+h, cut-1]. */
  lemma GapKeepsOrder(u: int, v: int, cut: int, h: int)
    requires h >= 0 || ((u < cut + h || u >= cut) && (v < cut + h || v >= cut))
    ensures u < v <==> GapValue(u, cut, h) < GapValue(v, cut, h)
    ensures GapValue(v, cut, h) - GapValue(u, cut, h) == v - u
         || (u < cut <= v && GapValue(v, cut, h) - GapValue(u, cut, h) == v - u + h)
         || (v < cut <= u && GapValue(v, cut, h) - GapValue(u, cut, h) == v - u - h)
  {
  }

  /** The parameters `moveNode` computes before its UPDATE. `height` and
      `distance` already carry the sign the source gives them. */
  datatype Plan = Plan(lft: int, rgt: int, from: int, to: int, height: int, distance: int)

  /** The planning half of `moveNode`: refuse a position inside the node,
      report "nothing to do" when the node already sits there, otherwise
      the signed parameters of the UPDATE. */
  function PlanMove(lft: int, rgt: int, pos: int): (r: Result<Option<Plan>>)
    ensures r.Err? <==> lft < pos <= rgt
    ensures r.Err? ==> r.error == CyclicMove
    ensures lft <= rgt ==> (r == Ok(None) <==> pos == lft || pos == rgt + 1)
    ensures r.Ok? && r.value.Some? ==>
      var m := r.value.value;
      && m.lft == lft && m.rgt == rgt
      && m.from <= lft && rgt <= m.to
      && m.distance != 0
    ensures r.Ok? && r.value.Some? && lft <= rgt ==>
      var m := r.value.value;
      && (pos > rgt ==> m.from == lft && m.to == pos - 1 && m.height == -(rgt - lft + 1) && m.distance == pos - rgt - 1)
      && (pos < lft ==> m.from == pos && m.to == rgt && m.height == rgt - lft + 1 && m.distance == pos - lft)
  {
    if lft < pos <= rgt then Err(CyclicMove)
    else
      var from := if lft < pos then lft else pos;
      var to := if rgt > pos - 1 then rgt else pos - 1;
      var height := rgt - lft + 1;
      var distance := to - from + 1 - height;
      if distance == 0 then Ok(None)
      else if pos > lft then Ok(Some(Plan(lft, rgt, from, to, -height, distance)))
      else Ok(Some(Plan(lft, rgt, from, to, height, -distance)))
  }

  /** The CASE expression of `moveNode` applied to one bound. */
  function MoveValue(v: int, m: Plan): int {
    if m.lft <= v <= m.rgt then v + m.distance
    else if m.from <= v <= m.to then v + m.height
    else v
  }

  /** The inverse CASE: where the moved block and the displaced values came
      from. */
  function MoveBack(w: int, m: Plan): int {
    if m.lft + m.distance <= w <= m.rgt + m.distance then w - m.distance
    else if m.from <= w <= m.to then w - m.height
    else w
  }

  /** A plan `PlanMove` can produce. */
  predicate PlanFrom(m: Plan, pos: int) {
    m.lft <= m.rgt && PlanMove(m.lft, m.rgt, pos) == Ok(Some(m))
  }

  /** `moveNode`'s rewrite is a permutation of the window [from, to] that
      leaves every other value fixed: it maps the window into itself and
      `MoveBack` undoes it in both directions. */
  lemma MovePermutesWindow(m: Plan, pos: int, v: int)
    requires PlanFrom(m, pos)
    ensures m.from <= v <= m.to ==> m.from <= MoveValue(v, m) <= m.to
    ensures !(m.from <= v <= m.to) ==> MoveValue(v, m) == v
    ensures MoveBack(MoveValue(v, m), m) == v
    ensures MoveValue(MoveBack(v, m), m) == v
  {
  }

  /** The moved node lands with its left bound at the position (moving
      left) or at the position minus its height (moving right), and every
      bound inside it keeps its offset from the left bound. */
  lemma MoveLandsAtPosition(m: Plan, pos: int, v: int)
    requires PlanFrom(m, pos)
    requires m.lft <= v <= m.rgt
    ensures MoveValue(m.lft, m) == (if pos > m.lft then pos - (m.rgt - m.lft + 1) else pos)
    ensures MoveValue(v, m) - MoveValue(m.lft, m) == v - m.lft
  {
  }

  /** Rows the `moveNode` UPDATE matches. */
  predicate MoveMatches(r: Row, s: nat, m: Plan) {
    r.scope == s && ((m.from <= r.lft <= m.to) || (m.from <= r.rgt <= m.to))
  }

  /** The `moveNode` rewrite of both bounds of one row. */
  function MoveRow(r: Row, m: Plan): Row {
    r.(lft := MoveValue(r.lft, m), rgt := MoveValue(r.rgt, m))
  }

  /** The `moveNode` rewrite of every row of an unscoped table. */
  function MoveRows(t: Table, m: Plan): (r: Table)
    ensures r.Keys == t.Keys
    ensures forall k | k in t :: r[k] == MoveRow(t[k], m)
  {
    map k | k in t :: MoveRow(t[k], m)
  }

  /** The UPDATE of `moveNode`: the table afterwards and the number of rows
      it affected. Within the scope the result is the rewrite of every row;
      outside it nothing changes. */
  function MoveTable(t: Table, s: nat, m: Plan): (r: (Table, nat))
    requires m.from <= m.lft && m.rgt <= m.to
    ensures r.0.Keys == t.Keys
    ensures r.1 <= |t|
    ensures OtherScopesUnchanged(t, r.0, s)
    ensures InScope(r.0, s) == MoveRows(InScope(t, s), m)
    ensures r.1 == 0 ==> r.0 == t
  {
    var matched := set k | k in t && MoveMatches(t[k], s, m);
    assert matched <= t.Keys;
    CardSubset(matched, t.Keys);
    var t' := map k | k in t :: if MoveMatches(t[k], s, m) then MoveRow(t[k], m) else t[k];
    assert InScope(t', s) == MoveRows(InScope(t, s), m);
    assert |matched| == 0 ==> t' == t by {
      if |matched| == 0 {
        assert forall k | k in t :: k !in matched;
      }
    }
    (t', |matched|)
  }

  /** `QueryBuilder::moveNode($key, $position)`: the node must be a row of
      the scope; a position strictly inside it is refused; a position the
      node already occupies changes nothing and reports 0 rows. */
  function MoveNode(t: Table, s: nat, key: Key, pos: int): (r: Result<(Table, nat)>)
    requires key in t && t[key].scope == s
    ensures r.Err? <==> t[key].lft < pos <= t[key].rgt
    ensures r.Ok? ==> r.value.0.Keys == t.Keys && OtherScopesUnchanged(t, r.value.0, s)
    ensures r.Ok? && t[key].lft <= t[key].rgt ==>
      (r.value.1 == 0 <==> pos == t[key].lft || pos == t[key].rgt + 1)
    ensures r.Ok? && r.value.1 == 0 ==> r.value.0 == t
  {
    var plan :- PlanMove(t[key].lft, t[key].rgt, pos);
    match plan
    case None => Ok((t, 0))
    case Some(m) =>
      var res := MoveTable(t, s, m);
      var matched := set k | k in t && MoveMatches(t[k], s, m);
      if t[key].lft <= t[key].rgt then
        assert MoveMatches(t[key], s, m);
        assert {key} <= matched;
        CardSubset({key}, matched);
        Ok(res)
      else
        Ok(res)
  }
}

=== FILE: checker.dfy ===
/** The consistency checker of src/QueryBuilder.php: `countErrors` runs
    four counting queries over the rows of one scope (trashed rows
    included) and `isBroken` holds when their sum is positive.

    Each query is modelled as the set of rows (or pairs, or triples of
    rows, for the self-joins) its WHERE clause admits; the count is that
    set's size. The wrong-parent query joins a third row `i` even for its
    first disjunct, so it counts triples and finds nothing in a scope of
    fewer than three rows; `WrongParentRows` is the check without that
    join, which is what the rebuilder's results are measured against.
 */
module Checker {
  import opened Types
  import opened Tree

  datatype ErrorCounts = ErrorCounts(oddness: nat, duplicates: nat, wrongParent: nat, missingParent: nat) {
    function Total(): nat {
      oddness + duplicates + wrongParent + missingParent
    }
  }

  /** SQL `v between lo and hi`. */
  predicate Between(v: int, lo: int, hi: int) {
    lo <= v <= hi
  }

  /** The oddness query: `lft >= rgt` or an even `rgt - lft`. */
  predicate BadBounds(r: Row) {
    r.lft >= r.rgt || (r.rgt - r.lft) % 2 == 0
  }

  function OddRows(u: Table): (d: set<Key>)
    ensures d <= u.Keys
    ensures forall k | k in u :: k in d <==> !WellFormed(u[k])
  {
    set k | k in u && BadBounds(u[k])
  }

  /** Two rows share a bound, in any of the four combinations. */
  predicate SharesBound(a: Row, b: Row) {
    a.lft == b.lft || a.rgt == b.rgt || a.lft == b.rgt || a.rgt == b.lft
  }

  /** The duplicates query: pairs with the smaller key first. */
  function DuplicatePairs(u: Table): (d: set<(Key, Key)>)
    ensures forall a, b :: (a, b) in d <==> a in u && b in u && a < b && SharesBound(u[a], u[b])
  {
    set a, b | a in u && b in u && a < b && SharesBound(u[a], u[b]) :: (a, b)
  }

  /** The WHERE clause of the wrong-parent query for child `c`, its parent
      row `p` and a third row `i`: the child's left bound lies outside the
      parent, or inside `i` while `i` starts inside the parent (SQL `and`
      binds tighter than `or`). */
  predicate WrongParentMatch(c: Row, p: Row, i: Row) {
    !Between(c.lft, p.lft, p.rgt) || (Between(c.lft, i.lft, i.rgt) && Between(i.lft, p.lft, p.rgt))
  }

  /** The wrong-parent query as written: a join of child, parent and a
      third row distinct from both. */
  function WrongParentTriples(u: Table): (d: set<(Key, Key, Key)>)
    ensures forall c, p, i :: (c, p, i) in d <==>
      c in u && p in u && i in u && u[c].parent == Some(p) && i != p && i != c && WrongParentMatch(u[c], u[p], u[i])
  {
    set c, p, i | c in u && p in u && i in u && u[c].parent == Some(p) && i != p && i != c
      && WrongParentMatch(u[c], u[p], u[i]) :: (c, p, i)
  }

  /** Row `c`'s parent row exists but does not hold it directly: the
      child's left bound lies outside the parent, or some third row
      between them holds it. */
  predicate WrongParentRow(u: Table, c: Key)
    requires c in u
  {
    && u[c].parent.Some? && u[c].parent.value in u
    && var p := u[c].parent.value;
      || !Between(u[c].lft, u[p].lft, u[p].rgt)
      || exists i | i in u && i != p && i != c :: Between(u[c].lft, u[i].lft, u[i].rgt) && Between(u[i].lft, u[p].lft, u[p].rgt)
  }

  /** The wrong-parent check counting rows, without the third-row join. */
  function WrongParentRows(u: Table): (d: set<Key>)
    ensures d <= u.Keys
    ensures forall c | c in u :: c in d <==> WrongParentRow(u, c)
  {
    set c | c in u && WrongParentRow(u, c)
  }

  /** The missing-parent query: a parent id that names no row of the
      scope. */
  function MissingParentRows(u: Table): (d: set<Key>)
    ensures forall c :: c in d <==> c in u && u[c].parent.Some? && u[c].parent.value !in u
  {
    set c | c in u && u[c].parent.Some? && u[c].parent.value !in u
  }

  /** `countErrors()` on scope `s`, as the source computes it. */
  function CountErrors(t: Table, s: nat): ErrorCounts {
    var u := InScope(t, s);
    ErrorCounts(|OddRows(u)|, |DuplicatePairs(u)|, |WrongParentTriples(u)|, |MissingParentRows(u)|)
  }

  /** `countErrors()` with the wrong-parent check counting rows and not
      needing a third row. */
  function CountErrorsCorrected(t: Table, s: nat): ErrorCounts {
    var u := InScope(t, s);
    ErrorCounts(|OddRows(u)|, |DuplicatePairs(u)|, |WrongParentRows(u)|, |MissingParentRows(u)|)
  }

  /** `isBroken()`: some check found something. */
  predicate IsBroken(t: Table, s: nat) {
    CountErrors(t, s).Total() > 0
  }

  predicate IsBrokenCorrected(t: Table, s: nat) {
    CountErrorsCorrected(t, s).Total() > 0
  }

  lemma EmptyCard<T>(d: set<T>)
    requires forall x :: x !in d
    ensures |d| == 0
  {
    assert d == {};
  }

  /** A valid tree has no error of any kind, by either count. */
  lemma ValidHasNoErrors(t: Table, s: nat)
    requires ValidTree(t, s)
    ensures CountErrors(t, s) == ErrorCounts(0, 0, 0, 0)
    ensures CountErrorsCorrected(t, s) == ErrorCounts(0, 0, 0, 0)
    ensures !IsBroken(t, s) && !IsBrokenCorrected(t, s)
  {
    var u := InScope(t, s);
    ValidNoOddRows(u);
    ValidNoDuplicates(u);
    ValidNoWrongParents(u);
    ValidNoMissingParents(u);
  }

  lemma {:induction false} ValidNoOddRows(u: Table)
    requires Valid(u)
    ensures |OddRows(u)| == 0
  {
    forall k | k in u
      ensures k !in OddRows(u)
    {
      assert WellFormed(u[k]);
    }
    EmptyCard(OddRows(u));
  }

  lemma {:induction false} ValidNoDuplicates(u: Table)
    requires Valid(u)
    ensures |DuplicatePairs(u)| == 0
  {
    forall a, b | a in u && b in u && a < b
      ensures !SharesBound(u[a], u[b])
    {
      DistinctBounds(u, a, b);
      DistinctBounds(u, b, a);
    }
    EmptyCard(DuplicatePairs(u));
  }

  lemma {:induction false} ValidNoWrongParents(u: Table)
    requires Valid(u)
    ensures |WrongParentRows(u)| == 0 && |WrongParentTriples(u)| == 0
  {
    forall c | c in u
      ensures c !in WrongParentRows(u)
    {
      if u[c].parent.Some? {
        NoWrongParent(u, c);
      }
    }
    EmptyCard(WrongParentRows(u));
    forall c, p, i | c in u && p in u && i in u && u[c].parent == Some(p) && i != p && i != c
      ensures !WrongParentMatch(u[c], u[p], u[i])
    {
      NoWrongParent(u, c);
    }
    EmptyCard(WrongParentTriples(u));
  }

  lemma {:induction false} ValidNoMissingParents(u: Table)
    requires Valid(u)
    ensures |MissingParentRows(u)| == 0
  {
    forall c | c in u && u[c].parent.Some?
      ensures u[c].parent.value in u
    {
      assert ParentOk(u, c);
    }
    EmptyCard(MissingParentRows(u));
  }

  /** In a valid tree a child lies inside its parent and no third row sits
      between them. */
  lemma {:induction false} NoWrongParent(u: Table, c: Key)
    requires Valid(u) && c in u && u[c].parent.Some?
    ensures var p := u[c].parent.value;
      && p in u
      && Between(u[c].lft, u[p].lft, u[p].rgt)
      && forall i | i in u && i != p && i != c :: !(Between(u[c].lft, u[i].lft, u[i].rgt) && Between(u[i].lft, u[p].lft, u[p].rgt))
  {
    assert ParentOk(u, c);
    var p := u[c].parent.value;
    assert Nearest(u, p, c);
    forall i | i in u && i != p && i != c
      ensures !(Between(u[c].lft, u[i].lft, u[i].rgt) && Between(u[i].lft, u[p].lft, u[p].rgt))
    {
      DistinctBounds(u, i, c);
      DistinctBounds(u, i, p);
      assert Laminar(u[i], u[c]) && Laminar(u[i], u[p]);
      assert WellFormed(u[i]) && WellFormed(u[c]);
      assert !(Contains(u[p], u[i]) && Contains(u[i], u[c]));
    }
  }

  /** Two rows side by side, the second naming the first as its parent. */
  const Apart: Table := map[1 := Row(1, 2, None, 0, None), 2 := Row(3, 4, Some(1), 0, None)]

  /** The as-written wrong-parent query finds nothing in a scope of two
      rows: a child lying wholly outside its parent goes unreported, and
      `isBroken()` is false for a table that is not a valid tree. */
  lemma WrongParentNeedsThirdRow()
    ensures !IsBroken(Apart, 0)
    ensures IsBrokenCorrected(Apart, 0)
    ensures !ValidTree(Apart, 0)
  {
    ApartCounts();
    ApartScope();
    ApartInvalid();
  }

  lemma ApartCounts()
    ensures CountErrors(Apart, 0).Total() == 0
    ensures CountErrorsCorrected(Apart, 0).wrongParent > 0
  {
    var u := InScope(Apart, 0);
    ApartScope();
    ApartClean();
    ApartWrongParent();
    assert CountErrors(Apart, 0) == ErrorCounts(|OddRows(u)|, |DuplicatePairs(u)|, |WrongParentTriples(u)|, |MissingParentRows(u)|);
    assert CountErrorsCorrected(Apart, 0).wrongParent == |WrongParentRows(u)|;
  }

  lemma ApartInvalid()
    ensures !Valid(Apart)
  {
    assert 2 in Apart && !ParentOk(Apart, 2);
  }

  lemma ApartScope()
    ensures InScope(Apart, 0) == Apart
  {
    assert InScope(Apart, 0).Keys == {1, 2};
  }

  lemma ApartClean()
    ensures |OddRows(Apart)| == 0 && |DuplicatePairs(Apart)| == 0
    ensures |WrongParentTriples(Apart)| == 0 && |MissingParentRows(Apart)| == 0
  {
    assert Apart.Keys == {1, 2};
    EmptyCard(OddRows(Apart));
    EmptyCard(DuplicatePairs(Apart));
    EmptyCard(WrongParentTriples(Apart));
    EmptyCard(MissingParentRows(Apart));
  }

  lemma ApartWrongParent()
    ensures |WrongParentRows(Apart)| > 0
  {
    var d := WrongParentRows(Apart);
    assert 2 in d;
    assert d != {};
  }

  /** What the corrected checker does establish: in a scope whose
      intervals are well formed, laminar and never share a bound, a clean
      wrong-parent and missing-parent count means every parent id names
      the nearest enclosing row (a row naming itself as parent aside). */
  lemma {:induction false} CorrectedCheckFindsParents(u: Table)
    requires forall x, y | x in u && y in u && x != y :: Laminar(u[x], u[y])
    requires OddRows(u) == {} && DuplicatePairs(u) == {}
    requires WrongParentRows(u) == {} && MissingParentRows(u) == {}
    ensures forall c | c in u && u[c].parent.Some? && u[c].parent.value != c :: Nearest(u, u[c].parent.value, c)
  {
    forall c | c in u && u[c].parent.Some? && u[c].parent.value != c
      ensures Nearest(u, u[c].parent.value, c)
    {
      var p := u[c].parent.value;
      assert c !in MissingParentRows(u) && c !in WrongParentRows(u);
      assert p in u;
      assert c !in OddRows(u) && p !in OddRows(u);
      var lo, hi := if c < p then c else p, if c < p then p else c;
      assert (lo, hi) !in DuplicatePairs(u);
      assert Laminar(u[p], u[c]);
      forall a | a in u
        ensures !(Contains(u[p], u[a]) && Contains(u[a], u[c]))
      {
        if a != p && a != c && Contains(u[p], u[a]) && Contains(u[a], u[c]) {
          assert Between(u[c].lft, u[a].lft, u[a].rgt) && Between(u[a].lft, u[p].lft, u[p].rgt);
          assert false;
        }
      }
    }
  }

  /** A root nested inside another row is not an error for any of the
      four checks: the checker only looks at rows that have a parent. */
  lemma NestedRootUndetected()
    ensures var t := map[1 := Row(1, 4, None, 0, None), 2 := Row(2, 3, None, 0, None)];
      && CountErrors(t, 0) == ErrorCounts(0, 0, 0, 0)
      && CountErrorsCorrected(t, 0) == ErrorCounts(0, 0, 0, 0)
      && !ValidTree(t, 0)
  {
    var t := map[1 := Row(1, 4, None, 0, None), 2 := Row(2, 3, None, 0, None)];
    var u := InScope(t, 0);
    assert u == t;
    assert Contains(u[1], u[2]);
    assert !ParentOk(u, 2);
    EmptyCard(OddRows(u));
    EmptyCard(DuplicatePairs(u));
    EmptyCard(WrongParentTriples(u));
    EmptyCard(WrongParentRows(u));
    EmptyCard(MissingParentRows(u));
  }
}

=== FILE: collection.dfy ===
/** src/Collection.php: turning a flat list of loaded nodes into a tree in
    memory. Nothing here touches the table; a collection only looks at each
    node's key, left bound and parent id, in the order the nodes were
    loaded.

    `groupBy(parent_id)` buckets the nodes by parent id in collection
    order; `linkNodes` fills every node's `children` with its bucket and
    points each child's `parent` at the node; `toTree` keeps the nodes whose
    parent id equals the root id; `toFlatTree` lists every node followed by
    its own flattened bucket, starting from the root id's bucket.

    The PHP comparisons are modelled as written: `toTree` compares parent
    ids with `==`, under which `null == 0`, and `linkNodes` clears the
    parent of a node whose parent id is falsy (null or 0). The bucket
    lookups use array keys, under which null and 0 are distinct keys.
 */
module Collection {
  import opened Types
  import opened Tree

  /** A loaded node as a collection sees it. */
  datatype Item = Item(key: Key, lft: int, parent: Option<Key>)

  /** `groupBy(parent_id)->get(p, [])`: the items whose parent id is `p`,
      in collection order. */
  function Group(items: seq<Item>, p: Option<Key>): (g: seq<Item>)
    ensures forall x :: x in g <==> x in items && x.parent == p
    ensures |g| <= |items|
  {
    if items == [] then []
    else (if items[0].parent == p then [items[0]] else []) + Group(items[1..], p)
  }

  /** Bucketing keeps collection order: the bucket of a joined list is the
      first part's bucket followed by the second's. */
  lemma {:induction false} GroupAppend(a: seq<Item>, b: seq<Item>, p: Option<Key>)
    ensures Group(a + b, p) == Group(a, p) + Group(b, p)
  {
    if a == [] {
      assert a + b == b;
    } else {
      assert (a + b)[0] == a[0];
      assert (a + b)[1..] == a[1..] + b;
      GroupAppend(a[1..], b, p);
    }
  }

  /** A falsy parent id: `! $node->getParentId()`. */
  predicate Falsy(p: Option<Key>) {
    p == None || p == Some(0)
  }

  /** The items whose parent id is `==` to `p`, in collection order. */
  function LooseGroup(items: seq<Item>, p: Option<Key>): (g: seq<Item>)
    ensures forall x :: x in g <==> x in items && LooseEq(x.parent, p)
  {
    if items == [] then []
    else (if LooseEq(items[0].parent, p) then [items[0]] else []) + LooseGroup(items[1..], p)
  }

  /** The loose selection keeps collection order too. */
  lemma {:induction false} LooseGroupAppend(a: seq<Item>, b: seq<Item>, p: Option<Key>)
    ensures LooseGroup(a + b, p) == LooseGroup(a, p) + LooseGroup(b, p)
  {
    if a == [] {
      assert a + b == b;
    } else {
      assert (a + b)[0] == a[0];
      assert (a + b)[1..] == a[1..] + b;
      LooseGroupAppend(a[1..], b, p);
    }
  }

  /** Without a parent id 0 and a root id 0, `==` on parent ids is plain
      equality, and the loose selection is the bucket. */
  lemma {:induction false} LooseGroupIsGroup(items: seq<Item>, p: Option<Key>)
    requires p != Some(0)
    requires forall i | 0 <= i < |items| :: items[i].parent != Some(0)
    ensures LooseGroup(items, p) == Group(items, p)
  {
    if items != [] {
      LooseGroupIsGroup(items[1..], p);
    }
  }

  /** The scan of `getRootNodeId`: the position of the first item with the
      least left bound (a later item replaces the current one only when its
      left bound is strictly smaller). */
  function FirstLeast(items: seq<Item>): (i: nat)
    requires items != []
    ensures i < |items|
    ensures forall j | 0 <= j < |items| :: items[i].lft <= items[j].lft
    ensures forall j | 0 <= j < i :: items[i].lft < items[j].lft
  {
    if |items| == 1 then 0
    else
      var i := FirstLeast(items[..|items| - 1]);
      if items[|items| - 1].lft < items[i].lft then |items| - 1 else i
  }

  /** The `$root` argument: left out (`false`), a node, or an explicit
      value, `null` included. */
  datatype RootArg = Unset | OfNode(node: Item) | Given(id: Option<Key>)

  /** `getRootNodeId($root)`: a node gives its key, an explicit value is
      kept, and otherwise the parent id of the first item with the least
      left bound is the root id. Both callers return early on an empty
      collection, so the scan always sees an item. */
  function RootNodeId(items: seq<Item>, root: RootArg): (r: Option<Key>)
    requires root.Unset? ==> items != []
    ensures root.OfNode? ==> r == Some(root.node.key)
    ensures root.Given? ==> r == root.id
    ensures root.Unset? ==> exists i | 0 <= i < |items| :: r == items[i].parent && forall j | 0 <= j < |items| :: items[i].lft <= items[j].lft
  {
    match root
    case OfNode(node) => Some(node.key)
    case Given(id) => id
    case Unset => items[FirstLeast(items)].parent
  }

  /** `toTree($root)`: the items whose parent id is `==` to the root id,
      in collection order; an empty collection gives an empty tree. */
  function ToTree(items: seq<Item>, root: RootArg): (r: seq<Item>)
    ensures items == [] ==> r == []
    ensures items != [] ==> forall x :: x in r <==> x in items && LooseEq(x.parent, RootNodeId(items, root))
    ensures forall x | x in r :: x in items
  {
    if items == [] then [] else LooseGroup(items, RootNodeId(items, root))
  }

  /** What `linkNodes` leaves in a node's `parent` relation: whatever was
      there before, `null`, or the node at some position. */
  datatype ParentLink = Untouched | NoParent | LinkedTo(index: nat)

  /** The last position before `n` holding an item with key `p`. */
  function LastWithKey(items: seq<Item>, p: Key, n: nat): (r: Option<nat>)
    requires n <= |items|
    ensures r.Some? ==> r.value < n && items[r.value].key == p
    ensures r.Some? ==> forall j | r.value < j < n :: items[j].key != p
    ensures r.None? ==> forall j | 0 <= j < n :: items[j].key != p
  {
    if n == 0 then None
    else if items[n - 1].key == p then Some(n - 1)
    else LastWithKey(items, p, n - 1)
  }

  /** The `parent` relation of item `i` once the first `n` rounds of the
      loop of `linkNodes` have run: round `m` clears item `m`'s parent when
      its parent id is falsy, then points every item of its bucket at
      item `m`. */
  function LinkAfter(items: seq<Item>, i: nat, n: nat): ParentLink
    requires i < |items| && n <= |items|
  {
    if n == 0 then Untouched
    else
      var m := n - 1;
      if items[i].parent == Some(items[m].key) then LinkedTo(m)
      else if i == m && Falsy(items[i].parent) then NoParent
      else LinkAfter(items, i, m)
  }

  /** What the rounds leave in a node's `parent`, stated without the loop:
      a node with a parent id is linked to the last item carrying that key,
      a node without one is cleared in its own round, and a node with
      parent id 0 keeps whichever of the two came later. */
  lemma {:induction false} LinkAfterIs(items: seq<Item>, i: nat, n: nat)
    requires i < |items| && n <= |items|
    ensures items[i].parent == None ==> LinkAfter(items, i, n) == if i < n then NoParent else Untouched
    ensures items[i].parent.Some? ==>
      var last := LastWithKey(items, items[i].parent.value, n);
      var cleared := i < n && items[i].parent == Some(0);
      LinkAfter(items, i, n) ==
        if last.Some? && (!cleared || last.value >= i) then LinkedTo(last.value)
        else if cleared then NoParent
        else Untouched
  {
    if n > 0 {
      LinkAfterIs(items, i, n - 1);
    }
  }

  /** `linkNodes()`, round by round as the loop runs: the parent
      relation of every item, and the `children` of every item (its
      bucket). */
  method LinkNodes(items: seq<Item>) returns (parents: seq<ParentLink>, children: seq<seq<Item>>)
    ensures |parents| == |items| && |children| == |items|
    ensures forall i | 0 <= i < |items| :: parents[i] == LinkAfter(items, i, |items|)
    ensures forall i | 0 <= i < |items| :: children[i] == Group(items, Some(items[i].key))
  {
    parents := seq(|items|, _ => Untouched);
    children := [];
    var n := 0;
    while n < |items|
      invariant n <= |items|
      invariant |parents| == |items| && |children| == n
      invariant forall i | 0 <= i < |items| :: parents[i] == LinkAfter(items, i, n)
      invariant forall i | 0 <= i < n :: children[i] == Group(items, Some(items[i].key))
    {
      parents := LinkRound(items, n, parents);
      children := Extend(items, children, n);
      n := n + 1;
    }
  }

  /** Item `n`'s bucket set as its children after the first `n`. */
  function Extend(items: seq<Item>, children: seq<seq<Item>>, n: nat): (r: seq<seq<Item>>)
    requires n < |items| && |children| == n
    requires forall i | 0 <= i < n :: children[i] == Group(items, Some(items[i].key))
    ensures |r| == n + 1
    ensures forall i | 0 <= i <= n :: r[i] == Group(items, Some(items[i].key))
  {
    var r := children + [Group(items, Some(items[n].key))];
    assert forall i | 0 <= i < n :: r[i] == children[i];
    r
  }

  /** Round `n` of `linkNodes`: item `n`'s parent is cleared when its
      parent id is falsy, then every item of its bucket points at it. */
  method LinkRound(items: seq<Item>, n: nat, parents: seq<ParentLink>) returns (r: seq<ParentLink>)
    requires n < |items| && |parents| == |items|
    requires forall i | 0 <= i < |items| :: parents[i] == LinkAfter(items, i, n)
    ensures |r| == |items|
    ensures forall i | 0 <= i < |items| :: r[i] == LinkAfter(items, i, n + 1)
  {
    r := parents;
    if Falsy(items[n].parent) {
      r := r[n := NoParent];
    }
    var j := 0;
    while j < |items|
      invariant j <= |items| && |r| == |items|
      invariant forall i | 0 <= i < j :: r[i] == LinkAfter(items, i, n + 1)
      invariant forall i | j <= i < |items| ::
        r[i] == if i == n && Falsy(items[i].parent) then NoParent else LinkAfter(items, i, n)
    {
      if items[j].parent == Some(items[n].key) {
        r := r[j := LinkedTo(n)];
      }
      j := j + 1;
    }
  }

  /** `linkNodes` on a collection with distinct keys and no parent id 0:
      a node without a parent id has none; a node whose parent is loaded
      is linked to it; any other node keeps its old relation. Every link
      goes to the node whose key is the parent id. */
  lemma LinkNodesMeaning(items: seq<Item>, i: nat)
    requires i < |items| && items[i].parent != Some(0)
    ensures items[i].parent == None ==> LinkAfter(items, i, |items|) == NoParent
    ensures items[i].parent.Some? && (forall j | 0 <= j < |items| :: Some(items[j].key) != items[i].parent) ==>
      LinkAfter(items, i, |items|) == Untouched
    ensures LinkAfter(items, i, |items|).LinkedTo? ==>
      var j := LinkAfter(items, i, |items|).index;
      j < |items| && Some(items[j].key) == items[i].parent
    ensures forall j | 0 <= j < |items| && Some(items[j].key) == items[i].parent ::
      (forall j' | j < j' < |items| :: items[j'].key != items[j].key) ==> LinkAfter(items, i, |items|) == LinkedTo(j)
  {
    LinkAfterIs(items, i, |items|);
  }

  /** The keys a flattening can descend into. */
  function KeySet(items: seq<Item>): (ks: set<Option<Key>>)
    ensures forall i | 0 <= i < |items| :: Some(items[i].key) in ks
  {
    set i | 0 <= i < |items| :: Some(items[i].key)
  }

  lemma KeyOf(items: seq<Item>, x: Item)
    requires x in items
    ensures Some(x.key) in KeySet(items)
  {
    var i :| 0 <= i < |items| && items[i] == x;
  }

  /** `flattenTree($grouped, $p)`: each item of the bucket of `p` followed
      by the flattening of its own bucket. `path` holds the ids the
      recursion is inside of; descending into one of them again repeats
      the same calls forever, which is `None`. */
  function FlattenTree(items: seq<Item>, p: Option<Key>, path: set<Option<Key>>): (r: Option<seq<Item>>)
    decreases KeySet(items) - path, 1, 0
  {
    FlattenGroup(items, Group(items, p), path)
  }

  /** The loop of `flattenTree` over the items of one bucket. */
  function FlattenGroup(items: seq<Item>, g: seq<Item>, path: set<Option<Key>>): (r: Option<seq<Item>>)
    requires forall x | x in g :: x in items
    decreases KeySet(items) - path, 0, |g|
  {
    if g == [] then Some([])
    else if Some(g[0].key) in path then None
    else
      assert Some(g[0].key) in KeySet(items) by {
        KeyOf(items, g[0]);
      }
      match FlattenTree(items, Some(g[0].key), path + {Some(g[0].key)})
      case None => None
      case Some(sub) =>
        match FlattenGroup(items, g[1..], path)
        case None => None
        case Some(rest) => Some([g[0]] + sub + rest)
  }

  /** `toFlatTree($root)`: the flattening from the root id, or `None`
      when it does not end. An empty collection gives an empty list. */
  function ToFlatTree(items: seq<Item>, root: RootArg): (r: Option<seq<Item>>)
    ensures items == [] ==> r == Some([])
  {
    if items == [] then Some([])
    else
      var id := RootNodeId(items, root);
      FlattenTree(items, id, {id})
  }

  /** Distinct keys: every loaded node is a different row. */
  predicate DistinctKeys(items: seq<Item>) {
    forall i, j | 0 <= i < j < |items| :: items[i].key != items[j].key
  }

  /** A parent loaded together with its child lies to its left, as in
      every valid nested set. */
  predicate ParentsLeft(items: seq<Item>) {
    forall i, j | 0 <= i < |items| && 0 <= j < |items| && items[i].parent == Some(items[j].key) ::
      items[j].lft < items[i].lft
  }

  /** Every id on the path that is an item's key belongs to an item lying
      left of every item of the bucket being flattened. */
  predicate PathLeftOf(items: seq<Item>, path: set<Option<Key>>, g: seq<Item>) {
    forall i, x | 0 <= i < |items| && Some(items[i].key) in path && x in g :: items[i].lft < x.lft
  }

  /** Descending into an item of the bucket keeps the path left of the
      new bucket. */
  lemma PathLeftStep(items: seq<Item>, path: set<Option<Key>>, g: seq<Item>, i: nat)
    requires DistinctKeys(items) && ParentsLeft(items)
    requires PathLeftOf(items, path, g) && i < |items| && items[i] in g
    ensures PathLeftOf(items, path + {Some(items[i].key)}, Group(items, Some(items[i].key)))
  {
    var x := items[i];
    var path' := path + {Some(x.key)};
    forall a, y | 0 <= a < |items| && Some(items[a].key) in path' && y in Group(items, Some(x.key))
      ensures items[a].lft < y.lft
    {
      var b :| 0 <= b < |items| && items[b] == y;
      assert items[b].parent == Some(items[i].key);
      if Some(items[a].key) in path {
        assert items[a].lft < x.lft;
      } else {
        assert a == i;
      }
    }
  }

  /** With distinct keys and parents to the left, a flattening whose
      path lies left of its bucket ends. */
  lemma {:induction false} FlattenGroupEnds(items: seq<Item>, g: seq<Item>, path: set<Option<Key>>)
    requires DistinctKeys(items) && ParentsLeft(items)
    requires forall x | x in g :: x in items
    requires PathLeftOf(items, path, g)
    ensures FlattenGroup(items, g, path).Some?
    decreases KeySet(items) - path, |g|
  {
    if g != [] {
      var x := g[0];
      assert x in g;
      var i :| 0 <= i < |items| && items[i] == x;
      assert Some(x.key) !in path;
      KeyOf(items, x);
      PathLeftStep(items, path, g, i);
      FlattenGroupEnds(items, Group(items, Some(x.key)), path + {Some(x.key)});
      assert PathLeftOf(items, path, g[1..]);
      FlattenGroupEnds(items, g[1..], path);
    }
  }

  /** The items of a collection loaded from table `t`: each carries its
      row's key, left bound and parent id. */
  predicate LoadedFrom(items: seq<Item>, t: Table) {
    forall i | 0 <= i < |items| ::
      items[i].key in t && items[i].lft == t[items[i].key].lft && items[i].parent == t[items[i].key].parent
  }

  /** In a collection loaded from a valid tree a parent lies left of its
      children, whatever rows the query selected. */
  lemma LoadedParentsLeft(items: seq<Item>, t: Table)
    requires Valid(t) && LoadedFrom(items, t)
    ensures ParentsLeft(items)
  {
    forall i, j | 0 <= i < |items| && 0 <= j < |items| && items[i].parent == Some(items[j].key)
      ensures items[j].lft < items[i].lft
    {
      var c := items[i].key;
      assert ParentOk(t, c);
    }
  }

  /** `toFlatTree` ends on every collection with distinct keys whose
      loaded parents lie to the left of their children, whatever the root
      id; on other collections the recursion can repeat forever. */
  lemma FlatTreeEnds(items: seq<Item>, root: RootArg)
    requires DistinctKeys(items) && ParentsLeft(items)
    ensures ToFlatTree(items, root).Some?
  {
    if items != [] {
      var id := RootNodeId(items, root);
      FlattenGroupEnds(items, Group(items, id), {id});
    }
  }

  /** Two items loaded from one row, and a root id that is the key of one
      of them: flattening from it comes back to it and never ends. */
  lemma FlatTreeCycle()
    ensures ToFlatTree([Item(1, 1, Some(2)), Item(2, 2, Some(1))], Given(Some(1))) == None
  {
    var items := [Item(1, 1, Some(2)), Item(2, 2, Some(1))];
    assert RootNodeId(items, Given(Some(1))) == Some(1);
    assert Group(items, Some(1)) == [items[1]] by {
      assert items[1..] == [items[1]];
      assert items[1..][1..] == [];
    }
    assert Group(items, Some(2)) == [items[0]] by {
      assert items[1..] == [items[1]];
      assert items[1..][1..] == [];
    }
    assert FlattenGroup(items, [items[0]], {Some(1), Some(2)}) == None;
    assert FlattenTree(items, Some(2), {Some(1)} + {Some(2)}) == None;
  }

  /** Every item of `r` has parent id `p` or an earlier item of `r` as
      its parent. */
  predicate ParentsFirst(r: seq<Item>, p: Option<Key>) {
    forall i | 0 <= i < |r| :: r[i].parent == p || exists j | 0 <= j < i :: r[i].parent == Some(r[j].key)
  }

  /** An item, the list of what hangs below it and the list of its later
      siblings keep parents first. */
  lemma ParentsFirstJoin(x: Item, sub: seq<Item>, rest: seq<Item>, p: Option<Key>)
    requires x.parent == p && ParentsFirst(sub, Some(x.key)) && ParentsFirst(rest, p)
    ensures ParentsFirst([x] + sub + rest, p)
  {
    var r := [x] + sub + rest;
    forall i | 0 <= i < |r|
      ensures r[i].parent == p || exists j | 0 <= j < i :: r[i].parent == Some(r[j].key)
    {
      if i == 0 {
      } else if i < 1 + |sub| {
        var a := i - 1;
        assert r[i] == sub[a];
        if sub[a].parent != Some(x.key) {
          var b :| 0 <= b < a && sub[a].parent == Some(sub[b].key);
          assert r[b + 1] == sub[b];
        } else {
          assert r[0] == x;
        }
      } else {
        var a := i - 1 - |sub|;
        assert r[i] == rest[a];
        if rest[a].parent != p {
          var b :| 0 <= b < a && rest[a].parent == Some(rest[b].key);
          assert r[b + 1 + |sub|] == rest[b];
        }
      }
    }
  }

  /** A flattening lists only items of the collection, and every item
      either belongs to the bucket the flattening starts from or has an
      earlier item of the list as its parent: parents come first. */
  lemma {:induction false} FlattenGroupParentsFirst(items: seq<Item>, g: seq<Item>, path: set<Option<Key>>, p: Option<Key>)
    requires forall x | x in g :: x in items && x.parent == p
    requires FlattenGroup(items, g, path).Some?
    ensures forall y | y in FlattenGroup(items, g, path).value :: y in items
    ensures ParentsFirst(FlattenGroup(items, g, path).value, p)
    decreases KeySet(items) - path, |g|
  {
    if g != [] {
      var x := g[0];
      assert x in g;
      var path' := path + {Some(x.key)};
      KeyOf(items, x);
      var sub := FlattenTree(items, Some(x.key), path').value;
      var rest := FlattenGroup(items, g[1..], path).value;
      assert FlattenGroup(items, g, path).value == [x] + sub + rest;
      FlattenGroupParentsFirst(items, Group(items, Some(x.key)), path', Some(x.key));
      FlattenGroupParentsFirst(items, g[1..], path, p);
      ParentsFirstJoin(x, sub, rest, p);
    }
  }

  /** Every item of the bucket a flattening starts from is listed, and so
      is every item whose parent is a listed item: together with parents
      coming first, the list holds exactly the items reachable from the
      root id. */
  lemma {:induction false} FlattenGroupClosed(items: seq<Item>, g: seq<Item>, path: set<Option<Key>>)
    requires forall x | x in g :: x in items
    requires FlattenGroup(items, g, path).Some?
    ensures var r := FlattenGroup(items, g, path).value;
      && (forall x | x in g :: x in r)
      && (forall y, x | y in r && x in items && x.parent == Some(y.key) :: x in r)
    decreases KeySet(items) - path, |g|
  {
    if g != [] {
      var x := g[0];
      var path' := path + {Some(x.key)};
      KeyOf(items, x);
      var sub := FlattenTree(items, Some(x.key), path').value;
      var rest := FlattenGroup(items, g[1..], path).value;
      var r := FlattenGroup(items, g, path).value;
      assert r == [x] + sub + rest;
      FlattenGroupClosed(items, Group(items, Some(x.key)), path');
      FlattenGroupClosed(items, g[1..], path);
      forall y | y in g
        ensures y in r
      {
        if y != x {
          assert y in g[1..];
        }
      }
    }
  }

  /** `toFlatTree` as promised: when it ends it lists items of the
      collection, each after its parent unless its parent id is the root
      id, and it lists every item reachable from the root id. */
  lemma FlatTreeMeaning(items: seq<Item>, root: RootArg)
    requires items != [] && ToFlatTree(items, root).Some?
    ensures var r := ToFlatTree(items, root).value;
      var id := RootNodeId(items, root);
      && (forall y | y in r :: y in items)
      && ParentsFirst(r, id)
      && (forall x | x in items && x.parent == id :: x in r)
      && (forall y, x | y in r && x in items && x.parent == Some(y.key) :: x in r)
  {
    var id := RootNodeId(items, root);
    FlattenGroupParentsFirst(items, Group(items, id), {id}, id);
    FlattenGroupClosed(items, Group(items, id), {id});
  }
}

/** src/Kalnoy/Nestedset/Collection.php: the legacy `toTree`. It buckets
    the items by parent id, returns the root id's bucket, and fills every
    item's `children` with its own bucket; it never sets `parent`. */
module LegacyCollection {
  import opened Types
  import opened Collection

  /** `getRootNodeId($rootNodeId)`: a non-null argument is kept; `null`
      scans for the parent id of the first item with the least left bound
      (and stays `null` on an empty collection). */
  function RootNodeId(items: seq<Item>, root: Option<Key>): (r: Option<Key>)
    ensures root.Some? ==> r == root
    ensures root.None? && items == [] ==> r == None
    ensures root.None? && items != [] ==> exists i | 0 <= i < |items| :: r == items[i].parent && forall j | 0 <= j < |items| :: items[i].lft <= items[j].lft
  {
    if root.Some? || items == [] then root else items[FirstLeast(items)].parent
  }

  /** What the legacy `toTree` leaves: the root id's bucket and, unless it
      returned early, every item's `children`. */
  datatype Built = Built(roots: seq<Item>, children: Option<seq<seq<Item>>>)

  /** `toTree($rootNodeId)`: an empty collection, or one where no item has
      the root id as parent id, gives an empty result and sets no
      relation. */
  function ToTree(items: seq<Item>, root: Option<Key>): (b: Built)
    ensures items == [] ==> b == Built([], None)
    ensures forall x :: x in b.roots <==> x in items && x.parent == RootNodeId(items, root)
    ensures b.children.None? <==> b.roots == []
    ensures b.children.Some? ==> |b.children.value| == |items|
    ensures b.children.Some? ==> forall i | 0 <= i < |items| ::
      forall x :: x in b.children.value[i] <==> x in items && x.parent == Some(items[i].key)
  {
    if items == [] then Built([], None)
    else
      var id := RootNodeId(items, root);
      var roots := Group(items, id);
      if roots == [] then Built([], None)
      else Built(roots, Some(seq(|items|, i requires 0 <= i < |items| => Group(items, Some(items[i].key)))))
  }

  /** Without parent id 0, the legacy and the current `toTree` return the
      same nodes in the same order for an omitted or an explicit root id,
      and, where the legacy one sets children, they are the buckets
      `linkNodes` sets. */
  lemma ToTreesAgree(items: seq<Item>, root: Option<Key>)
    requires items != [] && root != Some(0)
    requires forall i | 0 <= i < |items| :: items[i].parent != Some(0)
    ensures var arg := if root.None? then Unset else Given(root);
      ToTree(items, root).roots == Collection.ToTree(items, arg)
    ensures ToTree(items, root).children.Some? ==>
      forall i | 0 <= i < |items| :: ToTree(items, root).children.value[i] == Group(items, Some(items[i].key))
  {
    var arg := if root.None? then Unset else Given(root);
    var id := RootNodeId(items, root);
    assert Collection.RootNodeId(items, arg) == id;
    assert id != Some(0) by {
      if root.None? {
        var i := FirstLeast(items);
        assert id == items[i].parent;
      }
    }
    LooseGroupIsGroup(items, id);
  }
}

=== FILE: dictionary.dfy ===
/** The dictionary the rebuilder of src/QueryBuilder.php walks: a PHP
    array from parent id to the list of models having that parent, in the
    order the keys were first added (`null` is the key of the roots).

    A dictionary is a sequence of groups with pairwise distinct parent
    ids; a model is named by its key, and no key is listed twice. `Inv`
    is that shape; every operation here keeps it.
 */
module Dictionary {
  import opened Types
  import opened Bounds

  datatype Group = Group(parent: Option<Key>, members: seq<Key>)

  /** The parent ids the dictionary has an entry for. */
  function GroupKeys(d: seq<Group>): (ks: set<Option<Key>>)
    ensures forall i | 0 <= i < |d| :: d[i].parent in ks
  {
    if d == [] then {} else {d[0].parent} + GroupKeys(d[1..])
  }

  function Elems(s: seq<Key>): (e: set<Key>)
    ensures forall x :: x in e <==> x in s
  {
    set x | x in s
  }

  predicate Distinct(s: seq<Key>) {
    forall i, j | 0 <= i < j < |s| :: s[i] != s[j]
  }

  /** A list without repetitions has as many elements as entries. */
  lemma {:induction false} DistinctCard(s: seq<Key>)
    requires Distinct(s)
    ensures |Elems(s)| == |s|
  {
    if s != [] {
      DistinctCard(s[1..]);
      assert Elems(s) == {s[0]} + Elems(s[1..]);
      assert s[0] !in Elems(s[1..]);
    }
  }

  /** Two lists joined have no repetition exactly when neither has one
      and they share no element. */
  lemma DistinctConcat(a: seq<Key>, b: seq<Key>)
    ensures Distinct(a + b) <==> Distinct(a) && Distinct(b) && Elems(a) !! Elems(b)
    ensures Elems(a + b) == Elems(a) + Elems(b)
  {
    var c := a + b;
    assert forall i | 0 <= i < |a| :: c[i] == a[i];
    assert forall i | 0 <= i < |b| :: c[|a| + i] == b[i];
    if Distinct(c) {
      DistinctParts(a, b);
    }
    if Distinct(a) && Distinct(b) && Elems(a) !! Elems(b) {
      forall i, j | 0 <= i < j < |c|
        ensures c[i] != c[j]
      {
        if j < |a| {
          assert c[i] == a[i] && c[j] == a[j];
        } else if i >= |a| {
          assert c[i] == b[i - |a|] && c[j] == b[j - |a|];
        } else {
          assert c[i] == a[i] && c[j] == b[j - |a|];
          assert c[i] in Elems(a) && c[j] in Elems(b);
        }
      }
    }
    assert forall x :: x in c <==> x in a || x in b;
  }

  lemma DistinctParts(a: seq<Key>, b: seq<Key>)
    requires Distinct(a + b)
    ensures Distinct(a) && Distinct(b) && Elems(a) !! Elems(b)
  {
    var c := a + b;
    forall i, j | 0 <= i < j < |a|
      ensures a[i] != a[j]
    {
      assert c[i] == a[i] && c[j] == a[j];
    }
    forall i, j | 0 <= i < j < |b|
      ensures b[i] != b[j]
    {
      assert c[|a| + i] == b[i] && c[|a| + j] == b[j];
    }
    forall i, j | 0 <= i < |a| && 0 <= j < |b|
      ensures a[i] != b[j]
    {
      assert c[i] == a[i] && c[|a| + j] == b[j];
    }
  }

  /** Every key listed anywhere in the dictionary. */
  function MemberSet(d: seq<Group>): set<Key> {
    if d == [] then {} else Elems(d[0].members) + MemberSet(d[1..])
  }

  /** The shape of a PHP array of lists of distinct models. */
  predicate Inv(d: seq<Group>) {
    d == [] ||
    (&& d[0].parent !in GroupKeys(d[1..])
     && Distinct(d[0].members)
     && Elems(d[0].members) !! MemberSet(d[1..])
     && Inv(d[1..]))
  }

  /** `$dictionary[$p]` when `isset`. */
  function Find(d: seq<Group>, p: Option<Key>): (r: Option<seq<Key>>)
    ensures r.None? <==> p !in GroupKeys(d)
  {
    if d == [] then None
    else if d[0].parent == p then Some(d[0].members)
    else Find(d[1..], p)
  }

  /** `unset($dictionary[$p])`. */
  function Remove(d: seq<Group>, p: Option<Key>): (r: seq<Group>)
    ensures GroupKeys(r) == GroupKeys(d) - {p}
    ensures MemberSet(r) <= MemberSet(d)
    ensures |r| <= |d|
    ensures p in GroupKeys(d) ==> |r| < |d|
    ensures Inv(d) ==> Inv(r)
  {
    if d == [] then []
    else if d[0].parent == p then Remove(d[1..], p)
    else [d[0]] + Remove(d[1..], p)
  }

  /** Taking the group of `p` out of a dictionary splits its members into
      that group's and the rest. */
  lemma {:induction false} FindRemove(d: seq<Group>, p: Option<Key>)
    requires Inv(d) && Find(d, p).Some?
    ensures var ms := Find(d, p).value;
      && Distinct(ms)
      && MemberSet(d) == MemberSet(Remove(d, p)) + Elems(ms)
      && Elems(ms) !! MemberSet(Remove(d, p))
  {
    if d[0].parent == p {
      assert Remove(d[1..], p) == d[1..] by { RemoveAbsent(d[1..], p); }
    } else {
      FindRemove(d[1..], p);
    }
  }

  lemma {:induction false} RemoveAbsent(d: seq<Group>, p: Option<Key>)
    requires p !in GroupKeys(d)
    ensures Remove(d, p) == d
  {
    if d != [] {
      RemoveAbsent(d[1..], p);
      assert [d[0]] + d[1..] == d;
    }
  }

  /** `$dictionary[$p][] = $k`. */
  function Push(d: seq<Group>, p: Option<Key>, k: Key): (r: seq<Group>)
    ensures GroupKeys(r) == GroupKeys(d) + {p}
    ensures MemberSet(r) == MemberSet(d) + {k}
    ensures Inv(d) && k !in MemberSet(d) ==> Inv(r)
  {
    if d == [] then [Group(p, [k])]
    else if d[0].parent == p then [Group(p, d[0].members + [k])] + d[1..]
    else [d[0]] + Push(d[1..], p, k)
  }

  /** `$dictionary[$p] = $ms`: the entry is overwritten where it stands,
      or added at the end. */
  function Put(d: seq<Group>, p: Option<Key>, ms: seq<Key>): (r: seq<Group>)
    ensures GroupKeys(r) == GroupKeys(d) + {p}
    ensures MemberSet(r) <= MemberSet(d) + Elems(ms)
    ensures p !in GroupKeys(d) ==> MemberSet(r) == MemberSet(d) + Elems(ms)
    ensures Inv(d) && Distinct(ms) && Elems(ms) !! MemberSet(d) ==> Inv(r)
  {
    if d == [] then [Group(p, ms)]
    else if d[0].parent == p then [Group(p, ms)] + d[1..]
    else [d[0]] + Put(d[1..], p, ms)
  }

  /** The first step of the orphan loop of `fixNodes`:
      `$dictionary[null] = reset($dictionary)` followed by
      `unset($dictionary[key($dictionary)])`. The first group's members
      become the roots' group; when the first group is the roots' own it
      simply disappears, and a roots' group further down is overwritten. */
  function Rekey(d: seq<Group>): (r: seq<Group>)
    requires d != []
  {
    if d[0].parent == None then d[1..] else Put(d[1..], None, d[0].members)
  }

  /** What the orphan step does to the dictionary's shape: it keeps `Inv`,
      loses no member unless a roots' group was already there, and always
      brings the measure of `fixNodes`' loop down. */
  lemma RekeyFacts(d: seq<Group>)
    requires Inv(d) && d != []
    ensures Inv(Rekey(d))
    ensures MemberSet(Rekey(d)) <= MemberSet(d)
    ensures None !in GroupKeys(d) ==> MemberSet(Rekey(d)) == MemberSet(d)
    ensures d[0].parent != None ==> None in GroupKeys(Rekey(d))
    ensures GroupKeys(Rekey(d)) <= GroupKeys(d) + {None}
    ensures Measure(Rekey(d)) < Measure(d)
  {
    var ks := GroupKeys(d);
    var rest := GroupKeys(d[1..]);
    assert ks == {d[0].parent} + rest;
    assert d[0].parent !in rest;
    assert rest == ks - {d[0].parent};
    assert |rest| == |ks| - 1;
    var r := Rekey(d);
    if d[0].parent != None {
      assert GroupKeys(r) == rest + {None};
      if None in ks {
        assert None in rest;
        assert GroupKeys(r) == rest;
      } else {
        assert None !in rest;
        assert |GroupKeys(r)| == |rest| + 1;
      }
    }
  }

  /** The measure that makes the orphan loop terminate: two per entry,
      plus one while there is no roots' entry. */
  function Measure(d: seq<Group>): nat {
    2 * |GroupKeys(d)| + (if None in GroupKeys(d) then 0 else 1)
  }

  /** Dropping entries never raises the measure. */
  lemma MeasureShrinks(d: seq<Group>, d': seq<Group>)
    requires GroupKeys(d') <= GroupKeys(d)
    ensures Measure(d') <= Measure(d)
  {
    CardSubset(GroupKeys(d'), GroupKeys(d));
    if None in GroupKeys(d) && None !in GroupKeys(d') {
      CardSubset(GroupKeys(d'), GroupKeys(d) - {None});
    }
  }

  /** `groupBy(parent_id)` over rows listed in `order`: each row is pushed
      onto the entry of its parent id, entries in order of first
      appearance. */
  function GroupBy(order: seq<Key>, t: Table): (d: seq<Group>)
    requires forall i | 0 <= i < |order| :: order[i] in t
    ensures MemberSet(d) == Elems(order)
    ensures Distinct(order) ==> Inv(d)
  {
    if order == [] then []
    else
      var last := order[|order| - 1];
      var init := order[..|order| - 1];
      assert Elems(order) == Elems(init) + {last} by {
        assert order == init + [last];
      }
      Push(GroupBy(init, t), t[last].parent, last)
  }

  /** Pushing onto the entry of `q` extends that entry and no other. */
  lemma {:induction false} FindPush(d: seq<Group>, q: Option<Key>, k: Key, p: Option<Key>)
    ensures Find(Push(d, q, k), p) ==
      if p != q then Find(d, p)
      else Some((if Find(d, p).Some? then Find(d, p).value else []) + [k])
  {
    var r := Push(d, q, k);
    if d == [] {
      assert r == [Group(q, [k])];
      assert r[1..] == [] && [] + [k] == [k];
      assert Find(d, p) == None;
    } else if d[0].parent == q {
      assert r == [Group(q, d[0].members + [k])] + d[1..];
      assert r[0].parent == q && r[1..] == d[1..];
    } else {
      assert r == [d[0]] + Push(d[1..], q, k);
      assert r[0] == d[0] && r[1..] == Push(d[1..], q, k);
      FindPush(d[1..], q, k, p);
    }
  }

  /** After `groupBy(parent_id)` every row listed is in the entry of its
      parent id. */
  lemma {:induction false} GroupByFind(order: seq<Key>, t: Table, k: Key)
    requires forall i | 0 <= i < |order| :: order[i] in t
    requires k in order
    ensures Find(GroupBy(order, t), t[k].parent).Some?
    ensures k in Find(GroupBy(order, t), t[k].parent).value
  {
    var last := order[|order| - 1];
    var init := order[..|order| - 1];
    assert order == init + [last];
    FindPush(GroupBy(init, t), t[last].parent, last, t[k].parent);
    if k != last {
      assert k in init;
      GroupByFind(init, t, k);
    }
  }

  /** `k` is listed in the entry of `q`. */
  predicate InGroup(d: seq<Group>, k: Key, q: Option<Key>) {
    Find(d, q).Some? && k in Find(d, q).value
  }

  /** An entry's members are members of the dictionary. */
  lemma {:induction false} FindMembers(d: seq<Group>, q: Option<Key>)
    requires Find(d, q).Some?
    ensures Elems(Find(d, q).value) <= MemberSet(d)
  {
    if d[0].parent != q {
      FindMembers(d[1..], q);
    }
  }

  /** `unset($dictionary[$p])` leaves every other entry as it was. */
  lemma {:induction false} FindRemoveOther(d: seq<Group>, p: Option<Key>, q: Option<Key>)
    ensures Find(Remove(d, p), q) == if q == p then None else Find(d, q)
  {
    if d != [] {
      FindRemoveOther(d[1..], p, q);
      if d[0].parent != p {
        var r := [d[0]] + Remove(d[1..], p);
        assert r[0] == d[0] && r[1..] == Remove(d[1..], p);
      }
    }
  }

  /** Overwriting the entry of `p` leaves every other entry as it was. */
  lemma {:induction false} FindPutOther(d: seq<Group>, p: Option<Key>, ms: seq<Key>, q: Option<Key>)
    requires q != p
    ensures Find(Put(d, p, ms), q) == Find(d, q)
  {
    if d != [] && d[0].parent != p {
      var r := [d[0]] + Put(d[1..], p, ms);
      assert r[0] == d[0] && r[1..] == Put(d[1..], p, ms);
      FindPutOther(d[1..], p, ms, q);
    }
  }

  /** The orphan step keeps every entry other than the roots' one, except
      the first, whose members it moved under `null`. */
  lemma RekeyFind(d: seq<Group>, q: Option<Key>)
    requires Inv(d) && d != [] && q != None
    ensures Find(Rekey(d), q) == if q == d[0].parent then None else Find(d, q)
  {
    if d[0].parent != None {
      FindPutOther(d[1..], None, d[0].members, q);
    }
  }

  /** The rows of `order` whose parent id is `q`, in the order listed. */
  function WithParent(order: seq<Key>, t: Table, q: Option<Key>): (w: seq<Key>)
    requires forall i | 0 <= i < |order| :: order[i] in t
    ensures forall k :: k in w <==> k in order && t[k].parent == q
  {
    if order == [] then []
    else
      var last := order[|order| - 1];
      var init := order[..|order| - 1];
      assert order == init + [last];
      WithParent(init, t, q) + (if t[last].parent == q then [last] else [])
  }

  /** `groupBy(parent_id)` files each parent id's rows in the order they
      were listed, and has an entry exactly for the parent ids that occur. */
  lemma {:induction false} GroupByEntry(order: seq<Key>, t: Table, q: Option<Key>)
    requires forall i | 0 <= i < |order| :: order[i] in t
    ensures Find(GroupBy(order, t), q) ==
      if WithParent(order, t, q) == [] then None else Some(WithParent(order, t, q))
  {
    if order != [] {
      var last := order[|order| - 1];
      var init := order[..|order| - 1];
      assert order == init + [last];
      var before := GroupBy(init, t);
      var w := WithParent(init, t, q);
      assert GroupBy(order, t) == Push(before, t[last].parent, last);
      assert WithParent(order, t, q) == w + (if t[last].parent == q then [last] else []);
      GroupByEntry(init, t, q);
      FindPush(before, t[last].parent, last, q);
      if t[last].parent == q {
        assert Find(before, q) == if w == [] then None else Some(w);
        if w == [] {
          assert w + [last] == [last];
        }
      } else {
        assert w + [] == w;
      }
    }
  }

  /** The entry of `q` after `groupBy(parent_id)` lists exactly the rows
      of `order` whose parent id is `q`. */
  lemma GroupByMembers(order: seq<Key>, t: Table, k: Key, q: Option<Key>)
    requires forall i | 0 <= i < |order| :: order[i] in t
    ensures InGroup(GroupBy(order, t), k, q) <==> k in order && t[k].parent == q
  {
    GroupByEntry(order, t, q);
  }

  /** No model is listed under two parent ids. */
  lemma {:induction false} InGroupUnique(d: seq<Group>, k: Key, q1: Option<Key>, q2: Option<Key>)
    requires Inv(d) && InGroup(d, k, q1) && InGroup(d, k, q2)
    ensures q1 == q2
  {
    if d[0].parent != q1 && d[0].parent != q2 {
      InGroupUnique(d[1..], k, q1, q2);
    } else if d[0].parent != q1 || d[0].parent != q2 {
      var q := if d[0].parent != q1 then q1 else q2;
      FindMembers(d[1..], q);
      assert k in Elems(d[0].members) && k in MemberSet(d[1..]);
    }
  }

  /** Pushing a model keeps every model where it was listed. */
  lemma PushKeeps(d: seq<Group>, q: Option<Key>, k: Key, j: Key, p: Option<Key>)
    requires InGroup(d, j, p)
    ensures InGroup(Push(d, q, k), j, p)
  {
    FindPush(d, q, k, p);
  }
}

=== FILE: engine.dfy ===
/** The mutation engine of `NodeTrait` (src/NodeTrait.php): the pending
    action a node carries until it is saved, the cut point each action
    picks, inserting a new leaf or moving an existing subtree there, and
    what deleting and restoring a node does to its descendants.

    Every operation works on one scope: the scope `s` of the node being
    saved (a saved node's row carries it). The node itself is given by
    its key `k`; `k in t` is Eloquent's `exists`. Reads are always fresh
    from the table, so a node's in-memory bounds and parent id are those
    of its row.
 */
module Engine {
  import opened Types
  import opened Bounds
  import opened Tree
  import opened Blocks
  import opened Moves

  /** The pending actions `setAction` records. */
  datatype Action =
    | MakeRoot
    | AppendOrPrepend(parent: Key, prepend: bool)
    | BeforeOrAfter(target: Key, after: bool)

  /** The three ways a delete can run: on a model without soft deletes,
      `delete()` on a soft-deleting model, and `forceDelete()` on one. */
  datatype DeleteMode = Plain | Soft | Force

  /** `hardDeleting()`: the row really goes away. */
  predicate HardDeleting(mode: DeleteMode) {
    mode != Soft
  }

  /** The largest value of a non-empty set of integers. */
  function MaxOf(xs: set<int>): (m: int)
    requires xs != {}
    ensures m in xs && forall x | x in xs :: x <= m
  {
    MaxExists(xs);
    var m :| m in xs && forall x | x in xs :: x <= m;
    m
  }

  lemma MaxExists(xs: set<int>)
    requires xs != {}
    ensures exists m :: m in xs && forall x | x in xs :: x <= m
  {
    if forall y :: y !in xs {
      assert false;
    }
    var y :| y in xs;
    if xs != {y} {
      MaxExists(xs - {y});
      var m :| m in xs - {y} && forall x | x in xs - {y} :: x <= m;
      var top := if y > m then y else m;
      forall x | x in xs
        ensures x <= top
      {
        if x != y {
          assert x in xs - {y};
        }
      }
      assert top in xs;
    }
  }

  /** `getLowerBound()`: the largest right bound of the scope, trashed
      rows included; `(int)` of the `max` of no rows is 0. */
  function LowerBound(u: Table): (m: int)
    ensures forall k | k in u :: u[k].rgt <= m
    ensures u == map[] ==> m == 0
    ensures u != map[] ==> exists k | k in u :: u[k].rgt == m
  {
    if u == map[] then 0
    else
      var k0 :| k0 in u;
      var rs := set k | k in u :: u[k].rgt;
      assert u[k0].rgt in rs;
      assert forall k | k in u :: u[k].rgt in rs;
      MaxOf(rs)
  }

  /** The parent id the node being saved holds: its row's, or none for a
      node that was never saved. */
  function ParentAttr(t: Table, k: Key): (p: Option<Key>)
    ensures k in t ==> p == t[k].parent
    ensures k !in t ==> p == None
  {
    if k in t then t[k].parent else None
  }

  /** The `parent` relation of a node whose parent id is `p`: the row `p`
      names, or nothing when there is no such row. */
  function ParentRelation(t: Table, p: Option<Key>): (r: Option<Key>)
    ensures r.Some? <==> p.Some? && p.value in t
    ensures r.Some? ==> r == p
  {
    match p
    case Some(x) => if x in t then Some(x) else None
    case None => None
  }

  /** The row a new node gets when it is inserted at `pos`: a leaf, height
      2. */
  function LeafAt(pos: int, q: Option<Key>, s: nat): (r: Row)
    ensures WellFormed(r) && r.rgt - r.lft + 1 == 2
  {
    Row(pos, pos + 1, q, s, None)
  }

  /** `insertNode($position)`: open a gap of 2 at the position and put the
      new leaf in it. */
  function InsertNode(t: Table, s: nat, k: Key, pos: int, q: Option<Key>): (r: Table)
    requires k !in t
    ensures r.Keys == t.Keys + {k}
    ensures r[k].lft == pos && r[k].rgt == pos + 1 && r[k].parent == q && r[k].scope == s
    ensures forall j | j in t && t[j].scope == s :: r[j] == GapRow(t[j], pos, 2)
    ensures OtherScopesUnchanged(t, r, s)
  {
    var g := MakeGap(t, s, pos, 2).0;
    GapScopeRows(t, s, pos, 2);
    LeafAdded(t, g, s, k, pos, q);
    g[k := LeafAt(pos, q, s)]
  }

  /** Adding the new leaf to the opened table keeps the gap's rows and
      every other scope. */
  lemma LeafAdded(t: Table, g: Table, s: nat, k: Key, pos: int, q: Option<Key>)
    requires k !in t && g.Keys == t.Keys && OtherScopesUnchanged(t, g, s)
    requires forall j | j in t && t[j].scope == s :: g[j] == GapRow(t[j], pos, 2)
    ensures var r := g[k := LeafAt(pos, q, s)];
      && r.Keys == t.Keys + {k}
      && (forall j | j in t && t[j].scope == s :: r[j] == GapRow(t[j], pos, 2))
      && OtherScopesUnchanged(t, r, s)
  {
  }

  /** `insertAt($position)` followed by the save of the node's parent id
      `q`: a new node is inserted, a saved one moved. The flag is
      `hasMoved()`: always set for an insert, set for a move exactly when
      the move rewrote rows. */
  function InsertAt(t: Table, s: nat, k: Key, pos: int, q: Option<Key>): (r: Result<(Table, bool)>)
    requires k in t ==> t[k].scope == s
    ensures r.Err? <==> k in t && t[k].lft < pos <= t[k].rgt
    ensures r.Err? ==> r.error == CyclicMove
    ensures r.Ok? ==> r.value.0.Keys == t.Keys + {k} && OtherScopesUnchanged(t, r.value.0, s)
    ensures r.Ok? ==> r.value.0[k].parent == q && r.value.0[k].scope == s
    ensures r.Ok? && k !in t ==> r.value.1 && r.value.0[k].lft == pos && r.value.0[k].rgt == pos + 1
    ensures r.Ok? && k in t && t[k].lft <= t[k].rgt ==>
      && (r.value.1 <==> pos != t[k].lft && pos != t[k].rgt + 1)
      && r.value.0[k].lft == (if pos > t[k].rgt then pos - (t[k].rgt - t[k].lft + 1) else pos)
      && r.value.0[k].rgt - r.value.0[k].lft == t[k].rgt - t[k].lft
  {
    if k !in t then Ok((InsertNode(t, s, k, pos, q), true))
    else MoveInto(t, s, k, pos, q)
  }

  /** `insertAt` of a saved node: `moveNode`, then the parent id. */
  function MoveInto(t: Table, s: nat, k: Key, pos: int, q: Option<Key>): (r: Result<(Table, bool)>)
    requires k in t && t[k].scope == s
    ensures r.Err? <==> t[k].lft < pos <= t[k].rgt
    ensures r.Err? ==> r.error == CyclicMove
    ensures r.Ok? ==> r.value.0.Keys == t.Keys && OtherScopesUnchanged(t, r.value.0, s)
    ensures r.Ok? ==> r.value.0[k].parent == q && r.value.0[k].scope == s
    ensures r.Ok? && t[k].lft <= t[k].rgt ==>
      && (r.value.1 <==> pos != t[k].lft && pos != t[k].rgt + 1)
      && r.value.0[k].lft == (if pos > t[k].rgt then pos - (t[k].rgt - t[k].lft + 1) else pos)
      && r.value.0[k].rgt - r.value.0[k].lft == t[k].rgt - t[k].lft
  {
    match MoveNode(t, s, k, pos)
    case Err(e) => Err(e)
    case Ok(moved) =>
      MoveNodeKeeps(t, s, k, pos);
      var t1 := moved.0;
      ParentWriteKeeps(t, t1, s, k, q);
      Ok((t1[k := t1[k].(parent := q)], moved.1 > 0))
  }

  /** Writing the parent id of a node of scope `s` touches no other
      scope. */
  lemma ParentWriteKeeps(t: Table, t1: Table, s: nat, k: Key, q: Option<Key>)
    requires k in t && t[k].scope == s && t1.Keys == t.Keys && OtherScopesUnchanged(t, t1, s)
    ensures var t2 := t1[k := t1[k].(parent := q)];
      && t2.Keys == t.Keys
      && t2[k].scope == s
      && OtherScopesUnchanged(t, t2, s)
  {
  }

  /** Where `moveNode` leaves the node, whether or not it rewrote rows. */
  lemma MoveNodeKeeps(t: Table, s: nat, k: Key, pos: int)
    requires k in t && t[k].scope == s
    requires MoveNode(t, s, k, pos).Ok?
    ensures var t1 := MoveNode(t, s, k, pos).value.0;
      t[k].lft <= t[k].rgt ==>
        && t1[k].lft == (if pos > t[k].rgt then pos - (t[k].rgt - t[k].lft + 1) else pos)
        && t1[k].rgt - t1[k].lft == t[k].rgt - t[k].lft
  {
    if t[k].lft <= t[k].rgt && MoveNode(t, s, k, pos).value.1 != 0 {
      MoveNodeLands(t, s, k, pos);
    }
  }

  /** Where `moveNode` puts the node itself. */
  lemma MoveNodeLands(t: Table, s: nat, k: Key, pos: int)
    requires k in t && t[k].scope == s && t[k].lft <= t[k].rgt
    requires MoveNode(t, s, k, pos).Ok?
    requires pos != t[k].lft && pos != t[k].rgt + 1
    ensures var t1 := MoveNode(t, s, k, pos).value.0;
      && k in t1
      && t1[k].lft == (if pos > t[k].rgt then pos - (t[k].rgt - t[k].lft + 1) else pos)
      && t1[k].rgt - t1[k].lft == t[k].rgt - t[k].lft
  {
    var m := PlanMove(t[k].lft, t[k].rgt, pos).value.value;
    var t1 := MoveTable(t, s, m).0;
    assert InScope(t1, s)[k] == t1[k];
    assert InScope(t, s)[k] == t[k];
    MoveLandsAtPosition(m, pos, t[k].rgt);
  }

  /** `actionRoot()`: a new node goes after every row of the scope without
      touching them; a saved root stays where it is; any other saved node
      is moved there and loses its parent. */
  function ActionRoot(t: Table, s: nat, k: Key): (r: Result<(Table, bool)>)
    requires k in t ==> t[k].scope == s
    ensures k !in t ==> r == Ok((t[k := LeafAt(LowerBound(InScope(t, s)) + 1, None, s)], true))
    ensures k in t && t[k].parent == None ==> r == Ok((t, false))
    ensures r.Ok? ==> k in r.value.0 && r.value.0[k].parent == None
    ensures k in t && t[k].parent.Some? && t[k].lft <= t[k].rgt ==>
      r.Ok? && r.value.0[k].rgt == LowerBound(InScope(t, s))
  {
    var cut := LowerBound(InScope(t, s)) + 1;
    if k !in t then Ok((t[k := LeafAt(cut, None, s)], true))
    else if t[k].parent.None? then Ok((t, false))
    else InsertAt(t, s, k, cut, None)
  }

  /** The cut point of an append (the parent's right bound) or a prepend
      (just after the parent's left bound). */
  function AppendCut(parent: Row, prepend: bool): int {
    if prepend then parent.lft + 1 else parent.rgt
  }

  /** The cut point of an insert before (the target's left bound) or after
      (just after its right bound). */
  function BeforeOrAfterCut(target: Row, after: bool): int {
    if after then target.rgt + 1 else target.lft
  }

  /** The parent id `beforeOrAfterNode` leaves the node with: unchanged for
      a sibling of the target, otherwise the target's parent relation. */
  function SiblingParent(t: Table, k: Key, x: Key): (q: Option<Key>)
    requires x in t
    ensures q == ParentAttr(t, k) || q == ParentRelation(t, t[x].parent)
    ensures t[x].parent.Some? && t[x].parent.value in t ==> q == t[x].parent
  {
    if ParentAttr(t, k) == t[x].parent then ParentAttr(t, k) else ParentRelation(t, t[x].parent)
  }

  /** The `parent` relation as a query reads it: the row `p` names, unless
      there is no such row or the model soft-deletes (`soft`) and that row
      is trashed, since the relation's query hides trashed rows. */
  function ParentRelationRead(t: Table, p: Option<Key>, soft: bool): (r: Option<Key>)
    ensures r.Some? <==> p.Some? && p.value in t && !(soft && t[p.value].deleted.Some?)
    ensures r.Some? ==> r == p
    ensures !soft ==> r == ParentRelation(t, p)
  {
    match p
    case Some(x) => if Loads(t, x, soft) then Some(x) else None
    case None => None
  }

  /** The parent id `beforeOrAfterNode` leaves the node with, as written:
      `isSiblingOf` compares parent ids with PHP's loose `==` (null equals
      0), and a non-sibling takes the target's `parent` relation as the
      query reads it. */
  function SiblingParentWritten(t: Table, k: Key, x: Key, soft: bool): (q: Option<Key>)
    requires x in t
    ensures LooseEq(ParentAttr(t, k), t[x].parent) ==> q == ParentAttr(t, k)
    ensures !LooseEq(ParentAttr(t, k), t[x].parent) ==> q == ParentRelationRead(t, t[x].parent, soft)
  {
    if LooseEq(ParentAttr(t, k), t[x].parent) then ParentAttr(t, k)
    else ParentRelationRead(t, t[x].parent, soft)
  }

  /** `save()` of node `k` with its pending action (`callPendingAction`
      and the UPDATE or INSERT of the node's own row). The source checks
      that the parent or target exists when the action is recorded; the
      model checks it here, since the table does not change in between. */
  function Save(t: Table, s: nat, k: Key, action: Option<Action>): (r: Result<(Table, bool)>)
    requires k in t ==> t[k].scope == s
    ensures action.Some? && action.value.AppendOrPrepend? && action.value.parent !in t ==> r == Err(NotExisting)
    ensures action.Some? && action.value.BeforeOrAfter? && action.value.target !in t ==> r == Err(NotExisting)
    ensures r.Err? ==> r.error in {NotExisting, ScopeMismatch, CyclicMove}
    ensures r.Ok? ==> r.value.0.Keys == t.Keys + {k} && OtherScopesUnchanged(t, r.value.0, s)
    ensures r.Ok? ==> r.value.0[k].scope == s
    ensures action == None && k in t ==> r == Ok((t, false))
    ensures action == None && k !in t ==> r == ActionRoot(t, s, k)
  {
    match action
    case None => if k in t then Ok((t, false)) else ActionRoot(t, s, k)
    case Some(MakeRoot) => ActionRoot(t, s, k)
    case Some(AppendOrPrepend(p, prepend)) =>
      if p !in t then Err(NotExisting)
      else if t[p].scope != s then Err(ScopeMismatch)
      else InsertAt(t, s, k, AppendCut(t[p], prepend), Some(p))
    case Some(BeforeOrAfter(x, after)) =>
      if x !in t then Err(NotExisting)
      else if t[x].scope != s then Err(ScopeMismatch)
      else InsertAt(t, s, k, BeforeOrAfterCut(t[x], after), SiblingParent(t, k, x))
  }

  /** `save()` as written: the same as `Save` except that an insert before
      or after a target takes its parent through `SiblingParentWritten`. */
  function SaveWritten(t: Table, s: nat, k: Key, action: Option<Action>, soft: bool): (r: Result<(Table, bool)>)
    requires k in t ==> t[k].scope == s
    ensures !(action.Some? && action.value.BeforeOrAfter?) ==> r == Save(t, s, k, action)
    ensures r.Err? ==> r == Save(t, s, k, action)
    ensures r.Ok? ==> r.value.0.Keys == t.Keys + {k} && OtherScopesUnchanged(t, r.value.0, s)
    ensures r.Ok? && action.Some? && action.value.BeforeOrAfter? ==>
      action.value.target in t && r.value.0[k].parent == SiblingParentWritten(t, k, action.value.target, soft)
  {
    match action
    case Some(BeforeOrAfter(x, after)) =>
      if x !in t then Err(NotExisting)
      else if t[x].scope != s then Err(ScopeMismatch)
      else InsertAt(t, s, k, BeforeOrAfterCut(t[x], after), SiblingParentWritten(t, k, x, soft))
    case _ => Save(t, s, k, action)
  }

  /** The rows `whereNodeBetween([lft + 1, rgt])` selects in the node's
      scope: its descendants. */
  function Descendants(t: Table, k: Key): (d: set<Key>)
    requires k in t
    ensures forall j :: j in d <==> j in t && t[j].scope == t[k].scope && t[k].lft + 1 <= t[j].lft <= t[k].rgt
    ensures k !in d
  {
    set j | j in t && t[j].scope == t[k].scope && t[k].lft + 1 <= t[j].lft <= t[k].rgt
  }

  /** A soft delete at time `now` of node `k`: the node is stamped, and so
      is every descendant not already trashed (the query that marks them
      skips trashed rows); bounds do not change. */
  function SoftDelete(t: Table, k: Key, now: nat): (r: Table)
    requires k in t
    ensures r.Keys == t.Keys
    ensures forall j | j in t :: r[j].(deleted := t[j].deleted) == t[j]
    ensures r[k].deleted == Some(now)
    ensures OtherScopesUnchanged(t, r, t[k].scope)
    ensures forall j | j in t && j != k ::
      r[j].deleted == (if j in Descendants(t, k) && t[j].deleted == None then Some(now) else t[j].deleted)
  {
    var d := Descendants(t, k);
    map j | j in t ::
      if j == k || (j in d && t[j].deleted == None) then t[j].(deleted := Some(now)) else t[j]
  }

  /** A hard delete of node `k`: its row and every descendant row go (a
      force delete includes trashed descendants), then the gap of the
      node's height at `rgt + 1` is closed. */
  function HardDelete(t: Table, k: Key): (r: Table)
    requires k in t
    ensures r.Keys == t.Keys - Descendants(t, k) - {k}
    ensures OtherScopesUnchanged(t, r, t[k].scope)
    ensures forall j | j in r && t[j].lft <= t[k].rgt && t[j].rgt <= t[k].rgt :: r[j] == t[j]
    ensures forall j | j in r && t[j].scope == t[k].scope ::
      r[j] == GapRow(t[j], t[k].rgt + 1, -(t[k].rgt - t[k].lft + 1))
  {
    var s := t[k].scope;
    var rest := t - Descendants(t, k) - {k};
    var g := MakeGap(rest, s, t[k].rgt + 1, -(t[k].rgt - t[k].lft + 1));
    GapScopeRows(rest, s, t[k].rgt + 1, -(t[k].rgt - t[k].lft + 1));
    assert OtherScopesUnchanged(t, g.0, s) by {
      forall j | j in t && t[j].scope != s
        ensures j in g.0 && g.0[j] == t[j]
      {
        assert j in rest;
      }
    }
    g.0
  }

  /** `delete()` / `forceDelete()` of node `k` with the `deleted` event's
      `deleteDescendants()`. A key with no row changes nothing. */
  function Delete(t: Table, k: Key, mode: DeleteMode, now: nat): (r: Table)
    ensures k !in t ==> r == t
    ensures k in t && HardDeleting(mode) ==> r == HardDelete(t, k)
    ensures k in t && !HardDeleting(mode) ==> r == SoftDelete(t, k, now)
  {
    if k !in t then t
    else if HardDeleting(mode) then HardDelete(t, k)
    else SoftDelete(t, k, now)
  }

  /** `restore()` of node `k` with the `restored` event's
      `restoreDescendants()`: the node is un-trashed, and so is every
      descendant trashed no earlier than the node was. A node that was not
      trashed hands the event a null stamp; the filter is read as SQL reads
      `deleted_at >= NULL`, which holds for no row, so no descendant is
      restored. */
  function Restore(t: Table, k: Key): (r: Table)
    ensures k !in t ==> r == t
    ensures r.Keys == t.Keys
    ensures forall j | j in t :: r[j].(deleted := t[j].deleted) == t[j]
    ensures k in t ==> r[k].deleted == None
    ensures k in t ==> forall j | j in t && j != k ::
      r[j].deleted == (if j in Descendants(t, k) && Revived(t[j].deleted, t[k].deleted) then None else t[j].deleted)
  {
    if k !in t then t
    else
      var d := Descendants(t, k);
      map j | j in t ::
        if j == k || (j in d && Revived(t[j].deleted, t[k].deleted)) then t[j].(deleted := None) else t[j]
  }

  /** The `deleted_at >= $deletedAt` filter, with SQL's NULL comparison. */
  predicate Revived(stamp: Option<nat>, since: Option<nat>) {
    stamp.Some? && since.Some? && stamp.value >= since.value
  }

  /** `getNodeHeight()`: 2 for a node never saved. */
  function NodeHeight(t: Table, k: Key): (h: int)
    ensures k !in t ==> h == 2
    ensures k in t && WellFormed(t[k]) ==> h >= 2 && h % 2 == 0
  {
    if k !in t then 2 else t[k].rgt - t[k].lft + 1
  }

  /** PHP's `round($h / 2)` for an integer `h`: halves round away from
      zero. */
  function RoundHalf(h: int): (r: int)
    ensures h >= 0 ==> 2 * r == h || 2 * r == h + 1
    ensures h < 0 ==> 2 * r == h || 2 * r == h - 1
  {
    if h >= 0 then (h + 1) / 2 else -((-h + 1) / 2)
  }

  /** `getDescendantCount()`. */
  function DescendantCount(t: Table, k: Key): int {
    RoundHalf(NodeHeight(t, k)) - 1
  }

  /** `isDescendantOf`: `a`'s left bound lies strictly inside `b`. */
  predicate IsDescendantOf(a: Row, b: Row) {
    b.lft < a.lft < b.rgt
  }

  predicate IsAncestorOf(a: Row, b: Row) {
    IsDescendantOf(b, a)
  }

  /** `isChildOf`: `a`'s parent id is loosely equal to `b`'s key, so a
      root counts as a child of row 0. */
  predicate IsChildOf(a: Row, b: Key) {
    LooseEq(a.parent, Some(b))
  }

  /** `isSiblingOf`: loosely equal parent ids (two roots are siblings, and
      so are a root and a child of row 0). */
  predicate IsSiblingOf(a: Row, b: Row) {
    LooseEq(a.parent, b.parent)
  }

  /** `isRoot()`: no parent id. */
  predicate IsRoot(a: Row) {
    a.parent == None
  }
}

=== FILE: engine_valid.dfy ===
/** Why the engine keeps a tree valid: every cut point an action picks has
    as its nearest enclosing row exactly the parent the action gives the
    node, so each insert and move is one of the block insertions `Blocks`
    and `Moves` prove safe; a hard delete removes a whole subtree and
    closes its gap; a soft delete and a restore change no bound and no
    parent. Rows of other scopes are never touched, so their trees stay as
    they were.
 */
module EngineValid {
  import opened Types
  import opened Bounds
  import opened Tree
  import opened Blocks
  import opened Moves
  import opened Engine

  /** The rows enclosing the slot just before or just after node `x` are
      exactly the rows containing `x`. */
  lemma {:induction false} SlotEnclosers(u: Table, x: Key, pos: int)
    requires Valid(u) && x in u
    requires pos == u[x].lft || pos == u[x].rgt + 1
    ensures forall a | a in u :: Encloses(u[a], pos) <==> Contains(u[a], u[x])
  {
    forall a | a in u
      ensures Encloses(u[a], pos) <==> Contains(u[a], u[x])
    {
      if a != x {
        DistinctBounds(u, a, x);
        assert Laminar(u[a], u[x]) && WellFormed(u[a]) && WellFormed(u[x]);
      }
    }
  }

  /** Inserting before or after node `x` lands under `x`'s parent. */
  lemma {:induction false} SlotCut(u: Table, x: Key, pos: int)
    requires Valid(u) && x in u
    requires pos == u[x].lft || pos == u[x].rgt + 1
    ensures NearestEnclosing(u, pos, u[x].parent)
  {
    SlotEnclosers(u, x, pos);
    assert ParentOk(u, x);
    match u[x].parent
    case None =>
    case Some(p) =>
      assert Nearest(u, p, x);
      forall a | a in u && Encloses(u[a], pos)
        ensures !Contains(u[p], u[a])
      {
        assert Contains(u[a], u[x]);
      }
  }

  /** The rows enclosing the first or last slot inside node `p` are `p`
      and the rows containing `p`. */
  lemma {:induction false} InnerSlotEnclosers(u: Table, p: Key, pos: int)
    requires Valid(u) && p in u
    requires pos == u[p].lft + 1 || pos == u[p].rgt
    ensures forall a | a in u :: Encloses(u[a], pos) <==> a == p || Contains(u[a], u[p])
  {
    assert WellFormed(u[p]);
    forall a | a in u
      ensures Encloses(u[a], pos) <==> a == p || Contains(u[a], u[p])
    {
      if a != p {
        DistinctBounds(u, a, p);
        assert Laminar(u[a], u[p]) && WellFormed(u[a]);
      }
    }
  }

  /** Appending or prepending to node `p` lands under `p`. */
  lemma {:induction false} InnerSlotCut(u: Table, p: Key, pos: int)
    requires Valid(u) && p in u
    requires pos == u[p].lft + 1 || pos == u[p].rgt
    ensures NearestEnclosing(u, pos, Some(p))
  {
    InnerSlotEnclosers(u, p, pos);
    forall a | a in u && Encloses(u[a], pos)
      ensures !Contains(u[p], u[a])
    {
    }
  }

  /** The slot after every row of the scope lies inside no row. */
  lemma RootCut(u: Table, m: int)
    requires forall k | k in u :: u[k].rgt <= m
    ensures NearestEnclosing(u, m + 1, None)
  {
  }

  /** Re-saving a row of the scope reads back into the scope's table. */
  lemma InScopeUpdate(t: Table, s: nat, k: Key, row: Row)
    requires row.scope == s
    ensures InScope(t[k := row], s) == InScope(t, s)[k := row]
  {
  }

  /** A scope whose rows did not change has the same tree. */
  lemma OtherScopeSame(t: Table, t': Table, s: nat, s': nat)
    requires OtherScopesUnchanged(t, t', s) && s' != s
    ensures InScope(t', s') == InScope(t, s')
  {
  }

  /** A new leaf is a block of one row. */
  lemma LeafBlockOk(k: Key, pos: int, q: Option<Key>, s: nat)
    ensures BlockOk(map[k := LeafAt(pos, q, s)], k, pos, 2, q)
  {
    var b := map[k := LeafAt(pos, q, s)];
    assert forall x | x in b :: x == k;
  }

  /** Within the scope, `insertNode` is the insertion of the leaf block. */
  lemma InsertNodeScope(t: Table, s: nat, k: Key, pos: int, q: Option<Key>)
    requires k !in t
    ensures InScope(InsertNode(t, s, k, pos, q), s) == InsertBlock(InScope(t, s), map[k := LeafAt(pos, q, s)], pos, 2)
  {
    var lhs := InScope(InsertNode(t, s, k, pos, q), s);
    var rhs := InsertBlock(InScope(t, s), map[k := LeafAt(pos, q, s)], pos, 2);
    InsertNodeScopeKeys(t, s, k, pos, q);
    forall j | j in lhs
      ensures lhs[j] == rhs[j]
    {
      InsertNodeScopeRow(t, s, k, pos, q, j);
    }
  }

  lemma InsertNodeScopeKeys(t: Table, s: nat, k: Key, pos: int, q: Option<Key>)
    requires k !in t
    ensures InScope(InsertNode(t, s, k, pos, q), s).Keys == InsertBlock(InScope(t, s), map[k := LeafAt(pos, q, s)], pos, 2).Keys
  {
  }

  lemma InsertNodeScopeRow(t: Table, s: nat, k: Key, pos: int, q: Option<Key>, j: Key)
    requires k !in t
    requires j in InScope(InsertNode(t, s, k, pos, q), s)
    ensures InScope(InsertNode(t, s, k, pos, q), s)[j] == InsertBlock(InScope(t, s), map[k := LeafAt(pos, q, s)], pos, 2)[j]
  {
  }

  /** Inserting a new leaf at `pos` under `pos`'s nearest enclosing row. */
  lemma {:induction false} InsertNodeValid(t: Table, s: nat, k: Key, pos: int, q: Option<Key>)
    requires ValidTree(t, s) && k !in t
    requires NearestEnclosing(InScope(t, s), pos, q)
    ensures ValidTree(InsertNode(t, s, k, pos, q), s)
  {
    var u: Table := InScope(t, s);
    var b := map[k := LeafAt(pos, q, s)];
    InsertNodeScope(t, s, k, pos, q);
    LeafBlockOk(k, pos, q, s);
    InsertBlockValid(u, b, k, pos, 2, q);
  }

  /** Moving a saved node to `pos` under `pos`'s nearest enclosing row. */
  lemma {:induction false} MoveAtValid(t: Table, s: nat, k: Key, pos: int, q: Option<Key>)
    requires ValidTree(t, s) && k in t && t[k].scope == s
    requires NearestEnclosing(InScope(t, s), pos, q)
    requires InsertAt(t, s, k, pos, q).Ok?
    ensures ValidTree(InsertAt(t, s, k, pos, q).value.0, s)
  {
    var u: Table := InScope(t, s);
    assert u[k] == t[k] && WellFormed(u[k]);
    var res := InsertAt(t, s, k, pos, q).value.0;
    match PlanMove(t[k].lft, t[k].rgt, pos)
    case Ok(None) =>
      SlotCut(u, k, pos);
      NearestEnclosingUnique(u, pos, q, u[k].parent);
      assert res == t;
    case Ok(Some(m)) =>
      var t1 := MoveTable(t, s, m).0;
      assert res == t1[k := t1[k].(parent := q)];
      assert k in InScope(t1, s);
      InScopeUpdate(t1, s, k, t1[k].(parent := q));
      assert InScope(res, s) == MovedTable(u, k, m, q);
      MoveValid(u, k, m, pos, q);
  }

  /** `insertAt` under the cut point's nearest enclosing row keeps the
      scope's tree valid. */
  lemma InsertAtValid(t: Table, s: nat, k: Key, pos: int, q: Option<Key>)
    requires ValidTree(t, s) && (k in t ==> t[k].scope == s)
    requires NearestEnclosing(InScope(t, s), pos, q)
    ensures InsertAt(t, s, k, pos, q).Ok? ==> ValidTree(InsertAt(t, s, k, pos, q).value.0, s)
  {
    if InsertAt(t, s, k, pos, q).Ok? {
      if k in t {
        MoveAtValid(t, s, k, pos, q);
      } else {
        InsertNodeValid(t, s, k, pos, q);
      }
    }
  }

  lemma ActionRootValid(t: Table, s: nat, k: Key)
    requires ValidTree(t, s) && (k in t ==> t[k].scope == s)
    ensures ActionRoot(t, s, k).Ok? ==> ValidTree(ActionRoot(t, s, k).value.0, s)
  {
    var m := LowerBound(InScope(t, s));
    if k !in t {
      RootLeafValid(t, s, k);
    } else if t[k].parent.Some? {
      RootCut(InScope(t, s), m);
      InsertAtValid(t, s, k, m + 1, None);
    }
  }

  /** A new root leaf goes right of every row of the scope. */
  lemma RootLeafValid(t: Table, s: nat, k: Key)
    requires ValidTree(t, s) && k !in t
    ensures ValidTree(t[k := LeafAt(LowerBound(InScope(t, s)) + 1, None, s)], s)
  {
    var u: Table := InScope(t, s);
    var m := LowerBound(u);
    RootCut(u, m);
    var row := LeafAt(m + 1, None, s);
    var b := map[k := row];
    InScopeUpdate(t, s, k, row);
    assert GapRows(u, m + 1, 2) == u by {
      forall j | j in u
        ensures GapRow(u[j], m + 1, 2) == u[j]
      {
        assert WellFormed(u[j]);
      }
    }
    assert InScope(t[k := row], s) == InsertBlock(u, b, m + 1, 2);
    assert BlockOk(b, k, m + 1, 2, None);
    InsertBlockValid(u, b, k, m + 1, 2, None);
  }

  /** The headline: saving a node with any pending action keeps the tree
      of its scope valid and leaves every other scope as it was. */
  lemma {:induction false} SaveValid(t: Table, s: nat, k: Key, action: Option<Action>)
    requires ValidTree(t, s) && (k in t ==> t[k].scope == s)
    ensures Save(t, s, k, action).Ok? ==>
      && ValidTree(Save(t, s, k, action).value.0, s)
      && OtherScopesUnchanged(t, Save(t, s, k, action).value.0, s)
  {
    match action
    case None =>
      ActionRootValid(t, s, k);
    case Some(MakeRoot) =>
      ActionRootValid(t, s, k);
    case Some(AppendOrPrepend(p, prepend)) =>
      if p in t && t[p].scope == s {
        SaveAppends(t, s, k, p, prepend);
        AppendValid(t, s, k, p, prepend);
      }
    case Some(BeforeOrAfter(x, after)) =>
      if x in t && t[x].scope == s {
        SaveSiblings(t, s, k, x, after);
        SiblingValid(t, s, k, x, after);
      }
  }

  lemma SaveAppends(t: Table, s: nat, k: Key, p: Key, prepend: bool)
    requires k in t ==> t[k].scope == s
    requires p in t && t[p].scope == s
    ensures Save(t, s, k, Some(AppendOrPrepend(p, prepend))) == InsertAt(t, s, k, AppendCut(t[p], prepend), Some(p))
  {
  }

  lemma SaveSiblings(t: Table, s: nat, k: Key, x: Key, after: bool)
    requires k in t ==> t[k].scope == s
    requires x in t && t[x].scope == s
    ensures Save(t, s, k, Some(BeforeOrAfter(x, after))) == InsertAt(t, s, k, BeforeOrAfterCut(t[x], after), SiblingParent(t, k, x))
  {
  }

  /** Appending or prepending to a parent of the same scope. */
  lemma AppendValid(t: Table, s: nat, k: Key, p: Key, prepend: bool)
    requires ValidTree(t, s) && (k in t ==> t[k].scope == s)
    requires p in t && t[p].scope == s
    ensures var r := InsertAt(t, s, k, AppendCut(t[p], prepend), Some(p));
      r.Ok? ==> ValidTree(r.value.0, s)
  {
    var u: Table := InScope(t, s);
    assert u[p] == t[p];
    InnerSlotCut(u, p, AppendCut(u[p], prepend));
    InsertAtValid(t, s, k, AppendCut(t[p], prepend), Some(p));
  }

  /** Inserting before or after a target of the same scope. */
  lemma SiblingValid(t: Table, s: nat, k: Key, x: Key, after: bool)
    requires ValidTree(t, s) && (k in t ==> t[k].scope == s)
    requires x in t && t[x].scope == s
    ensures var r := InsertAt(t, s, k, BeforeOrAfterCut(t[x], after), SiblingParent(t, k, x));
      r.Ok? ==> ValidTree(r.value.0, s)
  {
    var u: Table := InScope(t, s);
    assert u[x] == t[x];
    SlotCut(u, x, BeforeOrAfterCut(u[x], after));
    assert ParentOk(u, x);
    assert SiblingParent(t, k, x) == u[x].parent;
    InsertAtValid(t, s, k, BeforeOrAfterCut(t[x], after), SiblingParent(t, k, x));
  }

  /** The same save keeps the tree of every scope valid. */
  lemma SaveValidEverywhere(t: Table, s: nat, k: Key, action: Option<Action>, s': nat)
    requires ValidTree(t, s) && ValidTree(t, s') && (k in t ==> t[k].scope == s)
    ensures Save(t, s, k, action).Ok? ==> ValidTree(Save(t, s, k, action).value.0, s')
  {
    SaveValid(t, s, k, action);
    if Save(t, s, k, action).Ok? && s' != s {
      OtherScopeSame(t, Save(t, s, k, action).value.0, s, s');
    }
  }

  /** Appending or prepending makes the node a child of the parent, and
      before/after a sibling of the target, on a valid tree. */
  lemma SaveAttaches(t: Table, s: nat, k: Key, action: Action)
    requires ValidTree(t, s) && (k in t ==> t[k].scope == s)
    requires Save(t, s, k, Some(action)).Ok?
    ensures action.AppendOrPrepend? ==> Save(t, s, k, Some(action)).value.0[k].parent == Some(action.parent)
    ensures action.BeforeOrAfter? ==> Save(t, s, k, Some(action)).value.0[k].parent == t[action.target].parent
    ensures action.MakeRoot? ==> Save(t, s, k, Some(action)).value.0[k].parent == None
  {
    if action.BeforeOrAfter? {
      var x := action.target;
      var u: Table := InScope(t, s);
      assert ParentOk(u, x);
    }
  }

  /** A new node appended or prepended lands as the last or first child
      of its parent; inserted before or after a target it lands right
      next to it. */
  lemma NewNodeSlot(t: Table, s: nat, k: Key, action: Action)
    requires k !in t
    requires Save(t, s, k, Some(action)).Ok?
    ensures var r := Save(t, s, k, Some(action)).value.0;
      && (action.AppendOrPrepend? && !action.prepend ==> r[k].rgt + 1 == r[action.parent].rgt)
      && (action.AppendOrPrepend? && action.prepend ==> r[k].lft == r[action.parent].lft + 1)
      && (action.BeforeOrAfter? && action.after ==> r[k].lft == r[action.target].rgt + 1)
      && (action.BeforeOrAfter? && !action.after ==> r[k].rgt + 1 == r[action.target].lft)
  {
  }

  /** Rewriting only the soft-delete stamps keeps a tree valid. */
  lemma {:induction false} StampsOnlyValid(u: Table, u': Table)
    requires Valid(u)
    requires u'.Keys == u.Keys
    requires forall j | j in u :: u'[j].(deleted := u[j].deleted) == u[j]
    ensures Valid(u')
  {
    forall j | j in u'
      ensures WellFormed(u'[j])
    {
      assert WellFormed(u[j]);
    }
    forall a, b | a in u' && b in u' && a != b
      ensures Laminar(u'[a], u'[b])
    {
      assert Laminar(u[a], u[b]);
    }
    forall c | c in u'
      ensures ParentOk(u', c)
    {
      assert ParentOk(u, c);
    }
  }

  /** Within the node's scope, a hard delete removes the node's subtree
      and closes the gap it leaves. */
  lemma HardDeleteScope(t: Table, k: Key)
    requires k in t
    ensures var u := InScope(t, t[k].scope);
      k in u && InScope(HardDelete(t, k), t[k].scope) == Closed(u, k)
  {
    var s := t[k].scope;
    var u: Table := InScope(t, s);
    var lhs := InScope(HardDelete(t, k), s);
    var rhs := Closed(u, k);
    HardDeleteScopeKeys(t, k);
    assert lhs.Keys == rhs.Keys;
    forall j | j in lhs
      ensures lhs[j] == rhs[j]
    {
      HardDeleteScopeRow(t, k, j);
    }
    TablesEqual(lhs, rhs);
  }

  lemma HardDeleteScopeKeys(t: Table, k: Key)
    requires k in t
    ensures var u := InScope(t, t[k].scope);
      k in u && InScope(HardDelete(t, k), t[k].scope).Keys == u.Keys - Subtree(u, k)
  {
    var u: Table := InScope(t, t[k].scope);
    assert Subtree(u, k) == Descendants(t, k) + {k};
  }

  lemma HardDeleteScopeRow(t: Table, k: Key, j: Key)
    requires k in t && j in InScope(HardDelete(t, k), t[k].scope)
    requires var u := InScope(t, t[k].scope); j in Closed(u, k)
    ensures var u := InScope(t, t[k].scope);
      InScope(HardDelete(t, k), t[k].scope)[j] == Closed(u, k)[j]
  {
    var s := t[k].scope;
    var u: Table := InScope(t, s);
    var r := HardDelete(t, k);
    ClosedRow(u, k, j);
    assert u[j] == t[j] && u[k] == t[k];
    assert j in r && InScope(r, s)[j] == r[j];
    assert r[j] == GapRow(t[j], t[k].rgt + 1, -(t[k].rgt - t[k].lft + 1));
  }

  lemma {:induction false} HardDeleteValid(t: Table, k: Key)
    requires k in t && ValidTree(t, t[k].scope)
    ensures ValidTree(HardDelete(t, k), t[k].scope)
  {
    var u: Table := InScope(t, t[k].scope);
    HardDeleteScope(t, k);
    ClosedValid(u, k);
  }

  lemma SoftDeleteValid(t: Table, k: Key, now: nat, s: nat)
    requires k in t && ValidTree(t, s)
    ensures ValidTree(SoftDelete(t, k, now), s)
  {
    StampsOnlyValid(InScope(t, s), InScope(SoftDelete(t, k, now), s));
  }

  /** Deleting a node, hard or soft, keeps the tree of its scope valid and
      leaves every other scope as it was. */
  lemma DeleteValid(t: Table, k: Key, mode: DeleteMode, now: nat)
    requires k in t && ValidTree(t, t[k].scope)
    ensures ValidTree(Delete(t, k, mode, now), t[k].scope)
    ensures OtherScopesUnchanged(t, Delete(t, k, mode, now), t[k].scope)
  {
    if HardDeleting(mode) {
      HardDeleteValid(t, k);
    } else {
      SoftDeleteValid(t, k, now, t[k].scope);
    }
  }

  /** Restoring a node keeps every tree valid: no bound or parent moves. */
  lemma RestoreValid(t: Table, k: Key, s: nat)
    requires ValidTree(t, s)
    ensures ValidTree(Restore(t, k), s)
  {
    StampsOnlyValid(InScope(t, s), InScope(Restore(t, k), s));
  }

  /** A soft delete at `now` followed by a restore gives back the table,
      provided nothing in the subtree was trashed at `now` or later; rows
      trashed before stay trashed throughout. */
  lemma SoftDeleteRestore(t: Table, k: Key, now: nat)
    requires k in t && t[k].deleted == None
    requires forall j | j in Descendants(t, k) && t[j].deleted.Some? :: t[j].deleted.value < now
    ensures Restore(Delete(t, k, Soft, now), k) == t
  {
    var d := Delete(t, k, Soft, now);
    assert Descendants(d, k) == Descendants(t, k);
    var r := Restore(d, k);
    forall j | j in t
      ensures r[j] == t[j]
    {
    }
  }

  /** On a valid tree `isDescendantOf` is strict containment, and so the
      subtree of `b` without `b` itself. */
  lemma {:induction false} DescendantMeansContained(u: Table, a: Key, b: Key)
    requires Valid(u) && a in u && b in u
    ensures IsDescendantOf(u[a], u[b]) <==> Contains(u[b], u[a])
    ensures IsDescendantOf(u[a], u[b]) <==> a in Subtree(u, b) && a != b
  {
    if a != b {
      assert Laminar(u[a], u[b]) && WellFormed(u[a]) && WellFormed(u[b]);
    }
  }

  /** The target's parent loads when the relation is read: it is no row of
      the table, or the model does not soft-delete, or it is not trashed. */
  predicate TargetParentLoads(t: Table, action: Option<Action>, soft: bool) {
    action.Some? && action.value.BeforeOrAfter? && action.value.target in t ==>
      var p := t[action.value.target].parent;
      p.Some? && p.value in t ==> !(soft && t[p.value].deleted.Some?)
  }

  /** On a valid scope with no row keyed 0 whose target's parent loads,
      the written save and the corrected one agree. */
  lemma {:induction false} SaveWrittenAgrees(t: Table, s: nat, k: Key, action: Option<Action>, soft: bool)
    requires k in t ==> t[k].scope == s
    requires ValidTree(t, s)
    requires 0 !in t && TargetParentLoads(t, action, soft)
    ensures SaveWritten(t, s, k, action, soft) == Save(t, s, k, action)
  {
    match action
    case Some(BeforeOrAfter(x, after)) =>
      if x in t && t[x].scope == s {
        var u := InScope(t, s);
        assert x in u;
        if k in t {
          assert k in u;
          assert ParentOk(u, k);
        }
        assert ParentOk(u, x);
        assert SiblingParentWritten(t, k, x, soft) == SiblingParent(t, k, x);
      }
    case _ =>
  }

  /** Row `j` after node `k` is moved to `pos` by the plan `m` and given
      the parent id `q`: rewritten by the plan when the UPDATE matches it. */
  lemma MovedRowAt(t: Table, s: nat, k: Key, pos: int, q: Option<Key>, m: Plan, j: Key)
    requires k in t && t[k].scope == s && j in t
    requires PlanMove(t[k].lft, t[k].rgt, pos) == Ok(Some(m))
    ensures InsertAt(t, s, k, pos, q).Ok?
    ensures var w := InsertAt(t, s, k, pos, q).value.0;
      var moved := if MoveMatches(t[j], s, m) then MoveRow(t[j], m) else t[j];
      j in w && w[j] == (if j == k then moved.(parent := q) else moved)
  {
  }

  /** Row 0 = [1,4], its child 1 = [2,3], and a root 2 = [5,6]. */
  const LooseTable: Table := map[0 := Row(1, 4, None, 0, None), 1 := Row(2, 3, Some(0), 0, None), 2 := Row(5, 6, None, 0, None)]

  lemma LooseTableValid()
    ensures ValidTree(LooseTable, 0)
  {
    var t := LooseTable;
    assert InScope(t, 0) == t;
    assert Nearest(t, 0, 1);
    assert ParentOk(t, 0) && ParentOk(t, 1) && ParentOk(t, 2);
  }

  /** `2->beforeNode(1)` as written: null is loosely equal to the
      target's parent id 0, so node 2 moves to [2,3] inside row 0 and
      keeps a null parent, and the tree breaks; the corrected save gives
      it parent 0 and keeps the tree valid. */
  lemma LooseSiblingBreaks()
    ensures ValidTree(LooseTable, 0)
    ensures var r := SaveWritten(LooseTable, 0, 2, Some(BeforeOrAfter(1, false)), false);
      r.Ok? && !ValidTree(r.value.0, 0)
    ensures var r := Save(LooseTable, 0, 2, Some(BeforeOrAfter(1, false)));
      r.Ok? && ValidTree(r.value.0, 0) && r.value.0[2].parent == Some(0)
  {
    var t := LooseTable;
    LooseTableValid();
    var m := Plan(5, 6, 2, 6, 2, -3);
    assert SiblingParentWritten(t, 2, 1, false) == None;
    MovedRowAt(t, 0, 2, 2, None, m, 0);
    MovedRowAt(t, 0, 2, 2, None, m, 2);
    var w := SaveWritten(t, 0, 2, Some(BeforeOrAfter(1, false)), false).value.0;
    assert w == InsertAt(t, 0, 2, 2, None).value.0;
    var v := InScope(w, 0);
    assert v[0] == Row(1, 6, None, 0, None) && v[2] == Row(2, 3, None, 0, None);
    assert !ParentOk(v, 2);
    SaveValid(t, 0, 2, Some(BeforeOrAfter(1, false)));
    SaveAttaches(t, 0, 2, BeforeOrAfter(1, false));
  }

  /** A trashed root 1 = [1,4], its restored child 2 = [2,3], and a live
      root 3 = [5,6]. */
  const TrashedTable: Table := map[1 := Row(1, 4, None, 0, Some(7)), 2 := Row(2, 3, Some(1), 0, None), 3 := Row(5, 6, None, 0, None)]

  lemma TrashedTableValid()
    ensures ValidTree(TrashedTable, 0)
  {
    var t := TrashedTable;
    assert InScope(t, 0) == t;
    assert Nearest(t, 1, 2);
    assert ParentOk(t, 1) && ParentOk(t, 2) && ParentOk(t, 3);
  }

  /** `3->beforeNode(2)` as written on a soft-deleting model: the relation
      to the trashed row 1 reads null, so node 3 moves inside row 1 with a
      null parent, and the tree breaks; the corrected save gives it parent
      1 and keeps the tree valid. */
  lemma TrashedParentBreaks()
    ensures ValidTree(TrashedTable, 0)
    ensures var r := SaveWritten(TrashedTable, 0, 3, Some(BeforeOrAfter(2, false)), true);
      r.Ok? && !ValidTree(r.value.0, 0)
    ensures var r := Save(TrashedTable, 0, 3, Some(BeforeOrAfter(2, false)));
      r.Ok? && ValidTree(r.value.0, 0) && r.value.0[3].parent == Some(1)
  {
    var t := TrashedTable;
    TrashedTableValid();
    var m := Plan(5, 6, 2, 6, 2, -3);
    assert SiblingParentWritten(t, 3, 2, true) == None;
    MovedRowAt(t, 0, 3, 2, None, m, 1);
    MovedRowAt(t, 0, 3, 2, None, m, 3);
    var w := SaveWritten(t, 0, 3, Some(BeforeOrAfter(2, false)), true).value.0;
    assert w == InsertAt(t, 0, 3, 2, None).value.0;
    var v := InScope(w, 0);
    assert v[1] == Row(1, 6, None, 0, Some(7)) && v[3] == Row(2, 3, None, 0, None);
    assert !ParentOk(v, 3);
    SaveValid(t, 0, 3, Some(BeforeOrAfter(2, false)));
    SaveAttaches(t, 0, 3, BeforeOrAfter(2, false));
  }

  /** A child is a descendant of its parent, and its parent an ancestor
      of it; the loose comparison also makes a root a child of row 0, and
      of no other row. */
  lemma ChildIsDescendant(u: Table, a: Key, b: Key)
    requires Valid(u) && a in u && b in u
    requires IsChildOf(u[a], b)
    ensures IsRoot(u[a]) ==> b == 0
    ensures !IsRoot(u[a]) ==> IsDescendantOf(u[a], u[b]) && IsAncestorOf(u[b], u[a])
  {
    assert ParentOk(u, a);
    assert WellFormed(u[a]);
  }

  /** On a valid tree the descendant relation is a strict order. */
  lemma DescendantOrder(u: Table, a: Key, b: Key, c: Key)
    requires Valid(u) && a in u && b in u && c in u
    ensures !IsDescendantOf(u[a], u[a])
    ensures IsDescendantOf(u[a], u[b]) ==> !IsDescendantOf(u[b], u[a])
    ensures IsDescendantOf(u[a], u[b]) && IsDescendantOf(u[b], u[c]) ==> IsDescendantOf(u[a], u[c])
  {
    DescendantMeansContained(u, a, b);
    DescendantMeansContained(u, b, a);
    DescendantMeansContained(u, b, c);
    DescendantMeansContained(u, a, c);
  }

  /** Two roots of a valid tree are siblings and lie apart. */
  lemma RootsApart(u: Table, a: Key, b: Key)
    requires Valid(u) && a in u && b in u && a != b
    requires IsRoot(u[a]) && IsRoot(u[b])
    ensures IsSiblingOf(u[a], u[b]) && Apart(u[a], u[b])
  {
    assert ParentOk(u, a) && ParentOk(u, b);
    assert Laminar(u[a], u[b]);
  }

  /** `getDescendantCount()` of a well-formed row is half the number of
      bounds strictly inside it; a node never saved has none. */
  lemma DescendantCountOfRow(t: Table, k: Key)
    ensures k !in t ==> DescendantCount(t, k) == 0
    ensures k in t && WellFormed(t[k]) ==>
      DescendantCount(t, k) >= 0 && 2 * DescendantCount(t, k) == t[k].rgt - t[k].lft - 1
  {
  }
}

=== FILE: fix.dfy ===
/** `fixTree`, `fixSubtree` and `fixNodes` of src/QueryBuilder.php: the
    rows of a scope (or of a subtree) are grouped by parent id in left
    bound order and renumbered by the walk of `Renumber`, starting from
    the roots (or from the subtree's top); what the walk does not reach is
    walked again as roots, one entry at a time. Only models whose bounds
    or parent id change are saved, and only the columns that change.

    For a subtree the walk starts at the top's left bound plus one; when
    it ends somewhere other than the top's right bound, `makeGap` shifts
    the rest of the scope first and the top's right bound is saved as the
    end of the walk.
 */
module Fix {
  import opened Types
  import opened Bounds
  import opened Tree
  import opened Dictionary
  import opened Renumber

  /** The orphan loop: while the dictionary has entries, the first one is
      made the roots' entry and the walk from `top` runs again. */
  function Orphans(d: seq<Group>, top: Option<Key>, cut: int): (r: (int, Table))
    requires Inv(d)
    requires top.Some? ==> top.value !in MemberSet(d)
    ensures Forest(r.1, top, cut, r.0)
    ensures r.1.Keys <= MemberSet(d)
    ensures top == None && None !in GroupKeys(d) ==> r.1.Keys == MemberSet(d)
    ensures top.Some? && top !in GroupKeys(d) ==> r == (cut, map[])
    ensures RootOrFiled(r.1, d)
    decreases Measure(d)
  {
    if d == [] then (cut, map[])
    else
      RekeyFacts(d);
      var d' := Rekey(d);
      var pass := ReorderNodes(d', top, cut);
      MeasureShrinks(d', pass.dict);
      var rest := Orphans(pass.dict, top, pass.cut);
      OrphanStep(d, d', top, cut, pass, rest);
      OrphanParents(d, pass, rest.1);
      (rest.0, pass.slots + rest.1)
  }

  /** Every row numbered took `null` as its parent id, or the parent id of
      an entry of `d` that lists it. */
  predicate RootOrFiled(a: Table, d: seq<Group>) {
    forall k | k in a :: a[k].parent == None || InGroup(d, k, a[k].parent)
  }

  /** The orphan step files the first entry's members under `null` and
      keeps every other entry, so a parent id other than `null` still
      comes from an entry of the dictionary the loop started from. */
  lemma OrphanParents(d: seq<Group>, pass: Pass, rest: Table)
    requires Inv(d) && d != []
    requires ParentsFrom(pass.slots, Rekey(d)) && Kept(pass.dict, Rekey(d))
    requires RootOrFiled(rest, pass.dict)
    ensures RootOrFiled(pass.slots + rest, d)
  {
    var a := pass.slots + rest;
    forall k | k in a && a[k].parent != None
      ensures InGroup(d, k, a[k].parent)
    {
      var q := a[k].parent;
      if k in rest {
        assert InGroup(pass.dict, k, q);
        assert q in GroupKeys(pass.dict);
      }
      assert InGroup(Rekey(d), k, q);
      RekeyFind(d, q);
    }
  }

  /** One round of the orphan loop, put together from the walk of the
      round and the rounds after it. */
  lemma OrphanStep(d: seq<Group>, d': seq<Group>, top: Option<Key>, cut: int, pass: Pass, rest: (int, Table))
    requires MemberSet(d') <= MemberSet(d)
    requires None !in GroupKeys(d) ==> MemberSet(d') == MemberSet(d)
    requires GroupKeys(d') <= GroupKeys(d) + {None}
    requires GroupKeys(pass.dict) <= GroupKeys(d') - {top}
    requires MemberSet(pass.dict) + pass.slots.Keys == MemberSet(d') && MemberSet(pass.dict) !! pass.slots.Keys
    requires top !in GroupKeys(d') ==> pass == Pass(d', cut, map[])
    requires Forest(pass.slots, top, cut, pass.cut)
    requires Forest(rest.1, top, pass.cut, rest.0)
    requires rest.1.Keys <= MemberSet(pass.dict)
    requires top == None && None !in GroupKeys(pass.dict) ==> rest.1.Keys == MemberSet(pass.dict)
    requires top.Some? && top !in GroupKeys(pass.dict) ==> rest == (pass.cut, map[])
    ensures Forest(pass.slots + rest.1, top, cut, rest.0)
    ensures (pass.slots + rest.1).Keys <= MemberSet(d)
    ensures top == None && None !in GroupKeys(d) ==> (pass.slots + rest.1).Keys == MemberSet(d)
    ensures top.Some? && top !in GroupKeys(d) ==> (rest.0, pass.slots + rest.1) == (cut, map[])
  {
    UnionKeys(pass.slots, rest.1);
    JoinForest(pass.slots, rest.1, top, cut, pass.cut, rest.0);
    if top.Some? && top !in GroupKeys(d) {
      assert top !in GroupKeys(d');
      assert pass.slots + rest.1 == map[];
    }
  }

  /** `$a` comes before `$b` in `orderBy(lft)`; rows with the same left
      bound, which a database may return in any order, are taken in key
      order. */
  predicate Before(u: Table, a: Key, b: Key)
    requires a in u && b in u
  {
    u[a].lft < u[b].lft || (u[a].lft == u[b].lft && a <= b)
  }

  lemma {:induction false} FirstExists(u: Table, ks: set<Key>)
    requires ks != {} && ks <= u.Keys
    ensures exists k | k in ks :: forall j | j in ks :: Before(u, k, j)
  {
    var y :| y in ks;
    if ks == {y} {
      assert forall j | j in ks :: Before(u, y, j);
    } else {
      assert ks - {y} != {} by {
        var z :| z in ks && z != y;
        assert z in ks - {y};
      }
      FirstExists(u, ks - {y});
      var m :| m in ks - {y} && forall j | j in ks - {y} :: Before(u, m, j);
      FirstStep(u, ks, y, m);
    }
  }

  lemma FirstStep(u: Table, ks: set<Key>, y: Key, m: Key)
    requires ks <= u.Keys && y in ks && m in ks - {y}
    requires forall j | j in ks - {y} :: Before(u, m, j)
    ensures exists k | k in ks :: forall j | j in ks :: Before(u, k, j)
  {
    var first := if Before(u, y, m) then y else m;
    forall j | j in ks
      ensures Before(u, first, j)
    {
      if j != y {
        assert j in ks - {y};
      }
    }
  }

  /** The first of the rows `ks` in left-bound order. */
  function First(u: Table, ks: set<Key>): (k: Key)
    requires ks != {} && ks <= u.Keys
    ensures k in ks && forall j | j in ks :: Before(u, k, j)
  {
    FirstExists(u, ks);
    var k :| k in ks && forall j | j in ks :: Before(u, k, j);
    k
  }

  /** `defaultOrder()`: the rows `ks` in left-bound order. */
  function LftOrder(u: Table, ks: set<Key>): (o: seq<Key>)
    requires ks <= u.Keys
    ensures Distinct(o) && Elems(o) == ks
    ensures forall i, j | 0 <= i < j < |o| :: Before(u, o[i], o[j])
    decreases ks
  {
    if ks == {} then []
    else
      var k := First(u, ks);
      var rest := LftOrder(u, ks - {k});
      var o := [k] + rest;
      assert forall i | 1 <= i < |o| :: o[i] == rest[i - 1];
      o
  }

  /** A model after `rawNode`: its in-memory row with the three tree
      columns set from the slot. */
  function Place(model: Row, slot: Row): (r: Row)
    ensures r.lft == slot.lft && r.rgt == slot.rgt && r.parent == slot.parent
    ensures r.scope == model.scope && r.deleted == model.deleted
  {
    model.(lft := slot.lft, rgt := slot.rgt, parent := slot.parent)
  }

  /** Eloquent's `isDirty()`: some column of the model differs from what
      was loaded. */
  predicate Dirty(loaded: Row, model: Row) {
    loaded != model
  }

  /** `save()` of a dirty model: the columns that differ from what was
      loaded are written, the others keep what the table now holds. */
  function SaveRow(loaded: Row, now: Row, model: Row): (r: Row)
    ensures model.scope == loaded.scope ==> r.scope == now.scope
    ensures loaded == now ==> r == model
  {
    Row(if model.lft != loaded.lft then model.lft else now.lft,
        if model.rgt != loaded.rgt then model.rgt else now.rgt,
        if model.parent != loaded.parent then model.parent else now.parent,
        if model.scope != loaded.scope then model.scope else now.scope,
        if model.deleted != loaded.deleted then model.deleted else now.deleted)
  }

  /** The models the walk left dirty; `models` holds their in-memory rows
      before the walk. */
  function DirtyKeys(t: Table, models: Table, slots: Table): (ks: set<Key>)
    ensures forall k :: k in ks <==> k in slots && k in t && k in models && Dirty(t[k], Place(models[k], slots[k]))
  {
    set k | k in slots && k in t && k in models && Dirty(t[k], Place(models[k], slots[k]))
  }

  /** Saving every dirty model onto the table `now`, as loaded from `t`. */
  function SaveAll(t: Table, models: Table, now: Table, slots: Table): (r: Table)
    requires now.Keys == t.Keys
    ensures r.Keys == t.Keys
    ensures forall k | k in t ::
      r[k] == if k in DirtyKeys(t, models, slots) then SaveRow(t[k], now[k], Place(models[k], slots[k])) else now[k]
  {
    map k | k in t :: if k in DirtyKeys(t, models, slots) then SaveRow(t[k], now[k], Place(models[k], slots[k])) else now[k]
  }

  /** The models of a dictionary of scope `s`, loaded from `t`. */
  predicate ModelsOf(t: Table, models: Table, s: nat, ks: set<Key>) {
    forall k | k in ks :: k in t && k in models && t[k].scope == s && models[k].scope == s
  }

  /** Saving models of scope `s` leaves the other scopes alone. */
  lemma SaveOtherScopes(t: Table, models: Table, now: Table, slots: Table, s: nat)
    requires now.Keys == t.Keys && OtherScopesUnchanged(t, now, s)
    requires ModelsOf(t, models, s, slots.Keys)
    ensures OtherScopesUnchanged(t, SaveAll(t, models, now, slots), s)
  {
  }

  /** Saving one more row of scope `s` leaves the other scopes alone. */
  lemma SaveOneOtherScopes(t: Table, now: Table, n: Key, model: Row, s: nat)
    requires now.Keys == t.Keys && OtherScopesUnchanged(t, now, s)
    requires n in t && t[n].scope == s && model.scope == s
    ensures OtherScopesUnchanged(t, now[n := SaveRow(t[n], now[n], model)], s)
  {
  }

  datatype Fixed = Fixed(table: Table, count: nat)

  /** The bounds and parents one run of `fixNodes` computes: the walk from
      `top` numbering from `cut`, then the orphan loop. */
  function Walk(d: seq<Group>, top: Option<Key>, cut: int): (r: (int, Table))
    requires Inv(d)
    requires top.Some? ==> top.value !in MemberSet(d)
    ensures r.1.Keys <= MemberSet(d)
    ensures top == None ==> r.1.Keys == MemberSet(d)
    ensures RootOrFiled(r.1, d)
  {
    var first := ReorderNodes(d, top, cut);
    var loop := Orphans(first.dict, top, first.cut);
    WalkStep(d, top, cut, first, loop);
    WalkParents(d, first, loop.1);
    (loop.0, first.slots + loop.1)
  }

  lemma WalkParents(d: seq<Group>, first: Pass, loop: Table)
    requires ParentsFrom(first.slots, d) && Kept(first.dict, d)
    requires RootOrFiled(loop, first.dict)
    ensures RootOrFiled(first.slots + loop, d)
  {
    var a := first.slots + loop;
    forall k | k in a && a[k].parent != None
      ensures InGroup(d, k, a[k].parent)
    {
      var q := a[k].parent;
      if k in loop {
        assert InGroup(first.dict, k, q);
        assert q in GroupKeys(first.dict);
      }
    }
  }

  /** The numbering `fixNodes` computes is a forest hanging from `top`,
      two numbers per row from `cut` on. */
  lemma WalkForest(d: seq<Group>, top: Option<Key>, cut: int)
    requires Inv(d)
    requires top.Some? ==> top.value !in MemberSet(d)
    ensures var w := Walk(d, top, cut); Forest(w.1, top, cut, w.0)
  {
    var first := ReorderNodes(d, top, cut);
    var loop := Orphans(first.dict, top, first.cut);
    WalkStep(d, top, cut, first, loop);
  }

  lemma WalkStep(d: seq<Group>, top: Option<Key>, cut: int, first: Pass, loop: (int, Table))
    requires GroupKeys(first.dict) <= GroupKeys(d) - {top}
    requires MemberSet(first.dict) + first.slots.Keys == MemberSet(d) && MemberSet(first.dict) !! first.slots.Keys
    requires Forest(first.slots, top, cut, first.cut)
    requires Forest(loop.1, top, first.cut, loop.0)
    requires loop.1.Keys <= MemberSet(first.dict)
    requires top == None && None !in GroupKeys(first.dict) ==> loop.1.Keys == MemberSet(first.dict)
    ensures Forest(first.slots + loop.1, top, cut, loop.0)
    ensures (first.slots + loop.1).Keys <= MemberSet(d)
    ensures top == None ==> (first.slots + loop.1).Keys == MemberSet(d)
  {
    UnionKeys(first.slots, loop.1);
    JoinForest(first.slots, loop.1, top, cut, first.cut, loop.0);
  }

  /** The saves of `fixNodes` when no gap is needed: every dirty model is
      written; the count is the number of dirty models. */
  function Unmoved(t: Table, models: Table, s: nat, slots: Table): (r: Fixed)
    requires ModelsOf(t, models, s, slots.Keys)
    ensures r.table.Keys == t.Keys
    ensures OtherScopesUnchanged(t, r.table, s)
    ensures r.count == |DirtyKeys(t, models, slots)|
  {
    var dirty := DirtyKeys(t, models, slots);
    CardSubset(dirty, t.Keys);
    SaveOtherScopes(t, models, t, slots, s);
    Fixed(SaveAll(t, models, t, slots), |dirty|)
  }

  /** The saves of `fixNodes` for a subtree top `n` whose walk ended at
      `end`, not at its right bound: the gap is made first, then the dirty
      models and the top are saved; the count adds the top and the rows
      the gap moved. */
  function Grown(t: Table, models: Table, s: nat, slots: Table, n: Key, end: int): (r: Fixed)
    requires ModelsOf(t, models, s, slots.Keys)
    requires n in t && t[n].scope == s
    ensures r.table.Keys == t.Keys
    ensures OtherScopesUnchanged(t, r.table, s)
    ensures r.count == |DirtyKeys(t, models, slots)| + 1 + MakeGap(t, s, t[n].rgt + 1, end - t[n].rgt).1
  {
    var dirty := DirtyKeys(t, models, slots);
    CardSubset(dirty, t.Keys);
    var gap := MakeGap(t, s, t[n].rgt + 1, end - t[n].rgt);
    var saved := SaveAll(t, models, gap.0, slots);
    SaveOtherScopes(t, models, gap.0, slots, s);
    var own := Place(t[n], Slot(t[n].lft, end, t[n].parent));
    SaveOneOtherScopes(t, saved, n, own, s);
    Fixed(saved[n := SaveRow(t[n], saved[n], own)], |dirty| + 1 + gap.1)
  }

  /** `fixNodes($dictionary, $parent)` on table `t`, scope `s`; `models`
      holds the in-memory rows of the models in the dictionary. */
  function FixNodes(t: Table, models: Table, s: nat, d: seq<Group>, top: Option<Key>): (r: Fixed)
    requires Inv(d) && ModelsOf(t, models, s, MemberSet(d))
    requires top.Some? ==> top.value in t && t[top.value].scope == s && top.value !in MemberSet(d)
    ensures r.table.Keys == t.Keys
    ensures OtherScopesUnchanged(t, r.table, s)
  {
    var cut := if top.Some? then t[top.value].lft + 1 else 1;
    var w := Walk(d, top, cut);
    if top.Some? && w.0 - t[top.value].rgt != 0 then Grown(t, models, s, w.1, top.value, w.0)
    else Unmoved(t, models, s, w.1)
  }

  /** The rows `fixTree` reads: the whole scope, or for a subtree the rows
      whose left bound lies in [lft+1, rgt] of its top. */
  function Selected(u: Table, root: Option<Key>): (ks: set<Key>)
    requires root.Some? ==> root.value in u
    ensures ks <= u.Keys
    ensures root.Some? ==> root.value !in ks
  {
    match root
    case None => u.Keys
    case Some(n) => set k | k in u && u[n].lft + 1 <= u[k].lft <= u[n].rgt
  }

  /** `fixTree($root)` (and `fixSubtree($root)`) on scope `s`. */
  function FixTree(t: Table, s: nat, root: Option<Key>): (r: Fixed)
    requires root.Some? ==> root.value in t && t[root.value].scope == s
    ensures r.table.Keys == t.Keys
    ensures OtherScopesUnchanged(t, r.table, s)
  {
    var u := InScope(t, s);
    var order := LftOrder(u, Selected(u, root));
    var d := GroupBy(order, u);
    FixNodes(t, t, s, d, root)
  }

  /** Two tables with the same keys whose rows agree on bounds and parent. */
  predicate SameShape(a: Table, b: Table) {
    && a.Keys == b.Keys
    && forall k | k in a :: a[k].lft == b[k].lft && a[k].rgt == b[k].rgt && a[k].parent == b[k].parent
  }

  /** Validity looks at bounds and parents only. */
  lemma {:induction false} ShapeValid(a: Table, b: Table)
    requires Valid(a) && SameShape(a, b)
    ensures Valid(b)
  {
    forall k | k in b
      ensures WellFormed(b[k])
    {
      assert WellFormed(a[k]);
    }
    forall x, y | x in b && y in b && x != y
      ensures Laminar(b[x], b[y])
    {
      assert Laminar(a[x], a[y]);
    }
    forall c | c in b
      ensures ParentOk(b, c)
    {
      assert ParentOk(a, c);
      if b[c].parent.Some? {
        var p := b[c].parent.value;
        assert Nearest(a, p, c);
        forall x | x in b
          ensures !(Contains(b[p], b[x]) && Contains(b[x], b[c]))
        {
          assert !(Contains(a[p], a[x]) && Contains(a[x], a[c]));
        }
      } else {
        forall x | x in b
          ensures !Contains(b[x], b[c])
        {
          assert !Contains(a[x], a[c]);
        }
      }
    }
  }

  /** The scope after saving the walk's numbering over every row of the
      scope has the numbering's shape. */
  lemma {:induction false} SavedShape(t: Table, models: Table, s: nat, slots: Table)
    requires slots.Keys == InScope(t, s).Keys
    requires ModelsOf(t, models, s, slots.Keys)
    ensures SameShape(slots, InScope(Unmoved(t, models, s, slots).table, s))
  {
    var u := InScope(t, s);
    var r := Unmoved(t, models, s, slots).table;
    var v := InScope(r, s);
    assert r == SaveAll(t, models, t, slots);
    forall k | k in slots
      ensures k in v && slots[k].lft == v[k].lft && slots[k].rgt == v[k].rgt && slots[k].parent == v[k].parent
    {
      assert k in u;
    }
    forall k | k in v
      ensures k in slots
    {
      assert r[k].scope == t[k].scope;
    }
  }

  /** `fixNodes` without a top, over a dictionary holding every row of the
      scope, leaves the scope a valid tree numbered 1 to twice its size. */
  lemma WholeValid(t: Table, models: Table, s: nat, d: seq<Group>)
    requires Inv(d) && ModelsOf(t, models, s, MemberSet(d))
    requires MemberSet(d) == InScope(t, s).Keys
    ensures ValidTree(FixNodes(t, models, s, d, None).table, s)
    ensures var v := InScope(FixNodes(t, models, s, d, None).table, s);
      forall k | k in v :: 1 <= v[k].lft && v[k].rgt <= 2 * |v.Keys|
  {
    var w := Walk(d, None, 1);
    WalkForest(d, None, 1);
    RootForestValid(w.1, 1, w.0);
    assert FixNodes(t, models, s, d, None) == Unmoved(t, models, s, w.1);
    SavedShape(t, models, s, w.1);
    ShapeValid(w.1, InScope(FixNodes(t, models, s, d, None).table, s));
  }

  /** The headline fact about `fixTree()`: whatever the table holds, the
      scope comes out a valid tree numbered 1 to twice its size, and no
      other scope changes. */
  lemma FixTreeValid(t: Table, s: nat)
    ensures ValidTree(FixTree(t, s, None).table, s)
    ensures OtherScopesUnchanged(t, FixTree(t, s, None).table, s)
    ensures var v := InScope(FixTree(t, s, None).table, s);
      forall k | k in v :: 1 <= v[k].lft && v[k].rgt <= 2 * |v.Keys|
  {
    var u := InScope(t, s);
    var d := GroupBy(LftOrder(u, u.Keys), u);
    WholeValid(t, t, s, d);
  }

  /** The rows whose stored row differs between two tables. */
  function Changed(t: Table, t': Table): (ks: set<Key>)
    requires t'.Keys == t.Keys
    ensures forall k :: k in ks <==> k in t && t'[k] != t[k]
  {
    set k | k in t && t'[k] != t[k]
  }

  /** Without a gap, the models saved are exactly the rows that change. */
  lemma {:induction false} UnmovedChanged(t: Table, models: Table, s: nat, slots: Table)
    requires ModelsOf(t, models, s, slots.Keys)
    ensures Changed(t, Unmoved(t, models, s, slots).table) == DirtyKeys(t, models, slots)
  {
    var r := Unmoved(t, models, s, slots).table;
    assert r == SaveAll(t, models, t, slots);
    forall k | k in DirtyKeys(t, models, slots)
      ensures r[k] != t[k]
    {
      assert Dirty(t[k], Place(models[k], slots[k]));
    }
  }

  /** Without a gap, nothing is saved exactly when nothing changes. */
  lemma {:induction false} UnmovedCount(t: Table, models: Table, s: nat, slots: Table)
    requires ModelsOf(t, models, s, slots.Keys)
    ensures var r := Unmoved(t, models, s, slots);
      && r.count == |Changed(t, r.table)|
      && (r.count == 0 <==> r.table == t)
  {
    var r := Unmoved(t, models, s, slots);
    UnmovedChanged(t, models, s, slots);
    if r.count == 0 {
      forall k | k in t
        ensures r.table[k] == t[k]
      {
        assert k !in Changed(t, r.table);
      }
    }
  }

  /** `fixTree()` returns the number of rows it changed, and returns zero
      exactly when the table is left as it was. */
  lemma FixTreeCount(t: Table, s: nat)
    ensures var r := FixTree(t, s, None);
      && r.count == |Changed(t, r.table)|
      && (r.count == 0 <==> r.table == t)
  {
    var u := InScope(t, s);
    var d := GroupBy(LftOrder(u, u.Keys), u);
    var w := Walk(d, None, 1);
    assert FixTree(t, s, None) == Unmoved(t, t, s, w.1);
    UnmovedCount(t, t, s, w.1);
  }

  /** Without a top, every model of the dictionary is walked and saved
      when dirty, so each model's trash stamp (`deleted_at`) reaches the
      table. */
  lemma WholeSaved(t: Table, models: Table, s: nat, d: seq<Group>)
    requires Inv(d) && ModelsOf(t, models, s, MemberSet(d))
    ensures var r := FixNodes(t, models, s, d, None).table;
      forall k | k in MemberSet(d) :: r[k].deleted == models[k].deleted
  {
    var w := Walk(d, None, 1);
    var r := FixNodes(t, models, s, d, None).table;
    assert r == SaveAll(t, models, t, w.1);
    forall k | k in MemberSet(d)
      ensures r[k].deleted == models[k].deleted
    {
      assert k in w.1;
      if k !in DirtyKeys(t, models, w.1) {
        assert t[k] == Place(models[k], w.1[k]);
      }
    }
  }

  /** The walk over the scope's rows as `fixTree()` groups them. */
  lemma TreeWalk(t: Table, s: nat) returns (order: seq<Key>, d: seq<Group>, w: (int, Table))
    ensures var u := InScope(t, s);
      && order == LftOrder(u, u.Keys) && d == GroupBy(order, u) && w == Walk(d, None, 1)
      && (forall i | 0 <= i < |order| :: order[i] in u)
      && Inv(d) && MemberSet(d) == u.Keys && w.1.Keys == u.Keys
      && FixTree(t, s, None) == Unmoved(t, t, s, w.1)
      && SameShape(w.1, InScope(FixTree(t, s, None).table, s))
      && RootOrFiled(w.1, d)
      && forall k | k in u :: InGroup(d, k, u[k].parent)
  {
    var u := InScope(t, s);
    order := LftOrder(u, u.Keys);
    d := GroupBy(order, u);
    w := Walk(d, None, 1);
    SavedShape(t, t, s, w.1);
    forall k | k in u
      ensures InGroup(d, k, u[k].parent)
    {
      GroupByMembers(order, u, k, u[k].parent);
    }
  }

  /** What `fixTree()` does to parent ids: every row keeps its parent id
      or is saved as a root, and a row whose parent id names no row of the
      scope is saved as a root. */
  lemma FixTreeParents(t: Table, s: nat)
    ensures var u := InScope(t, s); var v := InScope(FixTree(t, s, None).table, s);
      && v.Keys == u.Keys
      && (forall k | k in v :: v[k].parent == u[k].parent || v[k].parent == None)
      && (forall k | k in u && u[k].parent.Some? && u[k].parent.value !in u :: v[k].parent == None)
  {
    var u := InScope(t, s);
    var v := InScope(FixTree(t, s, None).table, s);
    var order, d, w := TreeWalk(t, s);
    FixTreeValid(t, s);
    ParentsFromWalk(u, v, order, d, w.1);
  }

  lemma ParentsFromWalk(u: Table, v: Table, order: seq<Key>, d: seq<Group>, slots: Table)
    requires forall i | 0 <= i < |order| :: order[i] in u
    requires d == GroupBy(order, u) && SameShape(slots, v) && v.Keys == u.Keys
    requires RootOrFiled(slots, d) && Valid(v)
    ensures forall k | k in v :: v[k].parent == u[k].parent || v[k].parent == None
    ensures forall k | k in u && u[k].parent.Some? && u[k].parent.value !in u :: v[k].parent == None
  {
    forall k | k in v
      ensures v[k].parent == u[k].parent || v[k].parent == None
    {
      var q := slots[k].parent;
      if q != None {
        assert InGroup(d, k, q);
        GroupByMembers(order, u, k, q);
      }
    }
    forall k | k in u && u[k].parent.Some? && u[k].parent.value !in u
      ensures v[k].parent == None
    {
      assert ParentOk(v, k);
    }
  }

  /** The rows of `u` strictly containing row `k`. */
  function Containers(u: Table, k: Key): set<Key>
    requires k in u
  {
    set x | x in u && Contains(u[x], u[k])
  }

  /** On a valid scope, a walk that consumed the roots' entry and went
      below every row it numbered reached every row: each row hangs below
      a root through rows that contain it. */
  lemma {:induction false} Reached(u: Table, d: seq<Group>, a: Table, d': seq<Group>, k: Key)
    requires Valid(u) && k in u
    requires forall j | j in u :: InGroup(d, j, u[j].parent)
    requires None !in GroupKeys(d')
    requires Consumed(a, d, d') && Closed(a, d, d')
    ensures k in a
    decreases |Containers(u, k)|
  {
    var q := u[k].parent;
    assert InGroup(d, k, q) && q in GroupKeys(d);
    assert ParentOk(u, k);
    if q.Some? {
      var p := q.value;
      assert Nearest(u, p, k);
      ContainersShrink(u, p, k);
      Reached(u, d, a, d', p);
      assert Some(p) !in GroupKeys(d');
    }
    assert GroupWalked(a, Find(d, q).value);
  }

  /** A row containing `k` lies in fewer rows than `k`. */
  lemma ContainersShrink(u: Table, p: Key, k: Key)
    requires p in u && k in u && Contains(u[p], u[k])
    ensures |Containers(u, p)| < |Containers(u, k)|
  {
    var above := Containers(u, p);
    var all := Containers(u, k);
    forall x | x in above
      ensures x in all - {p}
    {
    }
    CardSubset(above, all - {p});
    assert p in all;
  }

  /** The rows of `o`, all rows of `u`, are listed in left-bound order. */
  predicate Sorted(u: Table, o: seq<Key>) {
    forall i, j | 0 <= i < j < |o| && o[i] in u && o[j] in u :: Before(u, o[i], o[j])
  }

  /** The rows of `order` with parent id `q` keep the order's left-bound
      order. */
  lemma {:induction false} WithParentSorted(u: Table, order: seq<Key>, q: Option<Key>)
    requires forall i | 0 <= i < |order| :: order[i] in u
    requires Sorted(u, order)
    ensures Sorted(u, WithParent(order, u, q))
  {
    if order != [] {
      var last := order[|order| - 1];
      var init := order[..|order| - 1];
      assert order == init + [last];
      WithParentSorted(u, init, q);
      var w0 := WithParent(init, u, q);
      var w := WithParent(order, u, q);
      assert w == w0 + (if u[last].parent == q then [last] else []);
      forall i, j | 0 <= i < j < |w| && w[i] in u && w[j] in u
        ensures Before(u, w[i], w[j])
      {
        if j >= |w0| {
          assert w[j] == last && w[i] == w0[i] && w0[i] in init;
          var a :| 0 <= a < |init| && init[a] == w0[i];
          assert order[a] == w0[i] && order[|order| - 1] == last;
        } else {
          assert w[i] == w0[i] && w[j] == w0[j];
        }
      }
    }
  }

  /** On a scope that is already a valid tree, `fixTree()` keeps every
      parent id and the order of every row's children. */
  lemma FixTreeKeeps(t: Table, s: nat)
    requires ValidTree(t, s)
    ensures var u := InScope(t, s); var v := InScope(FixTree(t, s, None).table, s);
      && v.Keys == u.Keys
      && (forall k | k in v :: v[k].parent == u[k].parent)
      && (forall a, b | a in u && b in u && u[a].parent == u[b].parent && u[a].lft < u[b].lft :: v[a].lft < v[b].lft)
  {
    var u := InScope(t, s);
    var v := InScope(FixTree(t, s, None).table, s);
    var order, d, w := TreeWalk(t, s);
    var first := ValidWalk(u, order, d);
    KeepsFromWalk(u, v, order, d, w.1, first);
  }

  lemma KeepsFromWalk(u: Table, v: Table, order: seq<Key>, d: seq<Group>, slots: Table, first: Pass)
    requires order == LftOrder(u, u.Keys) && d == GroupBy(order, u)
    requires SameShape(slots, v) && v.Keys == u.Keys
    requires first.slots.Keys == u.Keys && MemberSet(first.dict) == {}
    requires forall k | k in first.slots :: slots[k] == first.slots[k]
    requires ParentsFrom(first.slots, d) && Intervals(first.slots)
    requires Consumed(first.slots, d, first.dict) && Kept(first.dict, d)
    ensures forall k | k in v :: v[k].parent == u[k].parent
    ensures forall a, b | a in u && b in u && u[a].parent == u[b].parent && u[a].lft < u[b].lft :: v[a].lft < v[b].lft
  {
    KeepsParents(u, v, order, d, slots, first);
    KeepsOrder(u, v, order, d, slots, first);
  }

  lemma KeepsParents(u: Table, v: Table, order: seq<Key>, d: seq<Group>, slots: Table, first: Pass)
    requires forall i | 0 <= i < |order| :: order[i] in u
    requires d == GroupBy(order, u)
    requires SameShape(slots, v) && v.Keys == u.Keys && first.slots.Keys == u.Keys
    requires forall k | k in first.slots :: slots[k] == first.slots[k]
    requires ParentsFrom(first.slots, d)
    ensures forall k | k in v :: v[k].parent == u[k].parent
  {
    forall k | k in v
      ensures v[k].parent == u[k].parent
    {
      assert slots[k] == first.slots[k];
      assert InGroup(d, k, first.slots[k].parent);
      GroupByMembers(order, u, k, first.slots[k].parent);
    }
  }

  lemma KeepsOrder(u: Table, v: Table, order: seq<Key>, d: seq<Group>, slots: Table, first: Pass)
    requires order == LftOrder(u, u.Keys) && d == GroupBy(order, u)
    requires SameShape(slots, v) && v.Keys == u.Keys
    requires first.slots.Keys == u.Keys && MemberSet(first.dict) == {}
    requires forall k | k in first.slots :: slots[k] == first.slots[k]
    requires Intervals(first.slots)
    requires Consumed(first.slots, d, first.dict) && Kept(first.dict, d)
    ensures forall a, b | a in u && b in u && u[a].parent == u[b].parent && u[a].lft < u[b].lft :: v[a].lft < v[b].lft
  {
    forall a, b | a in u && b in u && u[a].parent == u[b].parent && u[a].lft < u[b].lft
      ensures v[a].lft < v[b].lft
    {
      SiblingsKeepOrder(u, order, d, first, a, b);
      assert slots[a] == first.slots[a] && slots[b] == first.slots[b];
    }
  }

  /** On a valid scope the first walk from the roots reaches every row,
      so the orphan loop has nothing left to do. */
  lemma ValidWalk(u: Table, order: seq<Key>, d: seq<Group>) returns (first: Pass)
    requires Valid(u) && Inv(d) && MemberSet(d) == u.Keys
    requires forall k | k in u :: InGroup(d, k, u[k].parent)
    ensures first == ReorderNodes(d, None, 1)
    ensures first.slots.Keys == u.Keys && MemberSet(first.dict) == {}
    ensures forall k | k in first.slots :: Walk(d, None, 1).1[k] == first.slots[k]
  {
    first := ReorderNodes(d, None, 1);
    ReachedAll(u, d, first.slots, first.dict);
    WalkKeepsFirst(d, first);
  }

  /** The orphan loop only numbers models the first walk left over, so
      it keeps what the first walk gave. */
  lemma WalkKeepsFirst(d: seq<Group>, first: Pass)
    requires Inv(d) && first == ReorderNodes(d, None, 1)
    ensures forall k | k in first.slots :: Walk(d, None, 1).1[k] == first.slots[k]
  {
    var loop := Orphans(first.dict, None, first.cut);
    assert Walk(d, None, 1) == (loop.0, first.slots + loop.1);
    assert loop.1.Keys <= MemberSet(first.dict);
  }

  /** Rows `made` each filed under `null` or under a row filed before
      them, in the parent id `tbl` gives them. */
  predicate Chain(tbl: Table, made: seq<Key>) {
    forall i | 0 <= i < |made| ::
      && made[i] in tbl
      && (tbl[made[i]].parent.Some? ==> tbl[made[i]].parent.value in made[..i])
  }

  /** A walk that consumed the roots' entry and went below every row it
      numbered reached every row of a chain filed in the dictionary. */
  lemma {:induction false} ChainReached(tbl: Table, made: seq<Key>, i: nat, d: seq<Group>, a: Table, d': seq<Group>)
    requires Chain(tbl, made) && i < |made|
    requires forall j | 0 <= j < |made| :: InGroup(d, made[j], tbl[made[j]].parent)
    requires None !in GroupKeys(d')
    requires Consumed(a, d, d') && Closed(a, d, d')
    ensures made[i] in a
    decreases i
  {
    var k := made[i];
    var q := tbl[k].parent;
    assert InGroup(d, k, q) && q in GroupKeys(d);
    if q.Some? {
      var i' :| 0 <= i' < i && made[i'] == q.value;
      ChainReached(tbl, made, i', d, a, d');
      assert Some(made[i']) !in GroupKeys(d');
    }
    assert GroupWalked(a, Find(d, q).value);
  }

  /** `fixNodes` without a top over a dictionary holding every row of the
      scope saves each row of a chain filed in it with the parent id it
      was filed under. */
  lemma ChainKept(tt: Table, models: Table, s: nat, d: seq<Group>, tbl: Table, made: seq<Key>)
    requires Inv(d) && ModelsOf(tt, models, s, MemberSet(d))
    requires MemberSet(d) == InScope(tt, s).Keys
    requires Chain(tbl, made)
    requires forall j | 0 <= j < |made| :: InGroup(d, made[j], tbl[made[j]].parent)
    ensures var r := FixNodes(tt, models, s, d, None).table;
      forall k | k in made :: k in r && r[k].parent == tbl[k].parent
  {
    var first := ReorderNodes(d, None, 1);
    var w := Walk(d, None, 1);
    WalkKeepsFirst(d, first);
    assert FixNodes(tt, models, s, d, None) == Unmoved(tt, models, s, w.1);
    SavedShape(tt, models, s, w.1);
    ChainParents(tt, s, d, tbl, made, first, w.1, Unmoved(tt, models, s, w.1).table);
  }

  lemma ChainParents(tt: Table, s: nat, d: seq<Group>, tbl: Table, made: seq<Key>, first: Pass, slots: Table, r: Table)
    requires Inv(d) && Chain(tbl, made)
    requires forall j | 0 <= j < |made| :: InGroup(d, made[j], tbl[made[j]].parent)
    requires None !in GroupKeys(first.dict) && ParentsFrom(first.slots, d)
    requires Consumed(first.slots, d, first.dict) && Closed(first.slots, d, first.dict)
    requires forall k | k in first.slots :: k in slots && slots[k] == first.slots[k]
    requires SameShape(slots, InScope(r, s))
    ensures forall k | k in made :: k in r && r[k].parent == tbl[k].parent
  {
    forall k | k in made
      ensures k in r && r[k].parent == tbl[k].parent
    {
      var i :| 0 <= i < |made| && made[i] == k;
      ChainReached(tbl, made, i, d, first.slots, first.dict);
      assert InGroup(d, k, first.slots[k].parent);
      InGroupUnique(d, k, first.slots[k].parent, tbl[k].parent);
      assert k in InScope(r, s);
    }
  }

  lemma ReachedAll(u: Table, d: seq<Group>, a: Table, d': seq<Group>)
    requires Valid(u)
    requires forall j | j in u :: InGroup(d, j, u[j].parent)
    requires None !in GroupKeys(d')
    requires Consumed(a, d, d') && Closed(a, d, d')
    ensures u.Keys <= a.Keys
  {
    forall k | k in u
      ensures k in a
    {
      Reached(u, d, a, d', k);
    }
  }

  /** Two children of one parent come out of the walk in the order their
      left bounds had. */
  lemma SiblingsKeepOrder(u: Table, order: seq<Key>, d: seq<Group>, first: Pass, a: Key, b: Key)
    requires order == LftOrder(u, u.Keys) && d == GroupBy(order, u)
    requires a in u && b in u && u[a].parent == u[b].parent && u[a].lft < u[b].lft
    requires MemberSet(first.dict) == {}
    requires Consumed(first.slots, d, first.dict) && Kept(first.dict, d)
    requires Intervals(first.slots)
    ensures a in first.slots && b in first.slots
    ensures first.slots[a].lft < first.slots[b].lft
  {
    var q := u[a].parent;
    var ms := SiblingEntry(u, order, a, b);
    NothingLeft(first.dict, d, q, a);
    assert GroupWalked(first.slots, ms);
    WalkedInOrder(u, ms, first.slots, a, b);
  }

  /** The entry of two siblings after `groupBy(parent_id)` over the rows in
      left-bound order lists both, in left-bound order. */
  lemma SiblingEntry(u: Table, order: seq<Key>, a: Key, b: Key) returns (ms: seq<Key>)
    requires order == LftOrder(u, u.Keys)
    requires a in u && b in u && u[a].parent == u[b].parent
    ensures Find(GroupBy(order, u), u[a].parent) == Some(ms)
    ensures InGroup(GroupBy(order, u), a, u[a].parent)
    ensures a in ms && b in ms && Sorted(u, ms)
  {
    var q := u[a].parent;
    GroupByEntry(order, u, q);
    GroupByMembers(order, u, a, q);
    GroupByMembers(order, u, b, q);
    ms := WithParent(order, u, q);
    assert Sorted(u, order);
    WithParentSorted(u, order, q);
  }

  /** An entry listing a model is not among the entries a walk left when
      it left no model over. */
  lemma NothingLeft(left: seq<Group>, d: seq<Group>, q: Option<Key>, a: Key)
    requires MemberSet(left) == {} && Kept(left, d) && InGroup(d, a, q)
    ensures q !in GroupKeys(left)
  {
    if q in GroupKeys(left) {
      FindMembers(left, q);
      assert false;
    }
  }

  /** Members of a walked entry listed in left-bound order are numbered
      in that order. */
  lemma WalkedInOrder(u: Table, ms: seq<Key>, slots: Table, a: Key, b: Key)
    requires Sorted(u, ms) && GroupWalked(slots, ms) && Intervals(slots)
    requires a in ms && b in ms && a in u && b in u && u[a].lft < u[b].lft
    ensures a in slots && b in slots && slots[a].lft < slots[b].lft
  {
    var i :| 0 <= i < |ms| && ms[i] == a;
    var j :| 0 <= j < |ms| && ms[j] == b;
    assert i < j;
    assert WellFormed(slots[a]);
  }
}

=== FILE: legacy.dfy ===
/** The legacy engine of src/Kalnoy/Nestedset/Node.php. It has no
    scope, no pending actions and no move query: `insertAt` only records
    the new bounds and parent in memory, and the `creating` / `updating`
    event of the save reshapes the table with plain range shifts. A move
    hides the subtree by negating its left bounds, shifts the values
    between the old and the new place by the subtree's height, then
    reveals the subtree shifted to its new place. Every query includes
    trashed rows.

    A root is the row whose left bound is 1; the engine refuses to delete
    it, to re-parent it, or to insert next to it.
 */
module Legacy {
  import opened Types
  import opened Bounds
  import opened Tree
  import Engine
  import EngineValid
  import NodeClass
  import Fix

  /** `shiftColumn` and `shiftNodesColumn`: a value is shifted when it
      lies in the range; a missing end leaves the range open on that
      side. */
  predicate InRange(v: int, from: Option<int>, to: Option<int>) {
    (from.None? || from.value <= v) && (to.None? || v <= to.value)
  }

  function ShiftValue(v: int, amount: int, from: Option<int>, to: Option<int>): (w: int)
    ensures InRange(v, from, to) ==> w == v + amount
    ensures !InRange(v, from, to) ==> w == v
  {
    if InRange(v, from, to) then v + amount else v
  }

  /** `shiftNodes($amount, $from, $to)`: two UPDATEs, one per bound
      column, each shifting the values of that column that lie in the
      range; trashed rows are included. A zero amount, or a range open at
      both ends, changes nothing. */
  function ShiftNodes(t: Table, amount: int, from: Option<int>, to: Option<int>): (r: Table)
    ensures r.Keys == t.Keys
    ensures amount == 0 || (from.None? && to.None?) ==> r == t
    ensures forall k | k in t :: r[k].parent == t[k].parent && r[k].scope == t[k].scope && r[k].deleted == t[k].deleted
  {
    if amount == 0 || (from.None? && to.None?) then t
    else
      map k | k in t :: t[k].(lft := ShiftValue(t[k].lft, amount, from, to), rgt := ShiftValue(t[k].rgt, amount, from, to))
  }

  /** Every left bound is at least 1: the legacy tree numbers from 1. */
  predicate Positive(t: Table) {
    forall k | k in t :: t[k].lft >= 1
  }

  /** `hideOrRevealNodes($from, $to, 0)`: the rows whose left bound lies
      in [from, to] get it negated, which takes them out of every shift
      over positive values. */
  function Hide(t: Table, from: int, to: int): (r: Table)
    ensures r.Keys == t.Keys
  {
    map k | k in t :: if from <= t[k].lft <= to then t[k].(lft := -t[k].lft) else t[k]
  }

  /** `hideOrRevealNodes($from, $to, $shift)` with a non-zero shift: the
      rows whose left bound lies in [-to, -from] get it negated back, and
      both bounds shifted. */
  function Reveal(t: Table, from: int, to: int, shift: int): (r: Table)
    ensures r.Keys == t.Keys
  {
    map k | k in t :: if -to <= t[k].lft <= -from then t[k].(lft := -t[k].lft + shift, rgt := t[k].rgt + shift) else t[k]
  }

  /** `hideOrRevealNodes` as written: a zero shift hides instead of
      revealing. */
  function HideOrReveal(t: Table, from: int, to: int, shift: int): (r: Table)
    ensures r.Keys == t.Keys
  {
    if shift == 0 then Hide(t, from, to) else Reveal(t, from, to, shift)
  }

  /** Hiding followed by revealing translates by `shift` exactly the rows
      whose left bound lies in [from, to], when every left bound is
      positive. */
  lemma HideReveal(t: Table, from: int, to: int, shift: int)
    requires Positive(t) && from >= 1
    ensures var r := Reveal(Hide(t, from, to), from, to, shift);
      forall k | k in t ::
        r[k] == if from <= t[k].lft <= to then t[k].(lft := t[k].lft + shift, rgt := t[k].rgt + shift) else t[k]
  {
  }

  /** As written, a zero shift leaves the hidden rows hidden: their left
      bounds stay negated. */
  lemma HideRevealZero(t: Table, from: int, to: int)
    requires Positive(t) && from >= 1
    ensures var r := HideOrReveal(Hide(t, from, to), from, to, 0);
      forall k | k in t && from <= t[k].lft <= to :: r[k].lft == -t[k].lft < 0
  {
  }

  /** The shift of every value from `cut` on is the query builder's
      `makeGap(cut, h)` on a table without a scope. */
  lemma ShiftIsGap(t: Table, cut: int, h: int)
    requires NodeClass.NoScope(t)
    ensures ShiftNodes(t, h, Some(cut), None) == MakeGap(t, 0, cut, h).0
  {
    var a := ShiftNodes(t, h, Some(cut), None);
    var b := MakeGap(t, 0, cut, h).0;
    forall k | k in t
      ensures a[k] == b[k]
    {
      assert InScope(b, 0)[k] == b[k];
    }
  }

  /** Opening a gap from `cut` and closing it again from `cut + h`
      restores the table. */
  lemma ShiftRoundTrip(t: Table, cut: int, h: int)
    requires h >= 0
    ensures ShiftNodes(ShiftNodes(t, h, Some(cut), None), -h, Some(cut + h), None) == t
  {
  }

  /** `isRoot()`: the left bound is 1. */
  predicate IsRoot(r: Row) {
    r.lft == 1
  }

  /** In a valid tree numbered from 1, a row at 1 is a root: nothing
      contains it, and it has no parent. */
  lemma RootAtOne(t: Table, k: Key)
    requires Valid(t) && Positive(t) && k in t && IsRoot(t[k])
    ensures t[k].parent == None
    ensures forall j | j in t :: !Contains(t[j], t[k])
  {
    forall j | j in t
      ensures !Contains(t[j], t[k])
    {
    }
    assert ParentOk(t, k);
  }

  /** Hiding the subtree of `k` and shifting the values between its old
      place and position `pos` into that place: the table in between and
      the shift the subtree still needs (`updateTree` for a saved node).
      The height is the node's own: `insertAt` keeps it. */
  function Displace(t: Table, k: Key, pos: int): (r: (Table, int))
    requires k in t
    ensures r.0.Keys == t.Keys
  {
    var lft, rgt := t[k].lft, t[k].rgt;
    var h := rgt - lft + 1;
    var hidden := Hide(t, lft, rgt);
    if pos > lft then (ShiftNodes(hidden, -h, Some(rgt + 1), Some(pos - 1)), pos - rgt - 1)
    else (ShiftNodes(hidden, h, Some(pos), Some(lft - 1)), pos - lft)
  }

  /** `insertAt($pos, $parent)` followed by `save()`, as written. The
      guard refuses a position strictly inside the node. A new node opens
      a gap of 2 at the position and is inserted there. A saved node whose
      left bound does not change is only re-parented; any other is
      displaced and revealed at its new place. Only the parent id is
      written afterwards: the reveal already moved the node's row. */
  function InsertAt(t: Table, k: Key, pos: int, parent: Key): (r: Result<Table>)
    ensures r.Err? <==> k in t && t[k].lft < pos < t[k].rgt
    ensures r.Err? ==> r.error == CyclicMove
    ensures r.Ok? ==> r.value.Keys == t.Keys + {k} && r.value[k].parent == Some(parent)
    ensures r.Ok? && k !in t ==> r.value[k] == Row(pos, pos + 1, Some(parent), 0, None)
  {
    if k in t && t[k].lft < pos < t[k].rgt then Err(CyclicMove)
    else if k !in t then Ok(ShiftNodes(t, 2, Some(pos), None)[k := Row(pos, pos + 1, Some(parent), 0, None)])
    else if pos == t[k].lft then Ok(t[k := t[k].(parent := Some(parent))])
    else
      var d := Displace(t, k, pos);
      var moved := HideOrReveal(d.0, t[k].lft, t[k].rgt, d.1);
      Ok(moved[k := moved[k].(parent := Some(parent))])
  }

  /** `insertAt` and `save()` as evidently intended: the guard also
      refuses the node's own right bound (a position inside the subtree),
      and the reveal always reveals. */
  function InsertAtFixed(t: Table, k: Key, pos: int, parent: Key): (r: Result<Table>)
    ensures r.Err? <==> k in t && t[k].lft < pos <= t[k].rgt
    ensures r.Err? ==> r.error == CyclicMove
    ensures r.Ok? ==> r.value.Keys == t.Keys + {k} && r.value[k].parent == Some(parent)
    ensures r.Ok? && k !in t ==> r.value[k] == Row(pos, pos + 1, Some(parent), 0, None)
  {
    if k in t && t[k].lft < pos <= t[k].rgt then Err(CyclicMove)
    else if k !in t then Ok(ShiftNodes(t, 2, Some(pos), None)[k := Row(pos, pos + 1, Some(parent), 0, None)])
    else if pos == t[k].lft then Ok(t[k := t[k].(parent := Some(parent))])
    else
      var d := Displace(t, k, pos);
      var moved := Reveal(d.0, t[k].lft, t[k].rgt, d.1);
      Ok(moved[k := moved[k].(parent := Some(parent))])
  }

  /** Where a move of the node spanning [lft, rgt] to position `pos`
      sends a bound: the node's own bounds go by the shift that lands it
      at the position, the values between the old and the new place make
      room by the node's height, every other value stays. */
  function Moved(v: int, lft: int, rgt: int, pos: int): int {
    var h := rgt - lft + 1;
    if lft <= v <= rgt then v + (if pos > lft then pos - rgt - 1 else pos - lft)
    else if pos > lft && rgt + 1 <= v <= pos - 1 then v - h
    else if pos < lft && pos <= v <= lft - 1 then v + h
    else v
  }

  /** The query builder's `moveNode` sends every bound where `Moved`
      does. */
  lemma PlanIsMoved(lft: int, rgt: int, pos: int, m: Plan, v: int)
    requires lft <= rgt && PlanMove(lft, rgt, pos) == Ok(Some(m))
    ensures MoveValue(v, m) == Moved(v, lft, rgt, pos)
  {
  }

  /** In a valid tree every other row lies inside a node with both bounds
      or outside it with both. */
  lemma InsideOrOutside(t: Table, k: Key, j: Key)
    requires Valid(t) && k in t && j in t
    ensures t[k].lft <= t[j].lft <= t[k].rgt <==> t[k].lft <= t[j].rgt <= t[k].rgt
  {
    assert WellFormed(t[j]) && WellFormed(t[k]);
    if j != k {
      assert Laminar(t[j], t[k]);
    }
  }

  /** The shift the displaced subtree still needs to land at `pos`. */
  function LandingShift(lft: int, rgt: int, pos: int): int {
    if pos > lft then pos - rgt - 1 else pos - lft
  }

  /** What `updateTree`'s `shiftNodes` does to one value: moving down,
      the values after the node up to the position go back by its height;
      moving up, the values from the position up to the node go forward
      by it. */
  function DisplaceValue(v: int, lft: int, rgt: int, pos: int): int {
    var h := rgt - lft + 1;
    if h == 0 then v
    else if pos > lft then ShiftValue(v, -h, Some(rgt + 1), Some(pos - 1))
    else ShiftValue(v, h, Some(pos), Some(lft - 1))
  }

  /** The bounds `(a, b)` of one row after the hide of [lft, rgt], the
      shift of the values between the old place and `pos`, and the
      reveal. */
  function Pipeline(a: int, b: int, lft: int, rgt: int, pos: int): (int, int) {
    var a2 := DisplaceValue(if lft <= a <= rgt then -a else a, lft, rgt, pos);
    var b2 := DisplaceValue(b, lft, rgt, pos);
    if -rgt <= a2 <= -lft then (-a2 + LandingShift(lft, rgt, pos), b2 + LandingShift(lft, rgt, pos)) else (a2, b2)
  }

  /** Each row of the corrected displace-and-reveal goes through the
      pipeline. */
  lemma RevealedRow(t: Table, k: Key, pos: int, j: Key)
    requires k in t && j in t
    ensures var d := Displace(t, k, pos);
      var lft, rgt := t[k].lft, t[k].rgt;
      var p := Pipeline(t[j].lft, t[j].rgt, lft, rgt, pos);
      && j in Reveal(d.0, lft, rgt, d.1)
      && Reveal(d.0, lft, rgt, d.1)[j] == t[j].(lft := p.0, rgt := p.1)
  {
    var d := Displace(t, k, pos);
    DisplacedRow(t, k, pos, j);
    RevealRow(d.0, t[k].lft, t[k].rgt, d.1, j);
  }

  /** One row after the hide and the shift. */
  lemma DisplacedRow(t: Table, k: Key, pos: int, j: Key)
    requires k in t && j in t
    ensures var lft, rgt := t[k].lft, t[k].rgt;
      var a1 := if lft <= t[j].lft <= rgt then -t[j].lft else t[j].lft;
      && Displace(t, k, pos).1 == LandingShift(lft, rgt, pos)
      && Displace(t, k, pos).0[j] == t[j].(lft := DisplaceValue(a1, lft, rgt, pos), rgt := DisplaceValue(t[j].rgt, lft, rgt, pos))
  {
    var lft, rgt := t[k].lft, t[k].rgt;
    var hidden := Hide(t, lft, rgt);
    assert hidden[j] == t[j].(lft := if lft <= t[j].lft <= rgt then -t[j].lft else t[j].lft);
  }

  /** One row of the reveal. */
  lemma RevealRow(t: Table, from: int, to: int, shift: int, j: Key)
    requires j in t
    ensures j in Reveal(t, from, to, shift)
    ensures Reveal(t, from, to, shift)[j] ==
      if -to <= t[j].lft <= -from then t[j].(lft := -t[j].lft + shift, rgt := t[j].rgt + shift) else t[j]
  {
  }

  /** For a row inside the node with both bounds, or outside it with
      both, and left bounds from 1 on, the pipeline is `Moved`. */
  lemma PipelineMoves(a: int, b: int, lft: int, rgt: int, pos: int)
    requires 1 <= lft < rgt && a >= 1 && pos >= 1
    requires !(lft < pos <= rgt) && pos != lft
    requires lft <= a <= rgt <==> lft <= b <= rgt
    ensures Pipeline(a, b, lft, rgt, pos) == (Moved(a, lft, rgt, pos), Moved(b, lft, rgt, pos))
  {
  }

  /** Without a scope, `moveNode`'s UPDATE rewrites every row. */
  lemma MoveTableRow(t: Table, m: Plan, j: Key)
    requires NodeClass.NoScope(t) && j in t && m.from <= m.lft && m.rgt <= m.to
    ensures j in MoveTable(t, 0, m).0 && MoveTable(t, 0, m).0[j] == MoveRow(t[j], m)
  {
    assert InScope(MoveTable(t, 0, m).0, 0)[j] == MoveTable(t, 0, m).0[j];
  }

  /** The row `j` after the query builder's move of node `k` to `pos`,
      before the parent id is written: sent where `Moved` sends its
      bounds. */
  lemma EngineMoveRow(t: Table, k: Key, pos: int, j: Key)
    requires NodeClass.NoScope(t) && Valid(t) && k in t && j in t
    requires !(t[k].lft < pos <= t[k].rgt)
    ensures var t1 := MoveNode(t, 0, k, pos).value.0;
      j in t1 && t1[j] == t[j].(lft := Moved(t[j].lft, t[k].lft, t[k].rgt, pos), rgt := Moved(t[j].rgt, t[k].lft, t[k].rgt, pos))
  {
    var lft, rgt := t[k].lft, t[k].rgt;
    assert WellFormed(t[k]);
    var plan := PlanMove(lft, rgt, pos);
    if plan == Ok(None) {
      NoMoveRow(t, k, pos, j);
    } else {
      var m := plan.value.value;
      MoveNodePlanned(t, k, pos, m);
      MoveTableRow(t, m, j);
      PlanIsMoved(lft, rgt, pos, m, t[j].lft);
      PlanIsMoved(lft, rgt, pos, m, t[j].rgt);
    }
  }

  lemma MoveNodePlanned(t: Table, k: Key, pos: int, m: Plan)
    requires NodeClass.NoScope(t) && k in t && PlanMove(t[k].lft, t[k].rgt, pos) == Ok(Some(m))
    ensures MoveNode(t, 0, k, pos).Ok? && MoveNode(t, 0, k, pos).value.0 == MoveTable(t, 0, m).0
  {
  }

  /** A position the node already occupies sends every bound of a valid
      tree to itself. */
  lemma NoMoveRow(t: Table, k: Key, pos: int, j: Key)
    requires Valid(t) && k in t && j in t
    requires pos == t[k].lft || pos == t[k].rgt + 1
    ensures Moved(t[j].lft, t[k].lft, t[k].rgt, pos) == t[j].lft
    ensures Moved(t[j].rgt, t[k].lft, t[k].rgt, pos) == t[j].rgt
  {
    InsideOrOutside(t, k, j);
    assert WellFormed(t[j]) && WellFormed(t[k]);
  }

  /** The legacy move of a saved node leaves the rows where `Moved` sends
      them, in a valid tree numbered from 1. */
  lemma LegacyMoveRows(t: Table, k: Key, pos: int)
    requires Valid(t) && Positive(t) && k in t && pos >= 1
    requires !(t[k].lft < pos <= t[k].rgt) && pos != t[k].lft
    ensures var d := Displace(t, k, pos);
      var moved := Reveal(d.0, t[k].lft, t[k].rgt, d.1);
      forall j | j in t :: j in moved && moved[j] == t[j].(lft := Moved(t[j].lft, t[k].lft, t[k].rgt, pos), rgt := Moved(t[j].rgt, t[k].lft, t[k].rgt, pos))
  {
    var lft, rgt := t[k].lft, t[k].rgt;
    assert WellFormed(t[k]);
    forall j | j in t
      ensures var d := Displace(t, k, pos);
        var moved := Reveal(d.0, lft, rgt, d.1);
        j in moved && moved[j] == t[j].(lft := Moved(t[j].lft, lft, rgt, pos), rgt := Moved(t[j].rgt, lft, rgt, pos))
    {
      RevealedRow(t, k, pos, j);
      InsideOrOutside(t, k, j);
      assert WellFormed(t[j]) && t[j].lft >= 1;
      PipelineMoves(t[j].lft, t[j].rgt, lft, rgt, pos);
    }
  }

  /** The corrected save of a saved node moved to a position it does not
      occupy: the legacy and the query builder's tables agree. */
  lemma MoveAgrees(t: Table, k: Key, pos: int, parent: Key)
    requires NodeClass.NoScope(t) && Valid(t) && Positive(t) && pos >= 1 && k in t
    requires !(t[k].lft < pos <= t[k].rgt) && pos != t[k].lft
    ensures var d := Displace(t, k, pos);
      Reveal(d.0, t[k].lft, t[k].rgt, d.1) == MoveNode(t, 0, k, pos).value.0
  {
    var d := Displace(t, k, pos);
    var moved := Reveal(d.0, t[k].lft, t[k].rgt, d.1);
    var t1 := MoveNode(t, 0, k, pos).value.0;
    assert moved.Keys == t.Keys && t1.Keys == t.Keys;
    forall j | j in moved
      ensures moved[j] == t1[j]
    {
      MoveAgreesAt(t, k, pos, j);
    }
    TablesEqual(moved, t1);
  }

  /** The same, one row at a time. */
  lemma MoveAgreesAt(t: Table, k: Key, pos: int, j: Key)
    requires NodeClass.NoScope(t) && Valid(t) && Positive(t) && pos >= 1 && k in t && j in t
    requires !(t[k].lft < pos <= t[k].rgt) && pos != t[k].lft
    ensures var d := Displace(t, k, pos);
      Reveal(d.0, t[k].lft, t[k].rgt, d.1)[j] == MoveNode(t, 0, k, pos).value.0[j]
  {
    var lft, rgt := t[k].lft, t[k].rgt;
    assert WellFormed(t[k]);
    RevealedRow(t, k, pos, j);
    InsideOrOutside(t, k, j);
    assert WellFormed(t[j]) && t[j].lft >= 1;
    PipelineMoves(t[j].lft, t[j].rgt, lft, rgt, pos);
    EngineMoveRow(t, k, pos, j);
  }

  /** The corrected `insertAt` and `save()` of a node of a valid tree
      numbered from 1 do exactly what the query builder's engine does:
      refuse the same positions, and otherwise produce the same table. */
  lemma {:induction false} InsertAtAgrees(t: Table, k: Key, pos: int, parent: Key)
    requires NodeClass.NoScope(t) && Valid(t) && Positive(t) && pos >= 1
    ensures var legacy := InsertAtFixed(t, k, pos, parent);
      var engine := Engine.InsertAt(t, 0, k, pos, Some(parent));
      && (legacy.Ok? <==> engine.Ok?)
      && (legacy.Ok? ==> legacy.value == engine.value.0)
  {
    var legacy := InsertAtFixed(t, k, pos, parent);
    if k !in t {
      ShiftIsGap(t, pos, 2);
    } else if legacy.Ok? {
      var lft, rgt := t[k].lft, t[k].rgt;
      var t1 := MoveNode(t, 0, k, pos).value.0;
      assert Engine.InsertAt(t, 0, k, pos, Some(parent)).value.0 == t1[k := t1[k].(parent := Some(parent))];
      if pos == lft {
        assert t1 == t by {
          assert WellFormed(t[k]);
          assert PlanMove(lft, rgt, pos) == Ok(None);
        }
      } else {
        MoveAgrees(t, k, pos, parent);
      }
    }
  }

  /** Where a node goes: `appendTo` / `prependTo` a parent, or `after` /
      `before` a target (`append` and `prepend` are the same calls with
      the roles swapped). */
  datatype Placement = Append(parent: Key, prepend: bool) | Beside(target: Key, after: bool)

  /** The position and parent handed to `insertAt`. A parent is the
      last child's end or just past its own left bound; a target must
      exist, must not be a root, and its parent row must load (`parent`
      is a query, which hides a trashed row when the model soft-deletes),
      and the node goes at its left bound or just past its right bound. */
  function Target(t: Table, a: Placement, soft: bool): (r: Result<(int, Key)>)
    ensures a.Append? ==> (r.Ok? <==> a.parent in t)
    ensures a.Append? && r.Ok? ==> r.value == (Engine.AppendCut(t[a.parent], a.prepend), a.parent)
    ensures a.Beside? && a.target in t && IsRoot(t[a.target]) ==> r == Err(RootRefused)
    ensures a.Beside? ==> (r.Ok? <==> a.target in t && !IsRoot(t[a.target]) && t[a.target].parent.Some? && Loads(t, t[a.target].parent.value, soft))
    ensures a.Beside? && r.Ok? ==> r.value.0 == Engine.BeforeOrAfterCut(t[a.target], a.after) && t[a.target].parent == Some(r.value.1)
    ensures r.Err? ==> r.error in {NotExisting, RootRefused, NoParentRow}
  {
    match a
    case Append(p, prepend) =>
      if p !in t then Err(NotExisting)
      else Ok((if prepend then t[p].lft + 1 else t[p].rgt, p))
    case Beside(x, after) =>
      if x !in t then Err(NotExisting)
      else if IsRoot(t[x]) then Err(RootRefused)
      else if t[x].parent.None? || !Loads(t, t[x].parent.value, soft) then Err(NoParentRow)
      else Ok((if after then t[x].rgt + 1 else t[x].lft, t[x].parent.value))
  }

  /** A placement followed by `save()`, as written. */
  function Place(t: Table, k: Key, a: Placement, soft: bool): (r: Result<Table>)
    ensures Target(t, a, soft).Err? ==> r == Err(Target(t, a, soft).error)
    ensures Target(t, a, soft).Ok? ==> r == InsertAt(t, k, Target(t, a, soft).value.0, Target(t, a, soft).value.1)
  {
    var (pos, parent) :- Target(t, a, soft);
    InsertAt(t, k, pos, parent)
  }

  /** A placement followed by `save()`, with the corrected `insertAt`. */
  function PlaceFixed(t: Table, k: Key, a: Placement, soft: bool): (r: Result<Table>)
    ensures Target(t, a, soft).Err? ==> r == Err(Target(t, a, soft).error)
    ensures Target(t, a, soft).Ok? ==> r == InsertAtFixed(t, k, Target(t, a, soft).value.0, Target(t, a, soft).value.1)
  {
    var (pos, parent) :- Target(t, a, soft);
    InsertAtFixed(t, k, pos, parent)
  }

  /** The pending action of the query builder's engine a placement
      names. */
  function AsAction(a: Placement): (e: Engine.Action)
    ensures a.Append? <==> e.AppendOrPrepend?
  {
    match a
    case Append(p, prepend) => Engine.AppendOrPrepend(p, prepend)
    case Beside(x, after) => Engine.BeforeOrAfter(x, after)
  }

  /** Once the target is found, the corrected legacy placement and the
      query builder's `save()` with the same action succeed together and
      leave the same table. */
  lemma PlaceAgrees(t: Table, k: Key, a: Placement, soft: bool)
    requires NodeClass.NoScope(t) && Valid(t) && Positive(t)
    requires Target(t, a, soft).Ok?
    ensures var legacy := PlaceFixed(t, k, a, soft);
      var engine := Engine.Save(t, 0, k, Some(AsAction(a)));
      && (legacy.Ok? <==> engine.Ok?)
      && (legacy.Ok? ==> legacy.value == engine.value.0)
  {
    var (pos, parent) := Target(t, a, soft).value;
    match a
    case Append(p, prepend) =>
      assert WellFormed(t[p]);
      InsertAtAgrees(t, k, pos, parent);
    case Beside(x, after) =>
      assert WellFormed(t[x]);
      assert Engine.SiblingParent(t, k, x) == Some(parent);
      InsertAtAgrees(t, k, pos, parent);
  }

  /** The corrected placement keeps a valid legacy tree valid, and makes
      the node a child of the parent, or a sibling of the target. */
  lemma PlaceFixedValid(t: Table, k: Key, a: Placement, soft: bool)
    requires NodeClass.NoScope(t) && Valid(t) && Positive(t)
    ensures PlaceFixed(t, k, a, soft).Ok? ==> Valid(PlaceFixed(t, k, a, soft).value)
    ensures PlaceFixed(t, k, a, soft).Ok? && a.Append? ==> PlaceFixed(t, k, a, soft).value[k].parent == Some(a.parent)
    ensures PlaceFixed(t, k, a, soft).Ok? && a.Beside? ==> PlaceFixed(t, k, a, soft).value[k].parent == t[a.target].parent
  {
    if PlaceFixed(t, k, a, soft).Ok? {
      PlaceAgrees(t, k, a, soft);
      var r := Engine.Save(t, 0, k, Some(AsAction(a))).value.0;
      NodeClass.WholeScope(t);
      EngineValid.SaveValid(t, 0, k, Some(AsAction(a)));
      NodeClass.StaysUnscoped(t, r);
      NodeClass.WholeScope(r);
    }
  }

  /** `delete()` as written. The `deleting` event refuses a root; a soft
      delete only stamps the node's own row; a hard delete removes the
      node's row and the `deleted` event closes its gap. Its descendants
      are neither removed nor moved. */
  function Delete(t: Table, k: Key, soft: bool, now: nat): (r: Result<Table>)
    ensures k !in t ==> r == Ok(t)
    ensures r.Err? <==> k in t && IsRoot(t[k])
    ensures r.Err? ==> r.error == RootRefused
    ensures r.Ok? && k in t ==> r.value.Keys == if soft then t.Keys else t.Keys - {k}
  {
    if k !in t then Ok(t)
    else if IsRoot(t[k]) then Err(RootRefused)
    else if soft then Ok(t[k := t[k].(deleted := Some(now))])
    else Ok(ShiftNodes(t - {k}, -(t[k].rgt - t[k].lft + 1), Some(t[k].rgt + 1), None))
  }

  /** The rows whose left bound lies inside node `k`: its descendants. */
  function Below(t: Table, k: Key): (d: set<Key>)
    requires k in t
    ensures forall j :: j in d <==> j in t && t[k].lft + 1 <= t[j].lft <= t[k].rgt
  {
    set j | j in t && t[k].lft + 1 <= t[j].lft <= t[k].rgt
  }

  /** `delete()` as evidently intended: a hard delete takes the
      descendants with the node before closing the gap. */
  function DeleteFixed(t: Table, k: Key, soft: bool, now: nat): (r: Result<Table>)
    ensures k !in t ==> r == Ok(t)
    ensures r.Err? <==> k in t && IsRoot(t[k])
    ensures r.Err? ==> r.error == RootRefused
    ensures r.Ok? && k in t ==> r.value.Keys == if soft then t.Keys else t.Keys - Below(t, k) - {k}
  {
    if k !in t then Ok(t)
    else if IsRoot(t[k]) then Err(RootRefused)
    else if soft then Ok(t[k := t[k].(deleted := Some(now))])
    else Ok(ShiftNodes(t - Below(t, k) - {k}, -(t[k].rgt - t[k].lft + 1), Some(t[k].rgt + 1), None))
  }

  /** On a leaf the written and the corrected delete agree. */
  lemma DeleteLeaf(t: Table, k: Key, soft: bool, now: nat)
    requires Valid(t) && k in t && t[k].rgt == t[k].lft + 1
    ensures Delete(t, k, soft, now) == DeleteFixed(t, k, soft, now)
  {
    if !soft && !IsRoot(t[k]) {
      forall j | j in t
        ensures j !in Below(t, k)
      {
        InsideOrOutside(t, k, j);
        assert WellFormed(t[j]);
      }
      assert Below(t, k) == {};
      assert t - Below(t, k) - {k} == t - {k};
    }
  }

  lemma BelowIsDescendants(t: Table, k: Key)
    requires NodeClass.NoScope(t) && k in t
    ensures Below(t, k) == Engine.Descendants(t, k)
  {
  }

  /** The corrected hard delete is the query builder's on a table without
      a scope. */
  lemma DeleteFixedIsEngine(t: Table, k: Key, now: nat)
    requires NodeClass.NoScope(t) && k in t && !IsRoot(t[k])
    ensures DeleteFixed(t, k, false, now) == Ok(Engine.HardDelete(t, k))
  {
    var a := DeleteFixed(t, k, false, now).value;
    var b := Engine.HardDelete(t, k);
    BelowIsDescendants(t, k);
    assert a.Keys == b.Keys;
    forall j | j in a
      ensures a[j] == b[j]
    {
      DeleteRowAgrees(t, k, now, j);
    }
    TablesEqual(a, b);
  }

  /** One row of the corrected hard delete and of the query builder's. */
  lemma DeleteRowAgrees(t: Table, k: Key, now: nat, j: Key)
    requires NodeClass.NoScope(t) && k in t && !IsRoot(t[k])
    requires j in t && j != k && j !in Below(t, k)
    ensures DeleteFixed(t, k, false, now).value[j] == Engine.HardDelete(t, k)[j]
  {
    BelowIsDescendants(t, k);
    FixedDeleteRow(t, k, now, j);
    EngineDeleteRow(t, k, j);
  }

  /** A row the corrected hard delete keeps is moved back over the gap. */
  lemma FixedDeleteRow(t: Table, k: Key, now: nat, j: Key)
    requires k in t && !IsRoot(t[k])
    requires j in t && j != k && j !in Below(t, k)
    ensures DeleteFixed(t, k, false, now).Ok?
    ensures j in DeleteFixed(t, k, false, now).value
    ensures DeleteFixed(t, k, false, now).value[j] == GapRow(t[j], t[k].rgt + 1, -(t[k].rgt - t[k].lft + 1))
  {
    var rest := t - Below(t, k) - {k};
    DeleteFixedHard(t, k, now);
    assert j in rest && rest[j] == t[j];
    ShiftRowIsGap(rest, -(t[k].rgt - t[k].lft + 1), t[k].rgt + 1, j);
  }

  /** The same for the query builder's hard delete, on a table without
      scopes. */
  lemma EngineDeleteRow(t: Table, k: Key, j: Key)
    requires NodeClass.NoScope(t) && k in t
    requires j in t && j != k && j !in Engine.Descendants(t, k)
    ensures j in Engine.HardDelete(t, k)
    ensures Engine.HardDelete(t, k)[j] == GapRow(t[j], t[k].rgt + 1, -(t[k].rgt - t[k].lft + 1))
  {
    assert t[j].scope == t[k].scope;
  }

  /** Closing a gap with `shiftNodes` moves one row as `makeGap` does. */
  lemma ShiftRowIsGap(t: Table, h: int, cut: int, j: Key)
    requires j in t
    ensures ShiftNodes(t, h, Some(cut), None)[j] == GapRow(t[j], cut, h)
  {
  }

  lemma DeleteFixedHard(t: Table, k: Key, now: nat)
    requires k in t && !IsRoot(t[k])
    ensures DeleteFixed(t, k, false, now)
      == Ok(ShiftNodes(t - Below(t, k) - {k}, -(t[k].rgt - t[k].lft + 1), Some(t[k].rgt + 1), None))
  {
  }

  /** The corrected delete keeps a valid legacy tree valid. */
  lemma DeleteFixedValid(t: Table, k: Key, soft: bool, now: nat)
    requires NodeClass.NoScope(t) && Valid(t)
    ensures DeleteFixed(t, k, soft, now).Ok? ==> Valid(DeleteFixed(t, k, soft, now).value)
  {
    if k in t && !IsRoot(t[k]) {
      if soft {
        Fix.ShapeValid(t, t[k := t[k].(deleted := Some(now))]);
      } else {
        HardDeleteFixedValid(t, k, now);
      }
    }
  }

  lemma HardDeleteFixedValid(t: Table, k: Key, now: nat)
    requires NodeClass.NoScope(t) && Valid(t) && k in t && !IsRoot(t[k])
    ensures Valid(DeleteFixed(t, k, false, now).value)
  {
    DeleteFixedIsEngine(t, k, now);
    var r := Engine.HardDelete(t, k);
    assert t[k].scope == 0;
    NodeClass.WholeScope(t);
    EngineValid.HardDeleteValid(t, k);
    NodeClass.StaysUnscoped(t, r);
    NodeClass.WholeScope(r);
  }

  /** The parent id a node carries before `setParentId`: a new node has
      none. */
  function CurrentParent(t: Table, k: Key): Option<Key> {
    if k in t then t[k].parent else None
  }

  /** `setParentId($value)` followed by `save()`, as written: a root
      cannot be re-parented; a value loosely equal to the current parent
      id writes nothing (and leaves a new node without bounds); any other
      value must name a row, and the node is appended to it through the
      `insertAt` as written. */
  function SetParent(t: Table, k: Key, value: Option<Key>, soft: bool): (r: Result<Table>)
    ensures k in t && IsRoot(t[k]) ==> r == Err(RootRefused)
    ensures r.Ok? ==> k in r.value && LooseEq(r.value[k].parent, value)
    ensures r.Ok? && k in t && LooseEq(t[k].parent, value) ==> r.value == t
    ensures value.Some? && !Loads(t, value.value, soft) && !(k in t && IsRoot(t[k])) && !LooseEq(CurrentParent(t, k), value) ==> r == Err(NotFound)
    ensures r.Err? ==> r.error in {RootRefused, NullBounds, NotFound, CyclicMove}
  {
    if k in t && IsRoot(t[k]) then Err(RootRefused)
    else if LooseEq(CurrentParent(t, k), value) then
      if k in t then Ok(t) else Err(NullBounds)
    else if value.None? || !Loads(t, value.value, soft) then Err(NotFound)
    else Place(t, k, Append(value.value, false), soft)
  }

  /** The same, with the corrected `insertAt`. */
  function SetParentFixed(t: Table, k: Key, value: Option<Key>, soft: bool): (r: Result<Table>)
    ensures k in t && IsRoot(t[k]) ==> r == Err(RootRefused)
    ensures r.Ok? ==> k in r.value && LooseEq(r.value[k].parent, value)
    ensures r.Ok? && k in t && LooseEq(t[k].parent, value) ==> r.value == t
    ensures value == Some(k) && Loads(t, k, soft) && t[k].lft < t[k].rgt && !IsRoot(t[k]) && !LooseEq(t[k].parent, value) ==> r == Err(CyclicMove)
    ensures r.Err? ==> r.error in {RootRefused, NullBounds, NotFound, CyclicMove}
  {
    if k in t && IsRoot(t[k]) then Err(RootRefused)
    else if LooseEq(CurrentParent(t, k), value) then
      if k in t then Ok(t) else Err(NullBounds)
    else if value.None? || !Loads(t, value.value, soft) then Err(NotFound)
    else PlaceFixed(t, k, Append(value.value, false), soft)
  }

  /** The written and the corrected `insertAt` differ only at the node's
      own right bound, where the written guard lets the position through,
      and just past it, where the written reveal hides again. */
  lemma InsertAtSame(t: Table, k: Key, pos: int, parent: Key)
    requires !(k in t && (pos == t[k].rgt || pos == t[k].rgt + 1))
    ensures InsertAt(t, k, pos, parent) == InsertAtFixed(t, k, pos, parent)
  {
    if k in t && !(t[k].lft < pos <= t[k].rgt) && pos != t[k].lft {
      assert Displace(t, k, pos).1 != 0;
    }
  }

  /** In a valid tree, a row whose right bound is one past the node's is
      the node's parent. */
  lemma LastChildParent(t: Table, k: Key, p: Key)
    requires Valid(t) && k in t && p in t && t[p].rgt == t[k].rgt + 1
    ensures t[k].parent == Some(p)
  {
    assert WellFormed(t[k]) && WellFormed(t[p]);
    assert Laminar(t[p], t[k]);
    assert ParentOk(t, k);
    if t[k].parent.Some? {
      SameOrLaminar(t, p, t[k].parent.value);
    }
  }

  lemma SameOrLaminar(t: Table, a: Key, b: Key)
    requires Valid(t) && a in t && b in t
    ensures a == b || Laminar(t[a], t[b])
  {
  }

  /** Re-parenting anywhere but under the node itself: the written and
      the corrected `setParentId` agree on a valid tree. */
  lemma SetParentAgrees(t: Table, k: Key, value: Option<Key>, soft: bool)
    requires Valid(t) && value != Some(k)
    ensures SetParent(t, k, value, soft) == SetParentFixed(t, k, value, soft)
  {
    if !(k in t && IsRoot(t[k])) && !LooseEq(CurrentParent(t, k), value) && value.Some? && value.value in t {
      var p := value.value;
      if k in t {
        assert WellFormed(t[k]) && WellFormed(t[p]);
        assert Laminar(t[p], t[k]);
        assert t[p].rgt != t[k].rgt;
        if t[p].rgt == t[k].rgt + 1 {
          LastChildParent(t, k, p);
          assert false;
        }
      }
      InsertAtSame(t, k, t[p].rgt, p);
    }
  }

  /** The corrected re-parenting keeps a valid legacy tree valid and
      hangs the node under the new parent. */
  lemma SetParentFixedValid(t: Table, k: Key, value: Option<Key>, soft: bool)
    requires NodeClass.NoScope(t) && Valid(t) && Positive(t)
    ensures SetParentFixed(t, k, value, soft).Ok? ==> Valid(SetParentFixed(t, k, value, soft).value)
    ensures SetParentFixed(t, k, value, soft).Ok? && !LooseEq(CurrentParent(t, k), value) ==> SetParentFixed(t, k, value, soft).value[k].parent == value
  {
    if value.Some? && value.value in t {
      PlaceFixedValid(t, k, Append(value.value, false), soft);
    }
  }

  /** A root with one child, numbered from 1. */
  const TwoRows: Table := map[1 := Row(1, 4, None, 0, None), 2 := Row(2, 3, Some(1), 0, None)]

  /** A root, a child and a grandchild, numbered from 1. */
  const ThreeRows: Table := map[1 := Row(1, 6, None, 0, None), 2 := Row(2, 5, Some(1), 0, None), 3 := Row(3, 4, Some(2), 0, None)]

  lemma TwoRowsValid()
    ensures Valid(TwoRows)
  {
    var t := TwoRows;
    assert Nearest(t, 1, 2);
    assert ParentOk(t, 2);
    assert ParentOk(t, 1);
  }

  lemma ThreeRowsValid()
    ensures Valid(ThreeRows)
  {
    var t := ThreeRows;
    assert Nearest(t, 1, 2);
    assert Nearest(t, 2, 3);
    assert ParentOk(t, 1);
    assert ParentOk(t, 2);
    assert ParentOk(t, 3);
  }

  lemma SelfAppendWritten()
    ensures Place(TwoRows, 2, Append(2, false), false) == Ok(map[1 := Row(1, 4, None, 0, None), 2 := Row(1, 2, Some(2), 0, None)])
  {
    assert Target(TwoRows, Append(2, false), false) == Ok((3, 2));
    SelfInsertAt();
  }

  lemma SelfInsertAt()
    ensures InsertAt(TwoRows, 2, 3, 2) == Ok(map[1 := Row(1, 4, None, 0, None), 2 := Row(1, 2, Some(2), 0, None)])
  {
    var t := TwoRows;
    var d := Displace(t, 2, 3);
    DisplacedRow(t, 2, 3, 2);
    assert d.1 == -1;
    RevealedRow(t, 2, 3, 1);
    RevealedRow(t, 2, 3, 2);
    var moved := Reveal(d.0, 2, 3, -1);
    assert moved[1] == t[1] && moved[2] == Row(1, 2, Some(1), 0, None);
    var r := moved[2 := moved[2].(parent := Some(2))];
    TablesEqual(r, map[1 := Row(1, 4, None, 0, None), 2 := Row(1, 2, Some(2), 0, None)]);
  }

  /** Appending a node to itself: the guard lets its own right bound
      through, and the node ends up as its own parent over its former
      parent's left bound. The corrected guard refuses it. */
  lemma AppendToSelf()
    ensures var t := TwoRows;
      && Valid(t)
      && Place(t, 2, Append(2, false), false).Ok?
      && !Valid(Place(t, 2, Append(2, false), false).value)
      && PlaceFixed(t, 2, Append(2, false), false) == Err(CyclicMove)
  {
    TwoRowsValid();
    SelfAppendWritten();
    Overlapping(map[1 := Row(1, 4, None, 0, None), 2 := Row(1, 2, Some(2), 0, None)]);
  }

  /** `setParentId` with the node's own key: the loose comparison sees a
      new parent, `appendTo` reaches the written `insertAt`, and the node
      becomes its own parent with its bounds over its former parent's
      left bound. The corrected re-parenting refuses it. */
  lemma SetParentToSelf()
    ensures var t := TwoRows;
      && Valid(t)
      && SetParent(t, 2, Some(2), false).Ok?
      && !Valid(SetParent(t, 2, Some(2), false).value)
      && SetParentFixed(t, 2, Some(2), false) == Err(CyclicMove)
  {
    AppendToSelf();
    assert SetParent(TwoRows, 2, Some(2), false) == Place(TwoRows, 2, Append(2, false), false);
  }

  lemma OwnParentWritten()
    ensures Place(TwoRows, 2, Append(1, false), false) == Ok(map[1 := Row(1, 4, None, 0, None), 2 := Row(-2, 3, Some(1), 0, None)])
  {
    assert Target(TwoRows, Append(1, false), false) == Ok((4, 1));
    OwnParentInsertAt();
  }

  lemma OwnParentInsertAt()
    ensures InsertAt(TwoRows, 2, 4, 1) == Ok(map[1 := Row(1, 4, None, 0, None), 2 := Row(-2, 3, Some(1), 0, None)])
  {
    var t := TwoRows;
    var d := Displace(t, 2, 4);
    OwnParentDisplaced();
    var moved := Hide(d.0, 2, 3);
    assert moved[1] == t[1] && moved[2] == Row(-2, 3, Some(1), 0, None);
    var r := moved[2 := moved[2].(parent := Some(1))];
    TablesEqual(r, map[1 := Row(1, 4, None, 0, None), 2 := Row(-2, 3, Some(1), 0, None)]);
  }

  /** Moving the last child of `TwoRows` to its parent's right bound
      shifts nothing: only the hide shows, and the shift left is zero. */
  lemma OwnParentDisplaced()
    ensures var d := Displace(TwoRows, 2, 4);
      && d.1 == 0 && d.0.Keys == {1, 2}
      && d.0[1] == TwoRows[1] && d.0[2] == Row(-2, 3, Some(1), 0, None)
  {
    DisplacedRow(TwoRows, 2, 4, 1);
    DisplacedRow(TwoRows, 2, 4, 2);
  }

  lemma OwnParentFixed()
    ensures PlaceFixed(TwoRows, 2, Append(1, false), false) == Ok(TwoRows)
  {
    assert Target(TwoRows, Append(1, false), false) == Ok((4, 1));
    OwnParentInsertAtFixed();
  }

  lemma OwnParentInsertAtFixed()
    ensures InsertAtFixed(TwoRows, 2, 4, 1) == Ok(TwoRows)
  {
    var t := TwoRows;
    var d := Displace(t, 2, 4);
    OwnParentDisplaced();
    RevealRow(d.0, 2, 3, 0, 1);
    RevealRow(d.0, 2, 3, 0, 2);
    var moved := Reveal(d.0, 2, 3, 0);
    assert moved[1] == t[1] && moved[2] == t[2];
    var r := moved[2 := moved[2].(parent := Some(1))];
    TablesEqual(r, t);
  }

  /** Appending the last child to its own parent: the reveal shift is
      zero, so the subtree is hidden a second time instead of revealed,
      and its left bound stays negated. The corrected reveal leaves the
      tree as it was. */
  lemma AppendToOwnParent()
    ensures var t := TwoRows;
      && Valid(t)
      && Place(t, 2, Append(1, false), false).Ok?
      && !Valid(Place(t, 2, Append(1, false), false).value)
      && PlaceFixed(t, 2, Append(1, false), false) == Ok(t)
  {
    TwoRowsValid();
    OwnParentWritten();
    OwnParentFixed();
    Overlapping(map[1 := Row(1, 4, None, 0, None), 2 := Row(-2, 3, Some(1), 0, None)]);
  }

  /** Two rows whose intervals overlap without nesting make no tree. */
  lemma Overlapping(r: Table)
    requires 1 in r && 2 in r && !Laminar(r[1], r[2])
    ensures !Valid(r)
  {
  }

  lemma InnerDeleteWritten()
    ensures Delete(ThreeRows, 2, false, 0) == Ok(map[1 := Row(1, 2, None, 0, None), 3 := Row(3, 4, Some(2), 0, None)])
  {
    var t := ThreeRows;
    var rest := t - {2};
    assert rest.Keys == {1, 3};
    var r := ShiftNodes(rest, -4, Some(6), None);
    assert r[1] == Row(1, 2, None, 0, None) && r[3] == t[3];
    assert r == map[1 := Row(1, 2, None, 0, None), 3 := Row(3, 4, Some(2), 0, None)];
  }

  lemma InnerDeleteFixed()
    ensures DeleteFixed(ThreeRows, 2, false, 0) == Ok(map[1 := Row(1, 2, None, 0, None)])
  {
    var t := ThreeRows;
    assert Below(t, 2) == {3};
    var rest := t - {3} - {2};
    assert rest.Keys == {1};
    var r := ShiftNodes(rest, -4, Some(6), None);
    assert r[1] == Row(1, 2, None, 0, None);
    assert r == map[1 := Row(1, 2, None, 0, None)];
  }

  /** Hard-deleting an inner node: its child keeps its bounds and a parent
      id that names no row. The corrected delete removes the child too. */
  lemma DeleteOrphans()
    ensures var t := ThreeRows;
      && Valid(t)
      && Delete(t, 2, false, 0).Ok?
      && !Valid(Delete(t, 2, false, 0).value)
      && DeleteFixed(t, 2, false, 0) == Ok(map[1 := Row(1, 2, None, 0, None)])
  {
    ThreeRowsValid();
    InnerDeleteWritten();
    InnerDeleteFixed();
    var r := map[1 := Row(1, 2, None, 0, None), 3 := Row(3, 4, Some(2), 0, None)];
    assert !ParentOk(r, 3);
  }
}

=== FILE: moves.dfy ===
/** `moveNode` seen as cut-and-paste: swapping the node's interval with the
    block between it and the target position gives the same table as
    removing the subtree, closing the gap it leaves, opening a gap at the
    target and putting the subtree back, translated. With the lemmas of
    `Blocks` this shows that a move under the position's nearest enclosing
    row keeps a valid tree valid.
 */
module Moves {
  import opened Types
  import opened Bounds
  import opened Tree
  import opened Blocks

  /** Where the subtree's left bound lands once the gap it leaves is
      closed: the position itself when moving left, the position minus the
      height when moving right. */
  function Landing(m: Plan, pos: int): int {
    if pos > m.rgt then pos - (m.rgt - m.lft + 1) else pos
  }

  /** The value-level statement: outside the moved interval, `moveNode`'s
      rewrite is "close the gap at rgt+1, then open one at the landing
      point"; inside it, a translation onto the landing point. */
  lemma MoveIsCutAndPaste(m: Plan, pos: int, v: int)
    requires PlanFrom(m, pos)
    ensures !(m.lft <= v <= m.rgt) ==>
      MoveValue(v, m) == GapValue(GapValue(v, m.rgt + 1, -(m.rgt - m.lft + 1)), Landing(m, pos), m.rgt - m.lft + 1)
    ensures m.lft <= v <= m.rgt ==> MoveValue(v, m) == v + (Landing(m, pos) - m.lft)
  {
  }

  /** A row moved by `delta` and given `parent`. */
  function Translate(r: Row, delta: int, parent: Option<Key>): Row {
    r.(lft := r.lft + delta, rgt := r.rgt + delta, parent := parent)
  }

  /** The rows of the subtree, translated so that its top starts at the
      landing point, with the top row re-parented to `q`. */
  function MovedBlock(u: Table, n: Key, delta: int, q: Option<Key>): (b: Table)
    requires n in u
    ensures b.Keys == Subtree(u, n)
  {
    map k | k in Subtree(u, n) :: Translate(u[k], delta, if k == n then q else u[k].parent)
  }

  /** The rest of the table with the gap the subtree leaves closed. */
  function Closed(u: Table, n: Key): (c: Table)
    requires n in u
    ensures c.Keys == u.Keys - Subtree(u, n)
  {
    GapRows(u - Subtree(u, n), u[n].rgt + 1, -(u[n].rgt - u[n].lft + 1))
  }

  lemma ClosedRow(u: Table, n: Key, j: Key)
    requires n in u && j in Closed(u, n)
    ensures j in u && Closed(u, n)[j] == GapRow(u[j], u[n].rgt + 1, -(u[n].rgt - u[n].lft + 1))
  {
    assert j in u - Subtree(u, n);
  }

  /** The table `moveNode` produces, with the node's parent then saved. */
  function MovedTable(u: Table, n: Key, m: Plan, q: Option<Key>): Table
    requires n in u
  {
    var moved := MoveRows(u, m);
    moved[n := moved[n].(parent := q)]
  }

  /** The planned move of node `n` to `pos`, on a table whose subtree of `n`
      is separated from the other rows. */
  predicate MoveSetting(u: Table, n: Key, m: Plan, pos: int) {
    && n in u && Separated(u, n)
    && m.lft == u[n].lft && m.rgt == u[n].rgt
    && PlanFrom(m, pos)
  }

  lemma MovedRowInside(u: Table, n: Key, m: Plan, pos: int, q: Option<Key>, k: Key)
    requires MoveSetting(u, n, m, pos)
    requires k in Subtree(u, n)
    ensures MovedTable(u, n, m, q)[k] == MovedBlock(u, n, Landing(m, pos) - m.lft, q)[k]
  {
    var r := u[k];
    assert m.lft <= r.lft && r.rgt <= m.rgt && r.lft < r.rgt;
    MoveIsCutAndPaste(m, pos, r.lft);
    MoveIsCutAndPaste(m, pos, r.rgt);
  }

  lemma MovedRowOutside(u: Table, n: Key, m: Plan, pos: int, q: Option<Key>, k: Key)
    requires MoveSetting(u, n, m, pos)
    requires k in u && k !in Subtree(u, n)
    ensures MovedTable(u, n, m, q)[k] == GapRow(Closed(u, n)[k], Landing(m, pos), m.rgt - m.lft + 1)
  {
    var r := u[k];
    assert !(m.lft <= r.lft <= m.rgt) && !(m.lft <= r.rgt <= m.rgt);
    MoveIsCutAndPaste(m, pos, r.lft);
    MoveIsCutAndPaste(m, pos, r.rgt);
    assert Closed(u, n)[k] == GapRow(r, m.rgt + 1, -(m.rgt - m.lft + 1));
  }

  /** The move equals cut-and-paste. */
  lemma MoveDecomposes(u: Table, n: Key, m: Plan, pos: int, q: Option<Key>, p': int, delta: int, h: int)
    requires MoveSetting(u, n, m, pos)
    requires p' == Landing(m, pos) && delta == p' - m.lft && h == m.rgt - m.lft + 1
    ensures MovedTable(u, n, m, q) == InsertBlock(Closed(u, n), MovedBlock(u, n, delta, q), p', h)
  {
    var lhs := MovedTable(u, n, m, q);
    var rhs := InsertBlock(Closed(u, n), MovedBlock(u, n, delta, q), p', h);
    assert lhs.Keys == u.Keys;
    assert rhs.Keys == u.Keys;
    forall k | k in lhs
      ensures lhs[k] == rhs[k]
    {
      MoveRowDecomposes(u, n, m, pos, q, p', delta, h, k);
    }
    TablesEqual(lhs, rhs);
  }

  /** The same, one row at a time. */
  lemma MoveRowDecomposes(u: Table, n: Key, m: Plan, pos: int, q: Option<Key>, p': int, delta: int, h: int, k: Key)
    requires MoveSetting(u, n, m, pos) && k in u
    requires p' == Landing(m, pos) && delta == p' - m.lft && h == m.rgt - m.lft + 1
    ensures k in InsertBlock(Closed(u, n), MovedBlock(u, n, delta, q), p', h)
    ensures MovedTable(u, n, m, q)[k] == InsertBlock(Closed(u, n), MovedBlock(u, n, delta, q), p', h)[k]
  {
    var blk := MovedBlock(u, n, delta, q);
    var c := Closed(u, n);
    if k in blk {
      MovedRowInside(u, n, m, pos, q, k);
    } else {
      MovedRowOutside(u, n, m, pos, q, k);
      assert k in c;
      assert InsertBlock(c, blk, p', h)[k] == GapRows(c, p', h)[k];
    }
  }

  lemma {:induction false} MovedBlockBounds(u: Table, n: Key, p': int, q: Option<Key>)
    requires Valid(u) && n in u
    ensures var b := MovedBlock(u, n, p' - u[n].lft, q);
      forall k | k in b :: p' <= b[k].lft && b[k].rgt <= p' + (u[n].rgt - u[n].lft + 1) - 1 && WellFormed(b[k])
  {
    SubtreeSeparated(u, n);
    var delta := p' - u[n].lft;
    var b := MovedBlock(u, n, delta, q);
    forall k | k in b
      ensures p' <= b[k].lft && b[k].rgt <= p' + (u[n].rgt - u[n].lft + 1) - 1 && WellFormed(b[k])
    {
      assert WellFormed(u[k]);
      assert k in Subtree(u, n);
      assert u[n].lft <= u[k].lft && u[k].rgt <= u[n].rgt;
      assert b[k].lft == u[k].lft + delta && b[k].rgt == u[k].rgt + delta;
      assert b[k].rgt - b[k].lft == u[k].rgt - u[k].lft;
    }
  }

  lemma {:induction false} MovedBlockLaminar(u: Table, n: Key, p': int, q: Option<Key>)
    requires Valid(u) && n in u
    ensures var b := MovedBlock(u, n, p' - u[n].lft, q);
      forall x, y | x in b && y in b && x != y :: Laminar(b[x], b[y])
  {
    var delta := p' - u[n].lft;
    var b := MovedBlock(u, n, delta, q);
    forall x, y | x in b && y in b && x != y
      ensures Laminar(b[x], b[y])
    {
      assert Laminar(u[x], u[y]);
      assert b[x].lft == u[x].lft + delta && b[x].rgt == u[x].rgt + delta;
      assert b[y].lft == u[y].lft + delta && b[y].rgt == u[y].rgt + delta;
    }
  }

  lemma {:induction false} MovedBlockParents(u: Table, n: Key, p': int, q: Option<Key>)
    requires Valid(u) && n in u
    ensures var b := MovedBlock(u, n, p' - u[n].lft, q);
      forall c | c in b && c != n :: b[c].parent.Some? && Nearest(b, b[c].parent.value, c)
  {
    SubtreeParentsInside(u, n);
    var b := MovedBlock(u, n, p' - u[n].lft, q);
    forall c | c in b && c != n
      ensures b[c].parent.Some? && Nearest(b, b[c].parent.value, c)
    {
      MovedParentRow(u, n, p', q, c);
    }
  }

  /** A moved row below the top keeps its parent, which stays the nearest
      row containing it within the block. */
  lemma MovedParentRow(u: Table, n: Key, p': int, q: Option<Key>, c: Key)
    requires Valid(u) && n in u && c in Subtree(u, n) && c != n
    requires u[c].parent.Some? && u[c].parent.value in Subtree(u, n)
    ensures var b := MovedBlock(u, n, p' - u[n].lft, q);
      b[c].parent.Some? && Nearest(b, b[c].parent.value, c)
  {
    var delta := p' - u[n].lft;
    var b := MovedBlock(u, n, delta, q);
    assert ParentOk(u, c);
    var pc := u[c].parent.value;
    assert b[c] == Translate(u[c], delta, u[c].parent);
    assert b[pc].lft == u[pc].lft + delta && b[pc].rgt == u[pc].rgt + delta;
    forall a | a in b
      ensures !(Contains(b[pc], b[a]) && Contains(b[a], b[c]))
    {
      assert b[a].lft == u[a].lft + delta && b[a].rgt == u[a].rgt + delta;
      assert !(Contains(u[pc], u[a]) && Contains(u[a], u[c]));
    }
  }

  /** Cutting a subtree out of a valid tree leaves a valid tree. */
  lemma ClosedValid(u: Table, n: Key)
    requires Valid(u) && n in u
    ensures Valid(Closed(u, n))
  {
    RemoveSubtreeAndCloseValid(u, n);
  }

  /** The translated subtree is a block ready for the gap at the landing
      point. */
  lemma MovedBlockOk(u: Table, n: Key, p': int, delta: int, h: int, q: Option<Key>)
    requires Valid(u) && n in u
    requires delta == p' - u[n].lft && h == u[n].rgt - u[n].lft + 1
    ensures BlockOk(MovedBlock(u, n, delta, q), n, p', h, q)
  {
    MovedBlockBounds(u, n, p', q);
    MovedBlockLaminar(u, n, p', q);
    MovedBlockParents(u, n, p', q);
  }

  /** A row outside the subtree encloses the position exactly when, after
      the gap is closed, it encloses the landing point. */
  lemma {:induction false} ClosedEncloses(u: Table, n: Key, m: Plan, pos: int)
    requires MoveSetting(u, n, m, pos)
    ensures forall a | a in Closed(u, n) :: a in u && (Encloses(Closed(u, n)[a], Landing(m, pos)) <==> Encloses(u[a], pos))
  {
    var c := Closed(u, n);
    forall a | a in c
      ensures a in u && (Encloses(c[a], Landing(m, pos)) <==> Encloses(u[a], pos))
    {
      assert a !in Subtree(u, n);
    }
  }

  /** Closing the gap keeps the rest of the tree valid, and the position's
      nearest enclosing row stays the landing point's nearest enclosing
      row. */
  lemma {:induction false} ClosedKeepsEnclosing(u: Table, n: Key, m: Plan, pos: int, q: Option<Key>)
    requires Valid(u) && MoveSetting(u, n, m, pos)
    requires NearestEnclosing(u, pos, q)
    ensures Valid(Closed(u, n))
    ensures NearestEnclosing(Closed(u, n), Landing(m, pos), q)
  {
    RemoveSubtreeAndCloseValid(u, n);
    ClosedEncloses(u, n, m, pos);
    RestAvoidsSubtree(u, n);
    var h := m.rgt - m.lft + 1;
    var rest := u - Subtree(u, n);
    var c := Closed(u, n);
    var p' := Landing(m, pos);
    match q
    case None =>
    case Some(x) =>
      assert x in rest by {
        assert Encloses(u[x], pos);
        var rx := u[x];
        assert rx.lft < pos <= rx.rgt;
      }
      forall a | a in c && Encloses(c[a], p')
        ensures !Contains(c[x], c[a])
      {
        GapRowContains(rest[x], rest[a], m.rgt + 1, -h);
      }
  }

  /** The headline fact about `moveNode`: moving a node of a valid tree to a
      position it may take, and giving it the position's nearest enclosing
      row as parent, leaves a valid tree. */
  lemma MoveValid(u: Table, n: Key, m: Plan, pos: int, q: Option<Key>)
    requires Valid(u) && n in u
    requires m.lft == u[n].lft && m.rgt == u[n].rgt && PlanFrom(m, pos)
    requires NearestEnclosing(u, pos, q)
    ensures Valid(MovedTable(u, n, m, q))
  {
    SubtreeSeparated(u, n);
    var p' := Landing(m, pos);
    var h := m.rgt - m.lft + 1;
    var delta := p' - m.lft;
    var c := Closed(u, n);
    var b := MovedBlock(u, n, delta, q);
    MoveDecomposes(u, n, m, pos, q, p', delta, h);
    ClosedKeepsEnclosing(u, n, m, pos, q);
    MovedBlockOk(u, n, p', delta, h, q);
    InsertBlockValid(c, b, n, p', h, q);
  }
}

=== FILE: node_class.dfy ===
/** The `Node` base class of src/Node.php, the model class that predates
    `NodeTrait`. It drives the same query builder, with three differences
    that matter here:

    - it has no scope: every query sees the whole table, so a table of
      such a model is one whose rows all sit in scope 0;
    - a fresh model's pending action is `root`, as with `NodeTrait`, but
      once `clearAction()` has emptied it a new node is not made a root:
      it keeps null bounds, which the NOT NULL bound columns refuse
      (`NodeTrait` makes a new node without a pending action a root);
    - its static `fixTree()` walks the rows by their stored parent ids and
      rewrites bounds only, instead of going through the builder's
      `fixTree()`.

    Deleting and restoring go through the same events as in `NodeTrait`,
    behind a class-wide `$deleting` flag that switches the descendants'
    delete off while it is set.
 */
module NodeClass {
  import opened Types
  import opened Tree
  import opened Dictionary
  import opened Renumber
  import opened Fix
  import opened Engine
  import opened EngineValid

  /** Every row in scope 0: the table of a model without a scope. */
  predicate NoScope(t: Table) {
    forall k | k in t :: t[k].scope == 0
  }

  type ClassTable = t: Table | NoScope(t) witness map[]

  /** Without a scope the scoped queries of the builder see every row. */
  lemma WholeScope(t: ClassTable)
    ensures InScope(t, 0) == t
  {
  }

  /** An operation that changes only scope 0 of a table without a scope
      leaves a table without a scope. */
  lemma StaysUnscoped(t: ClassTable, t': Table)
    requires OtherScopesUnchanged(t, t', 0)
    ensures NoScope(t')
  {
  }

  /** `save()` of node `k` with its pending action. An untouched new
      model carries `Some(MakeRoot)`, the class's default. `None` is a
      pending action cleared by `clearAction()`: a saved node is then
      written back as it is, and a new one has no bounds. Otherwise the
      action runs as in `NodeTrait`, on the single scope. */
  function ClassSave(t: ClassTable, k: Key, action: Option<Action>): (r: Result<(ClassTable, bool)>)
    ensures action == None && k !in t ==> r == Err(NullBounds)
    ensures action == None && k in t ==> r == Ok((t, false))
    ensures r.Err? ==> r.error in {NotExisting, CyclicMove, NullBounds}
    ensures r.Ok? ==> r.value.0.Keys == t.Keys + {k}
  {
    if action == None && k !in t then Err(NullBounds)
    else
      match Save(t, 0, k, action)
      case Err(e) => Err(e)
      case Ok((t', moved)) =>
        StaysUnscoped(t, t');
        Ok((t', moved))
  }

  /** Saving with an action keeps a valid tree valid, and puts the node
      under the parent the action names. */
  lemma ClassSaveValid(t: ClassTable, k: Key, action: Option<Action>)
    requires Valid(t)
    ensures ClassSave(t, k, action).Ok? ==> Valid(ClassSave(t, k, action).value.0)
    ensures ClassSave(t, k, action).Ok? && action.Some? ==>
      var t' := ClassSave(t, k, action).value.0;
      && (action.value.AppendOrPrepend? ==> t'[k].parent == Some(action.value.parent))
      && (action.value.BeforeOrAfter? ==> t'[k].parent == t[action.value.target].parent)
      && (action.value.MakeRoot? ==> t'[k].parent == None)
  {
    WholeScope(t);
    SaveValid(t, 0, k, action);
    var r := ClassSave(t, k, action);
    if r.Ok? {
      var t' := r.value.0;
      assert Save(t, 0, k, action) == Ok((t', r.value.1));
      WholeScope(t');
      if action.Some? {
        SaveAttaches(t, 0, k, action.value);
      }
    }
  }

  /** `delete()` of node `k` and the `deleted` event. While the
      class-wide `$deleting` flag is set, `deleteDescendants()` returns at
      once and only the node's own row is removed or stamped; otherwise
      the delete is the one of `NodeTrait`. */
  function ClassDelete(t: ClassTable, k: Key, mode: DeleteMode, now: nat, deleting: bool): (r: ClassTable)
    ensures r.Keys <= t.Keys
    ensures k !in t ==> r == t
    ensures deleting ==> forall j | j in t && j != k :: j in r && r[j] == t[j]
    ensures deleting && k in t ==> (k in r <==> !HardDeleting(mode))
    ensures deleting && k in r ==> r[k] == t[k].(deleted := Some(now))
  {
    if k !in t then t
    else if deleting then
      if HardDeleting(mode) then t - {k} else t[k := t[k].(deleted := Some(now))]
    else
      var r := Delete(t, k, mode, now);
      StaysUnscoped(t, r);
      r
  }

  /** A delete outside the nested one keeps a valid tree valid: with the
      node gone, its descendants are gone too and the gap is closed; with
      the node trashed, no bound moves. */
  lemma ClassDeleteValid(t: ClassTable, k: Key, mode: DeleteMode, now: nat)
    requires Valid(t)
    ensures Valid(ClassDelete(t, k, mode, now, false))
  {
    if k in t {
      WholeScope(t);
      DeleteValid(t, k, mode, now);
      WholeScope(ClassDelete(t, k, mode, now, false));
    }
  }

  /** The nested delete alone does not keep the tree valid: removing a
      parent while `$deleting` is set leaves its child naming a row that is
      gone. */
  lemma NestedDeleteOrphans()
    ensures var t: ClassTable := map[1 := Row(1, 4, None, 0, None), 2 := Row(2, 3, Some(1), 0, None)];
      && Valid(t)
      && !Valid(ClassDelete(t, 1, Plain, 0, true))
  {
    var t: ClassTable := map[1 := Row(1, 4, None, 0, None), 2 := Row(2, 3, Some(1), 0, None)];
    var r := ClassDelete(t, 1, Plain, 0, true);
    assert Nearest(t, 1, 2);
    assert ParentOk(t, 2);
    assert ParentOk(t, 1);
    assert Valid(t);
    assert 2 in r && r[2].parent == Some(1) && 1 !in r;
    assert !ParentOk(r, 2);
  }

  /** `restore()` undoes a soft `delete()`, descendants included, when the
      descendants already trashed were trashed earlier. */
  lemma ClassSoftDeleteRestore(t: ClassTable, k: Key, now: nat)
    requires k in t && t[k].deleted == None
    requires forall j | j in t && t[k].lft + 1 <= t[j].lft <= t[k].rgt && t[j].deleted.Some? :: t[j].deleted.value < now
    ensures Restore(ClassDelete(t, k, Soft, now, false), k) == t
  {
    SoftDeleteRestore(t, k, now);
  }

  /** The rows `newQuery()` loads: a soft-deleting model leaves its
      trashed rows out. */
  function Loaded(t: Table, softDeletes: bool): (u: Table)
    ensures u.Keys <= t.Keys
    ensures forall k | k in t :: k in u <==> !softDeletes || t[k].deleted == None
    ensures forall k | k in u :: u[k] == t[k]
  {
    map k | k in t && (!softDeletes || t[k].deleted == None) :: t[k]
  }

  /** The walk of the static `reorderNodes()`: the loaded rows in `_lft`
      order, grouped by parent id, walked from the roots' entry starting
      at 1. The walk hands out the bounds of a forest to the rows it
      reaches, all of them loaded. */
  function StaticWalk(t: Table, softDeletes: bool): (w: Pass)
    ensures Forest(w.slots, None, 1, w.cut)
    ensures w.slots.Keys <= Loaded(t, softDeletes).Keys
  {
    var u := Loaded(t, softDeletes);
    var d := GroupBy(LftOrder(u, u.Keys), u);
    ReorderNodes(d, None, 1)
  }

  /** Every loaded root is reached by the walk. */
  lemma StaticWalkReachesRoots(t: Table, softDeletes: bool)
    ensures forall k | k in Loaded(t, softDeletes) && t[k].parent == None :: k in StaticWalk(t, softDeletes).slots
  {
    var u := Loaded(t, softDeletes);
    var order := LftOrder(u, u.Keys);
    var d := GroupBy(order, u);
    var w := ReorderNodes(d, None, 1);
    assert w == StaticWalk(t, softDeletes);
    forall k | k in u && t[k].parent == None
      ensures k in w.slots
    {
      assert k in Elems(order);
      GroupByFind(order, u, k);
      var ms := Find(d, None).value;
      FindRemove(d, None);
      assert w == ReorderGroup(Remove(d, None), ms, None, 1);
      assert k in Elems(ms) && k !in MemberSet(Remove(d, None));
    }
  }

  /** Only `_lft` and `_rgt` of the reached rows are set; every other row
      is left as loaded. */
  function SetBounds(t: Table, slots: Table): (r: Table)
    ensures r.Keys == t.Keys
  {
    map k | k in t :: if k in slots then t[k].(lft := slots[k].lft, rgt := slots[k].rgt) else t[k]
  }

  /** The reached rows whose bounds differ from the loaded ones: the
      models `isDirty()` reports, each saved and counted once. */
  function BoundsDirty(t: Table, slots: Table): (ks: set<Key>)
    ensures forall k :: k in ks <==> k in t && k in slots && (t[k].lft != slots[k].lft || t[k].rgt != slots[k].rgt)
  {
    set k | k in t && k in slots && (t[k].lft != slots[k].lft || t[k].rgt != slots[k].rgt)
  }

  /** The bounds the walk handed out written to the reached rows, and
      the number of models saved. */
  function BoundsFix(t: Table, slots: Table): (r: Fixed)
    ensures r.table.Keys == t.Keys
  {
    Fixed(SetBounds(t, slots), |BoundsDirty(t, slots)|)
  }

  /** The static `fixTree()` of src/Node.php: the new table and the
      number of models saved. */
  function StaticFixTree(t: Table, softDeletes: bool): (r: Fixed)
    ensures r.table.Keys == t.Keys
  {
    BoundsFix(t, StaticWalk(t, softDeletes).slots)
  }

  /** The rows of `t` whose keys are in `ks`. */
  function Restrict(t: Table, ks: set<Key>): (r: Table)
    ensures r.Keys == t.Keys * ks
  {
    map k | k in t && k in ks :: t[k]
  }

  /** Writing bounds from slots keeps everything but the bounds, leaves
      the rows without a slot alone, and the rows with one take the
      slots' intervals. */
  lemma {:induction false} BoundsFixShape(t: Table, slots: Table, lo: int, hi: int)
    requires slots.Keys <= t.Keys
    requires Spans(slots, lo, hi) && Intervals(slots)
    ensures var r := BoundsFix(t, slots).table;
      && (forall k | k in t :: r[k].parent == t[k].parent && r[k].scope == t[k].scope && r[k].deleted == t[k].deleted)
      && (forall k | k in t && k !in slots :: r[k] == t[k])
      && Spans(Restrict(r, slots.Keys), lo, hi)
      && Intervals(Restrict(r, slots.Keys))
  {
    var r := BoundsFix(t, slots).table;
    var v := Restrict(r, slots.Keys);
    assert v.Keys == slots.Keys;
    forall k | k in v
      ensures v[k].lft == slots[k].lft && v[k].rgt == slots[k].rgt
    {
    }
    SameBounds(slots, v, lo, hi);
  }

  /** Spans and intervals only look at bounds. */
  lemma {:induction false} SameBounds(a: Table, b: Table, lo: int, hi: int)
    requires a.Keys == b.Keys
    requires forall k | k in a :: a[k].lft == b[k].lft && a[k].rgt == b[k].rgt
    requires Spans(a, lo, hi) && Intervals(a)
    ensures Spans(b, lo, hi) && Intervals(b)
  {
    forall k | k in b
      ensures WellFormed(b[k])
    {
      assert WellFormed(a[k]);
    }
    forall x, y | x in b && y in b && x != y
      ensures Laminar(b[x], b[y])
    {
      assert Laminar(a[x], a[y]);
    }
  }

  /** The count is the number of rows changed, zero exactly when nothing
      changed. */
  lemma {:induction false} BoundsFixCount(t: Table, slots: Table)
    ensures var r := BoundsFix(t, slots);
      && r.count == |Changed(t, r.table)|
      && (r.count == 0 <==> r.table == t)
  {
    var r := BoundsFix(t, slots);
    assert Changed(t, r.table) == BoundsDirty(t, slots) by {
      forall k | k in t
        ensures k in Changed(t, r.table) <==> k in BoundsDirty(t, slots)
      {
        assert r.table[k] == if k in slots then t[k].(lft := slots[k].lft, rgt := slots[k].rgt) else t[k];
      }
    }
    if r.count == 0 {
      forall k | k in t
        ensures r.table[k] == t[k]
      {
        assert k !in Changed(t, r.table);
      }
    }
  }

  /** What the static `fixTree()` does to the table: parent ids, trash
      stamps and rows the walk does not reach (trashed rows of a
      soft-deleting model, rows whose parent chain never reaches a root)
      stay as they were, every loaded root is reached, and the rows
      reached carry well-formed, pairwise nested-or-apart intervals that
      use each number from 1 up to the walk's cut exactly once. */
  lemma StaticFixTreeShape(t: Table, softDeletes: bool)
    ensures var r := StaticFixTree(t, softDeletes).table;
      var w := StaticWalk(t, softDeletes);
      && (forall k | k in t :: r[k].parent == t[k].parent && r[k].scope == t[k].scope && r[k].deleted == t[k].deleted)
      && (forall k | k in t && k !in w.slots :: r[k] == t[k])
      && (forall k | k in t && softDeletes && t[k].deleted.Some? :: r[k] == t[k])
      && (forall k | k in t && (!softDeletes || t[k].deleted == None) && t[k].parent == None :: k in w.slots)
      && Spans(Restrict(r, w.slots.Keys), 1, w.cut)
      && Intervals(Restrict(r, w.slots.Keys))
  {
    var w := StaticWalk(t, softDeletes);
    StaticWalkReachesRoots(t, softDeletes);
    BoundsFixShape(t, w.slots, 1, w.cut);
  }

  /** What the static `fixTree()` hands back: `$fixed` is passed by
      reference undefined and first set by the first `++`, so it is null
      when no row was saved, and otherwise the number of rows saved. */
  function StaticFixTreeReturn(t: Table, softDeletes: bool): Option<nat> {
    var n := StaticFixTree(t, softDeletes).count;
    if n == 0 then None else Some(n)
  }

  /** The static `fixTree()` counts the rows it changed, zero exactly when
      the table is left as it was. */
  lemma StaticFixTreeCount(t: Table, softDeletes: bool)
    ensures var r := StaticFixTree(t, softDeletes);
      && r.count == |Changed(t, r.table)|
      && (r.count == 0 <==> r.table == t)
  {
    BoundsFixCount(t, StaticWalk(t, softDeletes).slots);
  }

  /** The static `fixTree()` returns null exactly when the table is left
      as it was, and otherwise the (positive) number of rows it changed. */
  lemma StaticFixTreeNull(t: Table, softDeletes: bool)
    ensures var r := StaticFixTree(t, softDeletes).table;
      && (StaticFixTreeReturn(t, softDeletes) == None <==> r == t)
      && (StaticFixTreeReturn(t, softDeletes).Some? ==>
            StaticFixTreeReturn(t, softDeletes).value == |Changed(t, r)| > 0)
  {
    StaticFixTreeCount(t, softDeletes);
  }
}

=== FILE: rebuild.dfy ===
/** `rebuildTree` and `rebuildSubtree` of src/QueryBuilder.php: the tree
    is rebuilt from nested input items. An item naming a key reuses that
    row, taking the item's position as its new parent; an item without a
    key becomes a new row. Every model lands in the dictionary of
    `fixNodes` under its parent id, and `fixNodes` then lays the whole
    dictionary out.

    The rows the rebuild starts from are those of the scope (or, for a
    subtree, those below its top), trashed ones included. Rows no item
    names are hard-deleted when deletion is asked for and the model has no
    soft deletes; otherwise they are kept under their old parent id, and
    soft-deleted (stamped with the clock value `now`) when deletion is
    asked for.
 */
module Rebuild {
  import opened Types
  import opened Bounds
  import opened Tree
  import opened Dictionary
  import opened Renumber
  import opened Engine
  import opened Fix

  /** One input item: the key it names, if any, and its children. */
  datatype Item = Item(key: Option<Key>, children: seq<Item>)

  /** The state `buildRebuildDictionary` threads through: the table, the
      loaded rows no item has named yet, and the dictionary. */
  datatype Built = Built(table: Table, existing: set<Key>, dict: seq<Group>)

  /** The keys the items name, in input order. */
  function Listed(items: seq<Item>): (ks: seq<Key>)
    decreases items
  {
    if items == [] then []
    else
      (if items[0].key.Some? then [items[0].key.value] else [])
      + Listed(items[0].children) + Listed(items[1..])
  }

  /** The key the database gives a new row: one past the largest key. */
  function NewKey(t: Table): (k: Key)
    ensures k !in t
    ensures forall j | j in t :: j < k
  {
    if t.Keys == {} then 0
    else
      var ks := set j | j in t :: j as int;
      assert forall j | j in t :: j as int in ks;
      var k0 :| k0 in t;
      assert k0 as int in ks;
      var m := MaxOf(ks);
      (m + 1) as nat
  }

  /** What the walk over the items may rely on: the pending rows are rows
      of the scope, and the dictionary holds distinct models of the scope,
      none of them pending. */
  predicate Ready(t: Table, s: nat, existing: set<Key>, d: seq<Group>) {
    && (forall k | k in existing :: k in t && t[k].scope == s)
    && Inv(d) && ModelsOf(t, t, s, MemberSet(d))
    && MemberSet(d) !! existing
  }

  /** The rows of scope `s` neither pending nor in the dictionary. */
  function Outside(t: Table, s: nat, existing: set<Key>, d: seq<Group>): set<Key> {
    InScope(t, s).Keys - MemberSet(d) - existing
  }

  /** `t'` only adds rows of scope `s` to `t` and changes no column of the
      rows of `t` other than the parent id. */
  predicate Grows(t: Table, t': Table, s: nat) {
    && t.Keys <= t'.Keys
    && (forall k | k in t' && k !in t :: t'[k].scope == s && t'[k].deleted == None)
    && (forall k | k in t :: t'[k] == t[k].(parent := t'[k].parent))
  }

  /** `buildRebuildDictionary($dictionary, $data, $existing, $parentId)`:
      each item is saved (a named row with its new parent id, a new row
      where `actionRoot` puts it) and pushed onto the entry of the
      parent id; its children follow with the item as their parent. */
  function BuildItems(t: Table, s: nat, items: seq<Item>, existing: set<Key>, parent: Option<Key>, d: seq<Group>): (r: Result<Built>)
    requires Ready(t, s, existing, d)
    ensures r.Err? ==> r.error == NotFound
    ensures r.Ok? ==> Ready(r.value.table, s, r.value.existing, r.value.dict)
    ensures r.Ok? ==> r.value.existing == existing - Elems(Listed(items))
    decreases items
  {
    if items == [] then Ok(Built(t, existing, d))
    else
      var one :- BuildItem(t, s, items[0].key, existing, parent, d);
      var k := one.1;
      var below :- BuildItems(one.0.table, s, items[0].children, one.0.existing, Some(k), one.0.dict);
      BuildItems(below.table, s, items[1..], below.existing, parent, below.dict)
  }

  /** Building the dictionary only adds rows of the scope and rewrites
      parent ids, and it leaves the rows that were neither pending nor
      listed where they were. */
  lemma {:induction false} BuildItemsKeeps(t: Table, s: nat, items: seq<Item>, existing: set<Key>, parent: Option<Key>, d: seq<Group>)
    requires Ready(t, s, existing, d)
    requires BuildItems(t, s, items, existing, parent, d).Ok?
    ensures var b := BuildItems(t, s, items, existing, parent, d).value;
      && Grows(t, b.table, s)
      && Outside(b.table, s, b.existing, b.dict) == Outside(t, s, existing, d)
    decreases items
  {
    if items != [] {
      var one := BuildItem(t, s, items[0].key, existing, parent, d).value;
      var k := one.1;
      BuildItemsKeeps(one.0.table, s, items[0].children, one.0.existing, Some(k), one.0.dict);
      var below := BuildItems(one.0.table, s, items[0].children, one.0.existing, Some(k), one.0.dict).value;
      BuildItemsKeeps(below.table, s, items[1..], below.existing, parent, below.dict);
    }
  }

  /** The save and push of one item, before its children. */
  function BuildItem(t: Table, s: nat, key: Option<Key>, existing: set<Key>, parent: Option<Key>, d: seq<Group>): (r: Result<(Built, Key)>)
    requires Ready(t, s, existing, d)
    ensures r.Err? <==> key.Some? && key.value !in existing
    ensures r.Err? ==> r.error == NotFound
    ensures r.Ok? ==> Ready(r.value.0.table, s, r.value.0.existing, r.value.0.dict)
    ensures r.Ok? ==> Grows(t, r.value.0.table, s)
    ensures r.Ok? ==> r.value.0.existing == existing - {r.value.1}
    ensures r.Ok? ==> r.value.1 in r.value.0.table && r.value.0.table[r.value.1].parent == parent
    ensures r.Ok? && key.Some? ==> r.value.1 == key.value && r.value.0.table.Keys == t.Keys
    ensures r.Ok? ==> Outside(r.value.0.table, s, r.value.0.existing, r.value.0.dict) == Outside(t, s, existing, d)
    ensures r.Ok? ==> r.value.0.dict == Push(d, parent, r.value.1)
    ensures r.Ok? ==> forall j | j in t && j != r.value.1 :: r.value.0.table[j] == t[j]
  {
    match key
    case None => Ok(SaveNew(t, s, existing, parent, d))
    case Some(k) => if k !in existing then Err(NotFound) else Ok(SaveNamed(t, s, k, existing, parent, d))
  }

  /** An item without a key: a new row where `actionRoot` puts it. */
  function SaveNew(t: Table, s: nat, existing: set<Key>, parent: Option<Key>, d: seq<Group>): (r: (Built, Key))
    requires Ready(t, s, existing, d)
    ensures Ready(r.0.table, s, r.0.existing, r.0.dict)
    ensures Grows(t, r.0.table, s)
    ensures r.0.existing == existing && r.1 !in t
    ensures r.1 in r.0.table && r.0.table[r.1].parent == parent
    ensures Outside(r.0.table, s, r.0.existing, r.0.dict) == Outside(t, s, existing, d)
    ensures r.0.dict == Push(d, parent, r.1)
    ensures forall j | j in t :: r.0.table[j] == t[j]
  {
    var k := NewKey(t);
    var row := LeafAt(LowerBound(InScope(t, s)) + 1, parent, s);
    AddRowReady(t, s, existing, d, k, row);
    (Built(t[k := row], existing, Push(d, parent, k)), k)
  }

  /** A new row of the scope pushed onto its parent's entry keeps the walk
      ready and leaves the other rows where they were. */
  lemma AddRowReady(t: Table, s: nat, existing: set<Key>, d: seq<Group>, k: Key, row: Row)
    requires Ready(t, s, existing, d) && k !in t && row.scope == s
    ensures Ready(t[k := row], s, existing, Push(d, row.parent, k))
    ensures Outside(t[k := row], s, existing, Push(d, row.parent, k)) == Outside(t, s, existing, d)
  {
    var t' := t[k := row];
    assert k !in MemberSet(d) && k !in existing;
    assert MemberSet(Push(d, row.parent, k)) == MemberSet(d) + {k};
    assert ModelsOf(t', t', s, MemberSet(d) + {k}) by {
      forall j | j in MemberSet(d) + {k}
        ensures j in t' && t'[j].scope == s
      {
        if j != k {
          assert j in t && t[j].scope == s;
        }
      }
    }
    ScopeAddsRow(t, s, k, row);
  }

  lemma ScopeAddsRow(t: Table, s: nat, k: Key, row: Row)
    requires k !in t && row.scope == s
    ensures InScope(t[k := row], s).Keys == InScope(t, s).Keys + {k}
  {
  }

  /** An item naming a pending row: the row takes the item's parent. */
  function SaveNamed(t: Table, s: nat, k: Key, existing: set<Key>, parent: Option<Key>, d: seq<Group>): (r: (Built, Key))
    requires Ready(t, s, existing, d) && k in existing
    ensures Ready(r.0.table, s, r.0.existing, r.0.dict)
    ensures Grows(t, r.0.table, s)
    ensures r.0.existing == existing - {k} && r.1 == k && r.0.table.Keys == t.Keys
    ensures r.0.table[k].parent == parent
    ensures Outside(r.0.table, s, r.0.existing, r.0.dict) == Outside(t, s, existing, d)
    ensures r.0.dict == Push(d, parent, k)
    ensures forall j | j in t && j != k :: r.0.table[j] == t[j]
  {
    var t' := t[k := t[k].(parent := parent)];
    assert InScope(t', s).Keys == InScope(t, s).Keys;
    (Built(t', existing - {k}, Push(d, parent, k)), k)
  }

  lemma {:induction false} MinExists(ks: set<Key>)
    requires ks != {}
    ensures exists k | k in ks :: forall j | j in ks :: k <= j
  {
    var y :| y in ks;
    if ks == {y} {
      assert forall j | j in ks :: y <= j;
    } else {
      assert ks - {y} != {} by {
        var z :| z in ks && z != y;
        assert z in ks - {y};
      }
      MinExists(ks - {y});
      var m :| m in ks - {y} && forall j | j in ks - {y} :: m <= j;
      MinStep(ks, y, m);
    }
  }

  lemma MinStep(ks: set<Key>, y: Key, m: Key)
    requires y in ks && m in ks - {y} && forall j | j in ks - {y} :: m <= j
    ensures exists k | k in ks :: forall j | j in ks :: k <= j
  {
    var least := if y <= m then y else m;
    forall j | j in ks
      ensures least <= j
    {
      if j != y {
        assert j in ks - {y};
      }
    }
  }

  /** The least of a non-empty set of keys. */
  function Least(ks: set<Key>): (k: Key)
    requires ks != {}
    ensures k in ks && forall j | j in ks :: k <= j
  {
    MinExists(ks);
    var k :| k in ks && forall j | j in ks :: k <= j;
    k
  }

  /** The rows no item named, in key order: the order of the keyed array
      `getDictionary()` returns. */
  function KeyOrder(ks: set<Key>): (o: seq<Key>)
    ensures Distinct(o) && Elems(o) == ks
    ensures forall i, j | 0 <= i < j < |o| :: o[i] < o[j]
    decreases ks
  {
    if ks == {} then []
    else
      var k := Least(ks);
      var rest := KeyOrder(ks - {k});
      var o := [k] + rest;
      assert forall i | 1 <= i < |o| :: o[i] == rest[i - 1];
      o
  }

  /** `$dictionary[$model->getParentId()][] = $model` for each row in
      `order`. */
  function PushRest(d: seq<Group>, order: seq<Key>, t: Table): (r: seq<Group>)
    requires forall i | 0 <= i < |order| :: order[i] in t
    requires Inv(d) && Distinct(order) && MemberSet(d) !! Elems(order)
    ensures MemberSet(r) == MemberSet(d) + Elems(order)
    ensures Inv(r)
    decreases |order|
  {
    if order == [] then d
    else
      var d' := Push(d, t[order[0]].parent, order[0]);
      assert Elems(order) == {order[0]} + Elems(order[1..]);
      PushRest(d', order[1..], t)
  }

  /** The in-memory rows of the models after the soft-delete stamp: every
      row in `rest` not trashed yet carries `now`. */
  function Stamp(t: Table, rest: set<Key>, now: nat): (m: Table)
    ensures m.Keys == t.Keys
    ensures forall k | k in t ::
      m[k] == if k in rest && t[k].deleted == None then t[k].(deleted := Some(now)) else t[k]
  {
    map k | k in t :: if k in rest && t[k].deleted == None then t[k].(deleted := Some(now)) else t[k]
  }

  /** `rebuildTree($data, $delete, $root)` on scope `s`; `soft` is
      `usesSoftDelete()`, `now` the clock value a soft delete stamps. */
  function RebuildTree(t: Table, s: nat, items: seq<Item>, delete: bool, soft: bool, now: nat, root: Option<Key>): (r: Result<Fixed>)
    requires root.Some? ==> root.value in t && t[root.value].scope == s
  {
    var built :- BuildFrom(t, s, items, root);
    Ok(Finish(built, s, delete, soft, now, root))
  }

  /** `buildRebuildDictionary` over the rows `rebuildTree` loads: the
      whole scope, or the rows below the top of a subtree. */
  function BuildFrom(t: Table, s: nat, items: seq<Item>, root: Option<Key>): (r: Result<Built>)
    requires root.Some? ==> root.value in t && t[root.value].scope == s
    ensures r.Ok? ==> Ready(r.value.table, s, r.value.existing, r.value.dict)
    ensures r.Ok? ==> Grows(t, r.value.table, s)
    ensures r.Ok? && root.Some? ==> root.value in r.value.table && r.value.table[root.value].scope == s
    ensures r.Ok? && root.Some? ==> root.value !in MemberSet(r.value.dict) && root.value !in r.value.existing
    ensures r.Ok? && root.None? ==> r.value.existing == InScope(t, s).Keys - Elems(Listed(items))
    ensures r.Ok? && root.None? ==> Outside(r.value.table, s, r.value.existing, r.value.dict) == Outside(t, s, InScope(t, s).Keys, [])
  {
    var sel := Selected(InScope(t, s), root);
    assert root.Some? ==> root.value in Outside(t, s, sel, []);
    var r := BuildItems(t, s, items, sel, root, []);
    if r.Ok? then BuildItemsKeeps(t, s, items, sel, root, []); r else r
  }

  /** What `rebuildTree` does once the dictionary is built: the rows no
      item named are deleted or added to the dictionary, then `fixNodes`
      runs. */
  function Finish(built: Built, s: nat, delete: bool, soft: bool, now: nat, root: Option<Key>): (r: Fixed)
    requires Ready(built.table, s, built.existing, built.dict)
    requires root.Some? ==> root.value in built.table && built.table[root.value].scope == s
    requires root.Some? ==> root.value !in MemberSet(built.dict) && root.value !in built.existing
  {
    var rest := built.existing;
    if rest != {} && delete && !soft then
      var t1 := built.table - rest;
      FixNodes(t1, t1, s, built.dict, root)
    else
      var d := PushRest(built.dict, KeyOrder(rest), built.table);
      var models := if delete && soft then Stamp(built.table, rest, now) else built.table;
      FixNodes(built.table, models, s, d, root)
  }

  /** Once every row of the scope is in the dictionary or pending, the
      rebuild leaves the scope a valid tree. */
  lemma FinishValid(t: Table, built: Built, s: nat, delete: bool, soft: bool, now: nat)
    requires Ready(built.table, s, built.existing, built.dict)
    requires Outside(built.table, s, built.existing, built.dict) == Outside(t, s, InScope(t, s).Keys, [])
    ensures ValidTree(Finish(built, s, delete, soft, now, None).table, s)
  {
    WholeCovered(t, s, built);
    var rest := built.existing;
    if rest != {} && delete && !soft {
      var t1 := built.table - rest;
      assert InScope(t1, s).Keys == MemberSet(built.dict);
      WholeValid(t1, t1, s, built.dict);
    } else {
      var d := PushRest(built.dict, KeyOrder(rest), built.table);
      var models := if delete && soft then Stamp(built.table, rest, now) else built.table;
      WholeValid(built.table, models, s, d);
    }
  }

  lemma RebuildUnfold(t: Table, s: nat, items: seq<Item>, delete: bool, soft: bool, now: nat)
    requires RebuildTree(t, s, items, delete, soft, now, None).Ok?
    ensures BuildFrom(t, s, items, None).Ok?
    ensures RebuildTree(t, s, items, delete, soft, now, None).value
      == Finish(BuildFrom(t, s, items, None).value, s, delete, soft, now, None)
  {
  }

  lemma WholeCovered(t: Table, s: nat, built: Built)
    requires Ready(built.table, s, built.existing, built.dict)
    requires Outside(built.table, s, built.existing, built.dict) == Outside(t, s, InScope(t, s).Keys, [])
    ensures InScope(built.table, s).Keys == MemberSet(built.dict) + built.existing
  {
    assert Outside(t, s, InScope(t, s).Keys, []) == {};
    var sc := InScope(built.table, s).Keys;
    forall k | k in MemberSet(built.dict) + built.existing
      ensures k in sc
    {
    }
    forall k | k in sc
      ensures k in MemberSet(built.dict) + built.existing
    {
      assert k !in Outside(built.table, s, built.existing, built.dict);
    }
  }

  /** The headline fact about `rebuildTree()`: when it does not fail, the
      scope comes out a valid tree, whatever it held and whatever the
      items say. */
  lemma RebuildValid(t: Table, s: nat, items: seq<Item>, delete: bool, soft: bool, now: nat)
    requires RebuildTree(t, s, items, delete, soft, now, None).Ok?
    ensures ValidTree(RebuildTree(t, s, items, delete, soft, now, None).value.table, s)
  {
    RebuildUnfold(t, s, items, delete, soft, now);
    FinishValid(t, BuildFrom(t, s, items, None).value, s, delete, soft, now);
  }

  /** Keys distinct and pending, for the keys named by the items. */
  predicate Accepted(ks: seq<Key>, existing: set<Key>) {
    Distinct(ks) && Elems(ks) <= existing
  }

  /** Acceptance of an item's key, its children's and the later items'
      keys, taken one part at a time. */
  lemma AcceptedSplit(head: seq<Key>, lc: seq<Key>, lr: seq<Key>, existing: set<Key>)
    requires |head| <= 1
    ensures Accepted(head + lc + lr, existing) <==>
      && Elems(head) <= existing
      && Accepted(lc, existing - Elems(head))
      && Accepted(lr, existing - Elems(head) - Elems(lc))
  {
    DistinctConcat(head + lc, lr);
    DistinctConcat(head, lc);
    assert Distinct(head);
  }

  /** The items are accepted exactly when the keys they name are distinct
      and all among the rows still pending: a key that names no loaded
      row, or one already taken by an earlier item, is `NotFound`. */
  lemma {:induction false} BuildFails(t: Table, s: nat, items: seq<Item>, existing: set<Key>, parent: Option<Key>, d: seq<Group>)
    requires Ready(t, s, existing, d)
    ensures BuildItems(t, s, items, existing, parent, d).Err? <==> !Accepted(Listed(items), existing)
    decreases items
  {
    if items != [] {
      var head := if items[0].key.Some? then [items[0].key.value] else [];
      var lc := Listed(items[0].children);
      var lr := Listed(items[1..]);
      assert Listed(items) == head + lc + lr;
      AcceptedSplit(head, lc, lr, existing);
      BuildItemsCons(t, s, items, existing, parent, d);
      var one := BuildItem(t, s, items[0].key, existing, parent, d);
      if one.Ok? {
        var b := one.value.0;
        var k := one.value.1;
        assert b.existing == existing - Elems(head);
        BuildFails(b.table, s, items[0].children, b.existing, Some(k), b.dict);
        var below := BuildItems(b.table, s, items[0].children, b.existing, Some(k), b.dict);
        if below.Ok? {
          BuildFails(below.value.table, s, items[1..], below.value.existing, parent, below.value.dict);
        }
      }
    }
  }

  /** Building from a non-empty list fails exactly when the first item,
      its children or the later items fail. */
  lemma BuildItemsCons(t: Table, s: nat, items: seq<Item>, existing: set<Key>, parent: Option<Key>, d: seq<Group>)
    requires Ready(t, s, existing, d) && items != []
    ensures var one := BuildItem(t, s, items[0].key, existing, parent, d);
      BuildItems(t, s, items, existing, parent, d).Err? <==>
        || one.Err?
        || (var below := BuildItems(one.value.0.table, s, items[0].children, one.value.0.existing, Some(one.value.1), one.value.0.dict);
            || below.Err?
            || BuildItems(below.value.table, s, items[1..], below.value.existing, parent, below.value.dict).Err?)
  {
  }

  /** `buildRebuildDictionary` up to the point where it throws: the state
      it has reached, and whether it threw. Every item before the bad key
      has already been saved, and `rebuildTree` opens no transaction, so
      those writes stay. */
  function BuildReach(t: Table, s: nat, items: seq<Item>, existing: set<Key>, parent: Option<Key>, d: seq<Group>): (r: (Built, bool))
    requires Ready(t, s, existing, d)
    ensures Ready(r.0.table, s, r.0.existing, r.0.dict)
    ensures Grows(t, r.0.table, s)
    decreases items
  {
    if items == [] then (Built(t, existing, d), false)
    else
      match BuildItem(t, s, items[0].key, existing, parent, d)
      case Err(_) => (Built(t, existing, d), true)
      case Ok(one) =>
        var below := BuildReach(one.0.table, s, items[0].children, one.0.existing, Some(one.1), one.0.dict);
        if below.1 then below
        else BuildReach(below.0.table, s, items[1..], below.0.existing, parent, below.0.dict)
  }

  /** The walk that stops at the throw is the walk of `BuildItems`: it
      throws exactly when `BuildItems` fails, and otherwise reaches its
      result. */
  lemma {:induction false} BuildReachAgrees(t: Table, s: nat, items: seq<Item>, existing: set<Key>, parent: Option<Key>, d: seq<Group>)
    requires Ready(t, s, existing, d)
    ensures BuildItems(t, s, items, existing, parent, d).Err? <==> BuildReach(t, s, items, existing, parent, d).1
    ensures BuildItems(t, s, items, existing, parent, d).Ok? ==>
      BuildItems(t, s, items, existing, parent, d).value == BuildReach(t, s, items, existing, parent, d).0
    decreases items
  {
    if items != [] {
      var one := BuildItem(t, s, items[0].key, existing, parent, d);
      if one.Ok? {
        var b := one.value.0;
        var k := one.value.1;
        BuildReachAgrees(b.table, s, items[0].children, b.existing, Some(k), b.dict);
        var below := BuildItems(b.table, s, items[0].children, b.existing, Some(k), b.dict);
        if below.Ok? {
          BuildReachAgrees(below.value.table, s, items[1..], below.value.existing, parent, below.value.dict);
        }
      }
    }
  }

  /** The table a failing `rebuildTree` leaves behind: the rows saved
      before the throw. Loaded rows only ever change their parent id, and
      any new row belongs to the scope. */
  function FailedRebuild(t: Table, s: nat, items: seq<Item>, root: Option<Key>): (r: Table)
    requires root.Some? ==> root.value in t && t[root.value].scope == s
    ensures Grows(t, r, s)
  {
    BuildReach(t, s, items, Selected(InScope(t, s), root), root, []).0.table
  }

  /** A rebuild fails exactly when the walk reaches a throw. */
  lemma RebuildFailsAtThrow(t: Table, s: nat, items: seq<Item>, delete: bool, soft: bool, now: nat, root: Option<Key>)
    requires root.Some? ==> root.value in t && t[root.value].scope == s
    ensures RebuildTree(t, s, items, delete, soft, now, root).Err? <==>
      BuildReach(t, s, items, Selected(InScope(t, s), root), root, []).1
  {
    BuildReachAgrees(t, s, items, Selected(InScope(t, s), root), root, []);
  }

  /** A rebuild of an empty table from a keyless item followed by an item
      naming a missing row: it fails, yet the new row of the first item
      has been saved and stays. */
  lemma FailedRebuildKeepsWrites()
    ensures var items := [Item(None, []), Item(Some(5), [])];
      && RebuildTree(map[], 0, items, false, false, 0, None).Err?
      && FailedRebuild(map[], 0, items, None) != map[]
      && 0 in FailedRebuild(map[], 0, items, None)
  {
    var items := [Item(None, []), Item(Some(5), [])];
    RebuildFailsAtThrow(map[], 0, items, false, false, 0, None);
    var first := BuildItem(map[], 0, None, {}, None, []);
    assert first.Ok? && first.value.1 == 0 && 0 in first.value.0.table;
    assert items[1..] == [Item(Some(5), [])];
  }

  /** `rebuildTree` fails, with `ModelNotFoundException`, exactly when the
      items name a key twice or a key that is not a row of the scope (or,
      for a subtree, not a row below its top). */
  lemma RebuildFails(t: Table, s: nat, items: seq<Item>, delete: bool, soft: bool, now: nat, root: Option<Key>)
    requires root.Some? ==> root.value in t && t[root.value].scope == s
    ensures var r := RebuildTree(t, s, items, delete, soft, now, root);
      && (r.Err? <==> !Accepted(Listed(items), Selected(InScope(t, s), root)))
      && (r.Err? ==> r.error == NotFound)
  {
    BuildFails(t, s, items, Selected(InScope(t, s), root), root, []);
  }

  /** With deletion asked for and no soft deletes, the rows of the scope
      that survive a whole rebuild are exactly the rows the items name. */
  lemma RebuildHardDeletes(t: Table, s: nat, items: seq<Item>, now: nat)
    requires RebuildTree(t, s, items, true, false, now, None).Ok?
    ensures var r := RebuildTree(t, s, items, true, false, now, None).value.table;
      forall k | k in InScope(t, s) :: k in r <==> k in Elems(Listed(items))
  {
    RebuildUnfold(t, s, items, true, false, now);
    HardFinishKeys(t, s, items, now);
  }

  /** A hard-deleting finish keeps exactly the rows the items name. */
  lemma HardFinishKeys(t: Table, s: nat, items: seq<Item>, now: nat)
    requires BuildFrom(t, s, items, None).Ok?
    ensures var built := BuildFrom(t, s, items, None).value;
      var r := Finish(built, s, true, false, now, None).table;
      forall k | k in InScope(t, s) :: k in r <==> k in Elems(Listed(items))
  {
    var built := BuildFrom(t, s, items, None).value;
    var r := Finish(built, s, true, false, now, None).table;
    FinishKeys(built, s, now);
    forall k | k in InScope(t, s)
      ensures k in r <==> k in Elems(Listed(items))
    {
      assert k in built.table;
    }
  }

  /** A hard-deleting finish drops exactly the pending rows. */
  lemma FinishKeys(built: Built, s: nat, now: nat)
    requires Ready(built.table, s, built.existing, built.dict)
    ensures Finish(built, s, true, false, now, None).table.Keys == built.table.Keys - built.existing
  {
  }

  /** What a whole rebuild leaves in the trash column when rows are kept:
      a row no item names is trashed by a soft-deleting rebuild with
      deletion asked for (keeping an earlier stamp), and every other row
      keeps the stamp it had. */
  lemma RebuildTrash(t: Table, s: nat, items: seq<Item>, delete: bool, soft: bool, now: nat)
    requires RebuildTree(t, s, items, delete, soft, now, None).Ok?
    requires !delete || soft
    ensures var r := RebuildTree(t, s, items, delete, soft, now, None).value.table;
      forall k | k in InScope(t, s) :: k in r &&
        r[k].deleted == if delete && k !in Elems(Listed(items)) && t[k].deleted == None then Some(now) else t[k].deleted
  {
    RebuildUnfold(t, s, items, delete, soft, now);
    var built := BuildFrom(t, s, items, None).value;
    var ls := Elems(Listed(items));
    KeptTrash(t, built, s, delete, soft, now);
    var r := Finish(built, s, delete, soft, now, None).table;
    forall k | k in InScope(t, s)
      ensures k in r && r[k].deleted == if delete && k !in ls && t[k].deleted == None then Some(now) else t[k].deleted
    {
      assert k in built.existing <==> k !in ls;
    }
  }

  lemma KeptTrash(t: Table, built: Built, s: nat, delete: bool, soft: bool, now: nat)
    requires Ready(built.table, s, built.existing, built.dict)
    requires Outside(built.table, s, built.existing, built.dict) == Outside(t, s, InScope(t, s).Keys, [])
    requires Grows(t, built.table, s)
    requires !delete || soft
    ensures var r := Finish(built, s, delete, soft, now, None).table;
      forall k | k in InScope(t, s) :: k in r &&
        r[k].deleted == if delete && k in built.existing && t[k].deleted == None then Some(now) else t[k].deleted
  {
    WholeCovered(t, s, built);
    var rest := built.existing;
    var d := PushRest(built.dict, KeyOrder(rest), built.table);
    var models := if delete && soft then Stamp(built.table, rest, now) else built.table;
    WholeSaved(built.table, models, s, d);
    forall k | k in InScope(t, s)
      ensures k in InScope(built.table, s)
    {
      assert built.table[k] == t[k].(parent := built.table[k].parent);
    }
  }

  /** The rows taken into the dictionary so far, each filed under the
      parent id the table gives it, `null` or a row taken before it. */
  predicate Filed(t: Table, d: seq<Group>, made: seq<Key>) {
    && Chain(t, made)
    && Elems(made) <= MemberSet(d)
    && forall j | 0 <= j < |made| :: InGroup(d, made[j], t[made[j]].parent)
  }

  /** Saving one item takes its row into the dictionary after the rows
      taken before, under the item's parent. */
  lemma FiledStep(t: Table, d: seq<Group>, made: seq<Key>, parent: Option<Key>, t': Table, k: Key)
    requires Filed(t, d, made) && k !in MemberSet(d)
    requires parent.Some? ==> parent.value in made
    requires forall j | j in t && j != k :: j in t' && t'[j] == t[j]
    requires k in t' && t'[k].parent == parent
    ensures Filed(t', Push(d, parent, k), made + [k])
  {
    var m := made + [k];
    var d' := Push(d, parent, k);
    forall i | 0 <= i < |m|
      ensures m[i] in t' && (t'[m[i]].parent.Some? ==> t'[m[i]].parent.value in m[..i])
      ensures InGroup(d', m[i], t'[m[i]].parent)
    {
      if i < |made| {
        assert m[i] == made[i] && m[..i] == made[..i];
        assert made[i] in MemberSet(d);
        PushKeeps(d, parent, k, made[i], t[made[i]].parent);
      } else {
        assert m[i] == k && m[..i] == made;
        FindPush(d, parent, k, parent);
      }
    }
    assert Elems(m) == Elems(made) + {k};
  }

  /** Building the dictionary takes every row an item names and every new
      row into the dictionary, each after the row of its parent item. */
  lemma {:induction false} BuildChain(t: Table, s: nat, items: seq<Item>, existing: set<Key>, parent: Option<Key>, d: seq<Group>, made: seq<Key>)
    returns (made': seq<Key>)
    requires Ready(t, s, existing, d) && Filed(t, d, made)
    requires parent.Some? ==> parent.value in made
    requires BuildItems(t, s, items, existing, parent, d).Ok?
    ensures var b := BuildItems(t, s, items, existing, parent, d).value;
      && Filed(b.table, b.dict, made') && made <= made'
      && Elems(Listed(items)) <= Elems(made')
      && forall k | k in b.table && k !in t :: k in made'
    decreases items
  {
    if items == [] {
      made' := made;
    } else {
      var one := BuildItem(t, s, items[0].key, existing, parent, d).value;
      var k := one.1;
      assert k !in MemberSet(d) by {
        if items[0].key.None? {
          assert k !in t;
        }
      }
      FiledStep(t, d, made, parent, one.0.table, k);
      var m1 := made + [k];
      var m2 := BuildChain(one.0.table, s, items[0].children, one.0.existing, Some(k), one.0.dict, m1);
      var below := BuildItems(one.0.table, s, items[0].children, one.0.existing, Some(k), one.0.dict).value;
      BuildItemsKeeps(one.0.table, s, items[0].children, one.0.existing, Some(k), one.0.dict);
      assert parent.Some? ==> parent.value in m2 by {
        assert made <= m2;
      }
      made' := BuildChain(below.table, s, items[1..], below.existing, parent, below.dict, m2);
      var b := BuildItems(below.table, s, items[1..], below.existing, parent, below.dict).value;
      BuildItemsKeeps(below.table, s, items[1..], below.existing, parent, below.dict);
      BuildChainCons(t, s, items, existing, parent, d, one.0, k, below, b);
      BuildChainElems(items, k, made, m1, m2, made');
      NewRowsMade(t, one.0.table, below.table, b.table, k, m1, m2, made');
    }
  }

  /** The rows new after three steps of the build are the new rows of
      each step. */
  lemma NewRowsMade(t: Table, t1: Table, t2: Table, t3: Table, k: Key, m1: seq<Key>, m2: seq<Key>, m3: seq<Key>)
    requires t.Keys <= t1.Keys <= t2.Keys <= t3.Keys
    requires t1.Keys <= t.Keys + {k} && k in m1
    requires forall j | j in t2 && j !in t1 :: j in m2
    requires forall j | j in t3 && j !in t2 :: j in m3
    requires m1 <= m2 <= m3
    ensures forall j | j in t3 && j !in t :: j in m3
  {
    forall j | j in t3 && j !in t
      ensures j in m3
    {
      if j in t2 {
        if j in t1 {
          assert j == k && k in m2;
        }
        assert j in m2;
      }
    }
  }

  lemma BuildChainCons(t: Table, s: nat, items: seq<Item>, existing: set<Key>, parent: Option<Key>, d: seq<Group>,
                       one: Built, k: Key, below: Built, b: Built)
    requires Ready(t, s, existing, d) && items != []
    requires BuildItem(t, s, items[0].key, existing, parent, d) == Ok((one, k))
    requires BuildItems(one.table, s, items[0].children, one.existing, Some(k), one.dict) == Ok(below)
    requires BuildItems(below.table, s, items[1..], below.existing, parent, below.dict) == Ok(b)
    ensures BuildItems(t, s, items, existing, parent, d) == Ok(b)
  {
  }

  lemma BuildChainElems(items: seq<Item>, k: Key, made: seq<Key>, m1: seq<Key>, m2: seq<Key>, made': seq<Key>)
    requires items != [] && (items[0].key.Some? ==> k == items[0].key.value)
    requires m1 == made + [k] && m1 <= m2 && m2 <= made'
    requires Elems(Listed(items[0].children)) <= Elems(m2)
    requires Elems(Listed(items[1..])) <= Elems(made')
    ensures made <= made'
    ensures Elems(Listed(items)) <= Elems(made')
  {
    var head := if items[0].key.Some? then [items[0].key.value] else [];
    assert Listed(items) == head + Listed(items[0].children) + Listed(items[1..]);
    assert k in m1 && k in m2;
    assert Elems(m2) <= Elems(made');
    assert made <= m1;
  }

  /** The entries of the dictionary keep their members when the rows no
      item named are pushed onto it. */
  lemma {:induction false} PushRestKeeps(d: seq<Group>, order: seq<Key>, t: Table, j: Key, p: Option<Key>)
    requires forall i | 0 <= i < |order| :: order[i] in t
    requires Inv(d) && Distinct(order) && MemberSet(d) !! Elems(order)
    requires InGroup(d, j, p)
    ensures InGroup(PushRest(d, order, t), j, p)
    decreases |order|
  {
    if order != [] {
      var d' := Push(d, t[order[0]].parent, order[0]);
      assert Elems(order) == {order[0]} + Elems(order[1..]);
      PushKeeps(d, t[order[0]].parent, order[0], j, p);
      PushRestKeeps(d', order[1..], t, j, p);
    }
  }

  /** After a successful `rebuildTree()` every row an item names and every
      new row hangs from the parent id its item gave it: `null` for a
      top-level item, the row of the enclosing item otherwise. */
  lemma RebuildParents(t: Table, s: nat, items: seq<Item>, delete: bool, soft: bool, now: nat)
    requires RebuildTree(t, s, items, delete, soft, now, None).Ok?
    ensures var b := BuildFrom(t, s, items, None).value;
      var r := RebuildTree(t, s, items, delete, soft, now, None).value.table;
      forall k | k in b.table && (k in Listed(items) || k !in t) :: k in r && r[k].parent == b.table[k].parent
  {
    RebuildUnfold(t, s, items, delete, soft, now);
    var sel := ReadyStart(t, s, items);
    BuiltParents(t, s, items, sel, BuildFrom(t, s, items, None).value, delete, soft, now);
  }

  /** The whole-tree build starts ready, with nothing filed, from the
      scope's keys. */
  lemma ReadyStart(t: Table, s: nat, items: seq<Item>) returns (sel: set<Key>)
    ensures Ready(t, s, sel, []) && Filed(t, [], [])
    ensures BuildFrom(t, s, items, None) == BuildItems(t, s, items, sel, None, [])
  {
    sel := Selected(InScope(t, s), None);
  }

  /** `RebuildParents` for the built result, once the build is known to
      succeed. */
  lemma BuiltParents(t: Table, s: nat, items: seq<Item>, sel: set<Key>, b: Built, delete: bool, soft: bool, now: nat)
    requires Ready(t, s, sel, []) && Filed(t, [], [])
    requires BuildItems(t, s, items, sel, None, []) == Ok(b) && BuildFrom(t, s, items, None) == Ok(b)
    ensures var r := Finish(b, s, delete, soft, now, None).table;
      forall k | k in b.table && (k in Listed(items) || k !in t) :: k in r && r[k].parent == b.table[k].parent
  {
    var made := BuildChain(t, s, items, sel, None, [], []);
    FinishChain(t, b, s, delete, soft, now, made);
    ChainCovers(items, t, b.table, Finish(b, s, delete, soft, now, None).table, made);
  }

  lemma ChainCovers(items: seq<Item>, t: Table, built: Table, r: Table, made: seq<Key>)
    requires Elems(Listed(items)) <= Elems(made)
    requires forall k | k in built && k !in t :: k in made
    requires forall k | k in made && k in built :: k in r && r[k].parent == built[k].parent
    ensures forall k | k in built && (k in Listed(items) || k !in t) :: k in r && r[k].parent == built[k].parent
  {
    forall k | k in built && (k in Listed(items) || k !in t)
      ensures k in made
    {
      if k in Listed(items) {
        assert k in Elems(Listed(items));
      }
    }
  }

  lemma FinishChain(t: Table, built: Built, s: nat, delete: bool, soft: bool, now: nat, made: seq<Key>)
    requires Ready(built.table, s, built.existing, built.dict)
    requires Outside(built.table, s, built.existing, built.dict) == Outside(t, s, InScope(t, s).Keys, [])
    requires Filed(built.table, built.dict, made)
    ensures var r := Finish(built, s, delete, soft, now, None).table;
      forall k | k in made :: k in r && r[k].parent == built.table[k].parent
  {
    WholeCovered(t, s, built);
    var rest := built.existing;
    if rest != {} && delete && !soft {
      var t1 := built.table - rest;
      assert InScope(t1, s).Keys == MemberSet(built.dict);
      ChainKept(t1, t1, s, built.dict, built.table, made);
    } else {
      var d := PushRest(built.dict, KeyOrder(rest), built.table);
      var models := if delete && soft then Stamp(built.table, rest, now) else built.table;
      forall j | 0 <= j < |made|
        ensures InGroup(d, made[j], built.table[made[j]].parent)
      {
        PushRestKeeps(built.dict, KeyOrder(rest), built.table, made[j], built.table[made[j]].parent);
      }
      ChainKept(built.table, models, s, d, built.table, made);
    }
  }

  /** The parent id each item naming a row gives that row, where the
      items say it: `parent` for a top-level item, the key of the
      enclosing item when it names one. Below an item without a key the
      parent is a new row, whose key the items do not know, so `known`
      turns off. */
  function Expected(items: seq<Item>, parent: Option<Key>, known: bool): (e: set<(Key, Option<Key>)>)
    ensures forall pr | pr in e :: pr.0 in Listed(items)
    decreases items
  {
    if items == [] then {}
    else
      var key := items[0].key;
      var here := if key.Some? && known then {(key.value, parent)} else {};
      var below := Expected(items[0].children, key, key.Some?);
      var later := Expected(items[1..], parent, known);
      var head := if key.Some? then [key.value] else [];
      assert Listed(items) == head + Listed(items[0].children) + Listed(items[1..]);
      here + below + later
  }

  /** Building the dictionary leaves the rows that are not pending as
      they were. */
  lemma {:induction false} BuildItemsFrozen(t: Table, s: nat, items: seq<Item>, existing: set<Key>, parent: Option<Key>, d: seq<Group>)
    requires Ready(t, s, existing, d)
    requires BuildItems(t, s, items, existing, parent, d).Ok?
    ensures var b := BuildItems(t, s, items, existing, parent, d).value;
      forall j | j in t && j !in existing :: j in b.table && b.table[j] == t[j]
    decreases items
  {
    if items != [] {
      var one := BuildItem(t, s, items[0].key, existing, parent, d).value;
      var k := one.1;
      BuildItemsFrozen(one.0.table, s, items[0].children, one.0.existing, Some(k), one.0.dict);
      var below := BuildItems(one.0.table, s, items[0].children, one.0.existing, Some(k), one.0.dict).value;
      BuildItemsFrozen(below.table, s, items[1..], below.existing, parent, below.dict);
      var b := BuildItems(below.table, s, items[1..], below.existing, parent, below.dict).value;
      BuildChainCons(t, s, items, existing, parent, d, one.0, k, below, b);
      forall j | j in t && j !in existing
        ensures j in b.table && b.table[j] == t[j]
      {
        assert j != k by {
          if items[0].key.None? {
            assert k !in t;
          }
        }
        assert one.0.table[j] == t[j];
      }
    }
  }

  /** Every row an item names takes the parent id the items give it. */
  lemma {:induction false} BuildExpected(t: Table, s: nat, items: seq<Item>, existing: set<Key>, parent: Option<Key>, d: seq<Group>,
                                         ep: Option<Key>, known: bool)
    requires Ready(t, s, existing, d)
    requires BuildItems(t, s, items, existing, parent, d).Ok?
    requires known ==> ep == parent
    ensures var b := BuildItems(t, s, items, existing, parent, d).value;
      forall pr | pr in Expected(items, ep, known) :: pr.0 in b.table && b.table[pr.0].parent == pr.1
    decreases items
  {
    if items != [] {
      var key := items[0].key;
      var one := BuildItem(t, s, key, existing, parent, d).value;
      var k := one.1;
      var below := BuildItems(one.0.table, s, items[0].children, one.0.existing, Some(k), one.0.dict).value;
      var b := BuildItems(below.table, s, items[1..], below.existing, parent, below.dict).value;
      BuildChainCons(t, s, items, existing, parent, d, one.0, k, below, b);
      BuildExpected(one.0.table, s, items[0].children, one.0.existing, Some(k), one.0.dict, key, key.Some?);
      BuildExpected(below.table, s, items[1..], below.existing, parent, below.dict, ep, known);
      BuildItemsFrozen(one.0.table, s, items[0].children, one.0.existing, Some(k), one.0.dict);
      BuildItemsFrozen(below.table, s, items[1..], below.existing, parent, below.dict);
      BuildItemsKeeps(one.0.table, s, items[0].children, one.0.existing, Some(k), one.0.dict);
      forall pr | pr in Expected(items, ep, known)
        ensures pr.0 in b.table && b.table[pr.0].parent == pr.1
      {
        if pr in Expected(items[0].children, key, key.Some?) {
          assert pr.0 in Listed(items[0].children);
          assert pr.0 !in below.existing;
        } else if pr !in Expected(items[1..], ep, known) {
          assert key.Some? && known && pr == (k, parent);
          assert k !in one.0.existing;
        }
      }
    }
  }

  /** After a successful `rebuildTree()` each row an item names hangs
      from the row of the item enclosing it, or is a root when the item is
      at the top level. */
  lemma RebuildUnderItems(t: Table, s: nat, items: seq<Item>, delete: bool, soft: bool, now: nat)
    requires RebuildTree(t, s, items, delete, soft, now, None).Ok?
    ensures var r := RebuildTree(t, s, items, delete, soft, now, None).value.table;
      forall pr | pr in Expected(items, None, true) :: pr.0 in r && r[pr.0].parent == pr.1
  {
    RebuildParents(t, s, items, delete, soft, now);
    RebuildUnfold(t, s, items, delete, soft, now);
    var sel := Selected(InScope(t, s), None);
    assert BuildFrom(t, s, items, None) == BuildItems(t, s, items, sel, None, []);
    BuildExpected(t, s, items, sel, None, [], None, true);
    ExpectedHolds(items, BuildFrom(t, s, items, None).value.table, RebuildTree(t, s, items, delete, soft, now, None).value.table, t);
  }

  lemma ExpectedHolds(items: seq<Item>, built: Table, r: Table, t: Table)
    requires forall pr | pr in Expected(items, None, true) :: pr.0 in built && built[pr.0].parent == pr.1
    requires forall k | k in built && (k in Listed(items) || k !in t) :: k in r && r[k].parent == built[k].parent
    ensures forall pr | pr in Expected(items, None, true) :: pr.0 in r && r[pr.0].parent == pr.1
  {
    forall pr | pr in Expected(items, None, true)
      ensures pr.0 in r && r[pr.0].parent == pr.1
    {
      assert pr.0 in Listed(items) && pr.0 in built;
    }
  }
}

=== FILE: renumber.dfy ===
/** `reorderNodes` of src/QueryBuilder.php: a depth-first walk of the
    dictionary that hands out consecutive bounds. Entering a model takes
    one number for its left bound, its children's entry is numbered next,
    and the following number is its right bound; the entry a walk starts
    from is consumed.

    The walk is modelled as a pair of mutually recursive functions and
    returns the consumed dictionary, the next free number and the bounds
    and parent given to every model it reached (as rows; scope and
    trash stamp are not the walk's business). The entry is removed before
    its members are walked where the source unsets it afterwards: no
    model lies in two entries, so no walk can reach an entry that is
    being walked, and the two agree.

    `Forest` is what a walk produces: the numbers from `lo` to `hi - 1`,
    two per model, forming a valid set of intervals whose top rows name
    `top` as their parent.
 */
module Renumber {
  import opened Types
  import opened Tree
  import opened Dictionary

  datatype Pass = Pass(dict: seq<Group>, cut: int, slots: Table)

  /** `rawNode($lft, $rgt, $parentId)` as the row it describes. */
  function Slot(lft: int, rgt: int, parent: Option<Key>): Row {
    Row(lft, rgt, parent, 0, None)
  }

  /** Row `c` of a walk's output names the walk's `top` and lies in no
      other row of the output, or names the nearest row containing it. */
  predicate ForestParent(a: Table, top: Option<Key>, c: Key)
    requires c in a
  {
    if a[c].parent == top then Uncontained(a, c)
    else a[c].parent.Some? && Nearest(a, a[c].parent.value, c)
  }

  /** The numbers from `lo` to `hi - 1` are the bounds of the rows, two
      per row. */
  predicate Spans(a: Table, lo: int, hi: int) {
    && hi - lo == 2 * |a.Keys|
    && (forall k | k in a :: lo <= a[k].lft && a[k].rgt < hi)
  }

  /** Well-formed, pairwise laminar intervals. */
  predicate Intervals(a: Table) {
    && (forall k {:trigger WellFormed(a[k])} | k in a :: WellFormed(a[k]))
    && (forall x, y {:trigger Laminar(a[x], a[y])} | x in a && y in a && x != y :: Laminar(a[x], a[y]))
  }

  predicate Parents(a: Table, top: Option<Key>) {
    forall c {:trigger ForestParent(a, top, c)} | c in a :: ForestParent(a, top, c)
  }

  predicate Forest(a: Table, top: Option<Key>, lo: int, hi: int) {
    Spans(a, lo, hi) && Intervals(a) && Parents(a, top)
  }

  /** A forest of roots is a valid table. */
  lemma RootForestValid(a: Table, lo: int, hi: int)
    requires Forest(a, None, lo, hi)
    ensures Valid(a)
  {
    forall c | c in a
      ensures ParentOk(a, c)
    {
      assert ForestParent(a, None, c);
    }
  }

  lemma WrapSpans(a: Table, m: Key, lo: int, hi: int, p: Option<Key>)
    requires Spans(a, lo + 1, hi) && m !in a
    ensures Spans(a[m := Slot(lo, hi, p)], lo, hi + 1)
  {
    var w := a[m := Slot(lo, hi, p)];
    assert w.Keys == a.Keys + {m};
  }

  lemma {:induction false} WrapIntervals(a: Table, m: Key, lo: int, hi: int, p: Option<Key>)
    requires Spans(a, lo + 1, hi) && Intervals(a) && m !in a
    ensures Intervals(a[m := Slot(lo, hi, p)])
  {
    var w := a[m := Slot(lo, hi, p)];
    forall x, y | x in w && y in w && x != y
      ensures Laminar(w[x], w[y])
    {
      if x != m && y != m {
        assert Laminar(a[x], a[y]);
      }
    }
    forall k | k in w
      ensures WellFormed(w[k])
    {
      if k != m {
        assert WellFormed(a[k]);
      }
    }
  }

  lemma {:induction false} WrapParents(a: Table, m: Key, lo: int, hi: int, p: Option<Key>)
    requires Spans(a, lo + 1, hi) && Parents(a, Some(m))
    requires m !in a && p != Some(m)
    requires p.Some? ==> p.value !in a
    ensures Parents(a[m := Slot(lo, hi, p)], p)
  {
    var w := a[m := Slot(lo, hi, p)];
    forall c | c in w
      ensures ForestParent(w, p, c)
    {
      if c == m {
        forall x | x in w
          ensures !Contains(w[x], w[m])
        {
        }
      } else {
        assert ForestParent(a, Some(m), c);
        if a[c].parent == Some(m) {
          forall x | x in w
            ensures !(Contains(w[m], w[x]) && Contains(w[x], w[c]))
          {
          }
        } else {
          var y := a[c].parent.value;
          assert Nearest(a, y, c);
          forall x | x in w
            ensures !(Contains(w[y], w[x]) && Contains(w[x], w[c]))
          {
          }
        }
      }
    }
  }

  /** Putting model `m` around the forest of its children. */
  lemma WrapForest(a: Table, m: Key, lo: int, hi: int, p: Option<Key>)
    requires Forest(a, Some(m), lo + 1, hi)
    requires m !in a && p != Some(m)
    requires p.Some? ==> p.value !in a
    ensures Forest(a[m := Slot(lo, hi, p)], p, lo, hi + 1)
  {
    WrapSpans(a, m, lo, hi, p);
    WrapIntervals(a, m, lo, hi, p);
    WrapParents(a, m, lo, hi, p);
  }

  lemma JoinSpans(a: Table, b: Table, lo: int, mid: int, hi: int)
    requires Spans(a, lo, mid) && Spans(b, mid, hi) && a.Keys !! b.Keys
    ensures Spans(a + b, lo, hi)
  {
    assert (a + b).Keys == a.Keys + b.Keys;
  }

  lemma {:induction false} JoinIntervals(a: Table, b: Table, lo: int, mid: int, hi: int)
    requires Spans(a, lo, mid) && Spans(b, mid, hi) && a.Keys !! b.Keys
    requires Intervals(a) && Intervals(b)
    ensures Intervals(a + b)
  {
    var j := a + b;
    forall x, y | x in j && y in j && x != y
      ensures Laminar(j[x], j[y])
    {
      if x in a && y in a {
        assert Laminar(a[x], a[y]);
      } else if x in b && y in b {
        assert Laminar(b[x], b[y]);
      }
    }
    forall k | k in j
      ensures WellFormed(j[k])
    {
      if k in a {
        assert WellFormed(a[k]);
      } else {
        assert WellFormed(b[k]);
      }
    }
  }

  /** Every row of `b` lies apart from every row of `a`. */
  predicate AllApart(a: Table, b: Table) {
    forall x, y | x in a && y in b :: Apart(a[x], b[y])
  }

  /** Adding rows that lie apart from a forest keeps what its rows' parent
      ids say true. */
  lemma {:induction false} ParentExtends(a: Table, j: Table, top: Option<Key>, c: Key)
    requires c in a && ForestParent(a, top, c) && Intervals(a)
    requires forall k | k in a :: k in j && j[k] == a[k]
    requires forall k, x | k in j && k !in a && x in a :: Apart(j[k], a[x])
    ensures ForestParent(j, top, c)
  {
    assert j[c] == a[c];
    assert WellFormed(a[c]);
    if a[c].parent == top {
      assert Uncontained(a, c);
      forall x | x in j
        ensures !Contains(j[x], j[c])
      {
        if x in a {
          assert j[x] == a[x];
          assert !Contains(a[x], a[c]);
        } else {
          assert Apart(j[x], a[c]);
        }
      }
    } else {
      var y := a[c].parent.value;
      assert Nearest(a, y, c);
      assert j[y] == a[y];
      forall x | x in j
        ensures !(Contains(j[y], j[x]) && Contains(j[x], j[c]))
      {
        if x in a {
          assert j[x] == a[x];
          assert !(Contains(a[y], a[x]) && Contains(a[x], a[c]));
        } else {
          assert Apart(j[x], a[c]);
        }
      }
    }
  }

  lemma {:induction false} JoinParents(a: Table, b: Table, top: Option<Key>, lo: int, mid: int, hi: int)
    requires Spans(a, lo, mid) && Spans(b, mid, hi) && a.Keys !! b.Keys
    requires Intervals(a) && Intervals(b)
    requires Parents(a, top) && Parents(b, top)
    ensures Parents(a + b, top)
  {
    var j := a + b;
    forall c | c in j
      ensures ForestParent(j, top, c)
    {
      if c in a {
        assert ForestParent(a, top, c);
        ParentExtends(a, j, top, c);
      } else {
        assert ForestParent(b, top, c);
        ParentExtends(b, j, top, c);
      }
    }
  }

  /** Two forests side by side, the second numbered after the first. */
  lemma JoinForest(a: Table, b: Table, top: Option<Key>, lo: int, mid: int, hi: int)
    requires Forest(a, top, lo, mid) && Forest(b, top, mid, hi)
    requires a.Keys !! b.Keys
    ensures Forest(a + b, top, lo, hi)
  {
    assert Intervals(a) && Intervals(b);
    JoinSpans(a, b, lo, mid, hi);
    JoinIntervals(a, b, lo, mid, hi);
    JoinParents(a, b, top, lo, mid, hi);
  }

  /** The members `ms` of an entry were all numbered, each one's
      interval ending before the next one's begins. */
  predicate GroupWalked(a: Table, ms: seq<Key>) {
    && (forall k | k in ms :: k in a)
    && (forall i, j | 0 <= i < j < |ms| && ms[i] in a && ms[j] in a :: a[ms[i]].rgt < a[ms[j]].lft)
  }

  /** Every row a walk numbered took the parent id of an entry of `d`
      that lists it. */
  predicate ParentsFrom(a: Table, d: seq<Group>) {
    forall k | k in a :: InGroup(d, k, a[k].parent)
  }

  /** Every entry of `d` the walk consumed (it is not in `d'`) was walked
      in full. */
  predicate Consumed(a: Table, d: seq<Group>, d': seq<Group>) {
    forall q | q in GroupKeys(d) && q !in GroupKeys(d') :: GroupWalked(a, Find(d, q).value)
  }

  /** The entries left over are entries of `d`, unchanged. */
  predicate Kept(d': seq<Group>, d: seq<Group>) {
    forall q | q in GroupKeys(d') :: Find(d', q) == Find(d, q)
  }

  /** The walk went below every row it numbered: the entry of each
      numbered row's children, when `d` had one, was consumed. */
  predicate Closed(a: Table, d: seq<Group>, d': seq<Group>) {
    forall k | k in a && Some(k) in GroupKeys(d) :: Some(k) !in GroupKeys(d')
  }

  /** The walk from the entry of `p`, numbering from `cut`. */
  function ReorderNodes(d: seq<Group>, p: Option<Key>, cut: int): (r: Pass)
    requires Inv(d)
    requires p.Some? ==> p.value !in MemberSet(d)
    ensures Inv(r.dict) && |r.dict| <= |d|
    ensures GroupKeys(r.dict) <= GroupKeys(d) - {p}
    ensures MemberSet(r.dict) <= MemberSet(d)
    ensures MemberSet(r.dict) + r.slots.Keys == MemberSet(d) && MemberSet(r.dict) !! r.slots.Keys
    ensures p !in GroupKeys(d) ==> r == Pass(d, cut, map[])
    ensures Forest(r.slots, p, cut, r.cut)
    ensures p in GroupKeys(d) ==> GroupWalked(r.slots, Find(d, p).value)
    ensures ParentsFrom(r.slots, d)
    ensures Consumed(r.slots, d, r.dict) && Kept(r.dict, d) && Closed(r.slots, d, r.dict)
    decreases |d|, 0, 0
  {
    match Find(d, p)
    case None => Pass(d, cut, map[])
    case Some(ms) =>
      FindRemove(d, p);
      var r := ReorderGroup(Remove(d, p), ms, p, cut);
      EntryGroups(d, p, ms, r);
      r
  }

  /** The walk over the members `ms` of the entry of `p`, numbering from
      `cut`; `d` is the dictionary without that entry. */
  function ReorderGroup(d: seq<Group>, ms: seq<Key>, p: Option<Key>, cut: int): (r: Pass)
    requires Inv(d) && Distinct(ms) && Elems(ms) !! MemberSet(d)
    requires p.Some? ==> p.value !in MemberSet(d) && p.value !in ms
    ensures Inv(r.dict) && |r.dict| <= |d|
    ensures GroupKeys(r.dict) <= GroupKeys(d)
    ensures MemberSet(r.dict) <= MemberSet(d)
    ensures MemberSet(r.dict) + r.slots.Keys == MemberSet(d) + Elems(ms) && MemberSet(r.dict) !! r.slots.Keys
    ensures Forest(r.slots, p, cut, r.cut)
    ensures GroupWalked(r.slots, ms)
    ensures forall k | k in r.slots :: (k in ms && r.slots[k].parent == p) || InGroup(d, k, r.slots[k].parent)
    ensures Consumed(r.slots, d, r.dict) && Kept(r.dict, d) && Closed(r.slots, d, r.dict)
    decreases |d|, 1, |ms|
  {
    if ms == [] then Pass(d, cut, map[])
    else
      var m := ms[0];
      var inner := ReorderNodes(d, Some(m), cut + 1);
      StepBefore(d, ms, p, inner);
      var rest := ReorderGroup(inner.dict, ms[1..], p, inner.cut + 1);
      var all := inner.slots[m := Slot(cut, inner.cut, p)] + rest.slots;
      StepOk(d, ms, p, cut, inner, rest, all);
      StepForest(m, p, cut, inner, rest);
      StepGroups(d, ms, p, cut, inner, rest, all);
      Pass(rest.dict, rest.cut, all)
  }

  /** The facts the walk over the remaining members needs once the first
      member's children are numbered. */
  lemma StepBefore(d: seq<Group>, ms: seq<Key>, p: Option<Key>, inner: Pass)
    requires Inv(d) && Distinct(ms) && Elems(ms) !! MemberSet(d) && ms != []
    requires p.Some? ==> p.value !in MemberSet(d) && p.value !in ms
    requires MemberSet(inner.dict) <= MemberSet(d)
    ensures Distinct(ms[1..]) && Elems(ms[1..]) !! MemberSet(inner.dict)
    ensures p.Some? ==> p.value !in MemberSet(inner.dict) && p.value !in ms[1..]
  {
    assert forall x | x in ms[1..] :: x in ms;
  }

  lemma UpdateKeys(a: Table, k: Key, r: Row)
    ensures a[k := r].Keys == a.Keys + {k}
  {
  }

  lemma UnionKeys(a: Table, b: Table)
    ensures (a + b).Keys == a.Keys + b.Keys
  {
  }

  /** What a walk over a non-empty group returns, from what the walk
      of its first member's children and the walk of the other members
      return. */
  lemma StepOk(d: seq<Group>, ms: seq<Key>, p: Option<Key>, cut: int, inner: Pass, rest: Pass, all: Table)
    requires Distinct(ms) && Elems(ms) !! MemberSet(d) && ms != []
    requires p.Some? ==> p.value !in MemberSet(d) && p.value !in ms
    requires MemberSet(inner.dict) <= MemberSet(d)
    requires MemberSet(inner.dict) + inner.slots.Keys == MemberSet(d) && MemberSet(inner.dict) !! inner.slots.Keys
    requires MemberSet(rest.dict) <= MemberSet(inner.dict)
    requires MemberSet(rest.dict) + rest.slots.Keys == MemberSet(inner.dict) + Elems(ms[1..])
    requires MemberSet(rest.dict) !! rest.slots.Keys
    requires all == inner.slots[ms[0] := Slot(cut, inner.cut, p)] + rest.slots
    ensures MemberSet(rest.dict) <= MemberSet(d)
    ensures MemberSet(rest.dict) + all.Keys == MemberSet(d) + Elems(ms)
    ensures MemberSet(rest.dict) !! all.Keys
    ensures ms[0] !in inner.slots && p != Some(ms[0])
    ensures p.Some? ==> p.value !in inner.slots
    ensures (inner.slots.Keys + {ms[0]}) !! rest.slots.Keys
  {
    var row := Slot(cut, inner.cut, p);
    var w := inner.slots[ms[0] := row];
    UpdateKeys(inner.slots, ms[0], row);
    UnionKeys(w, rest.slots);
    StepKeys(d, ms, p, inner, rest, all);
  }

  /** The two halves of a walk over a non-empty group fit together: the
      first member around its children's forest, then the forest of the
      other members. */
  lemma StepForest(m: Key, p: Option<Key>, cut: int, inner: Pass, rest: Pass)
    requires Forest(inner.slots, Some(m), cut + 1, inner.cut)
    requires Forest(rest.slots, p, inner.cut + 1, rest.cut)
    requires m !in inner.slots && p != Some(m)
    requires p.Some? ==> p.value !in inner.slots
    requires (inner.slots.Keys + {m}) !! rest.slots.Keys
    ensures Forest(inner.slots[m := Slot(cut, inner.cut, p)] + rest.slots, p, cut, rest.cut)
  {
    var w := inner.slots[m := Slot(cut, inner.cut, p)];
    WrapForest(inner.slots, m, cut, inner.cut, p);
    assert w.Keys == inner.slots.Keys + {m};
    JoinForest(w, rest.slots, p, cut, inner.cut + 1, rest.cut);
  }

  lemma StepKeys(d: seq<Group>, ms: seq<Key>, p: Option<Key>, inner: Pass, rest: Pass, all: Table)
    requires Distinct(ms) && Elems(ms) !! MemberSet(d) && ms != []
    requires p.Some? ==> p.value !in MemberSet(d) && p.value !in ms
    requires MemberSet(inner.dict) + inner.slots.Keys == MemberSet(d) && MemberSet(inner.dict) !! inner.slots.Keys
    requires MemberSet(rest.dict) <= MemberSet(inner.dict)
    requires MemberSet(rest.dict) + rest.slots.Keys == MemberSet(inner.dict) + Elems(ms[1..])
    requires MemberSet(rest.dict) !! rest.slots.Keys
    requires all.Keys == inner.slots.Keys + {ms[0]} + rest.slots.Keys
    ensures ms[0] !in inner.slots && p != Some(ms[0])
    ensures p.Some? ==> p.value !in inner.slots
    ensures (inner.slots.Keys + {ms[0]}) !! rest.slots.Keys
    ensures MemberSet(rest.dict) + all.Keys == MemberSet(d) + Elems(ms)
    ensures MemberSet(rest.dict) !! all.Keys
  {
    var m := ms[0];
    assert m in ms;
    assert Elems(ms) == {m} + Elems(ms[1..]);
    assert m !in ms[1..] by {
      forall i | 1 <= i < |ms|
        ensures ms[i] != m
      {
      }
    }
  }

  /** `b` holds every row of `a` unchanged. */
  predicate Extends(a: Table, b: Table) {
    forall k | k in a :: k in b && b[k] == a[k]
  }

  lemma WalkedExtends(a: Table, b: Table, ms: seq<Key>)
    requires GroupWalked(a, ms) && Extends(a, b)
    ensures GroupWalked(b, ms)
  {
    forall i, j | 0 <= i < j < |ms| && ms[i] in b && ms[j] in b
      ensures b[ms[i]].rgt < b[ms[j]].lft
    {
      assert ms[i] in a && ms[j] in a;
    }
  }

  /** The walk of the entry of `p` is the walk of its members over the
      dictionary without it. */
  lemma EntryGroups(d: seq<Group>, p: Option<Key>, ms: seq<Key>, r: Pass)
    requires Find(d, p) == Some(ms)
    requires GroupKeys(r.dict) <= GroupKeys(Remove(d, p))
    requires GroupWalked(r.slots, ms)
    requires forall k | k in r.slots :: (k in ms && r.slots[k].parent == p) || InGroup(Remove(d, p), k, r.slots[k].parent)
    requires Consumed(r.slots, Remove(d, p), r.dict) && Kept(r.dict, Remove(d, p)) && Closed(r.slots, Remove(d, p), r.dict)
    ensures ParentsFrom(r.slots, d)
    ensures Consumed(r.slots, d, r.dict) && Kept(r.dict, d) && Closed(r.slots, d, r.dict)
  {
    var e := Remove(d, p);
    forall q
      ensures Find(e, q) == if q == p then None else Find(d, q)
    {
      FindRemoveOther(d, p, q);
    }
    forall k | k in r.slots
      ensures InGroup(d, k, r.slots[k].parent)
    {
      if !(k in ms && r.slots[k].parent == p) {
        assert InGroup(e, k, r.slots[k].parent);
      }
    }
    forall q | q in GroupKeys(d) && q !in GroupKeys(r.dict)
      ensures GroupWalked(r.slots, Find(d, q).value)
    {
      if q != p {
        assert q in GroupKeys(e);
      }
    }
    forall k | k in r.slots && Some(k) in GroupKeys(d)
      ensures Some(k) !in GroupKeys(r.dict)
    {
      if Some(k) != p {
        assert Some(k) in GroupKeys(e);
      }
    }
  }

  /** The walk over a non-empty group numbers the members in order and
      keeps the facts about entries that the two inner walks state. */
  lemma StepGroups(d: seq<Group>, ms: seq<Key>, p: Option<Key>, cut: int, inner: Pass, rest: Pass, all: Table)
    requires ms != []
    requires Spans(rest.slots, inner.cut + 1, rest.cut)
    requires ms[0] !in inner.slots && (inner.slots.Keys + {ms[0]}) !! rest.slots.Keys
    requires all == inner.slots[ms[0] := Slot(cut, inner.cut, p)] + rest.slots
    requires GroupKeys(inner.dict) <= GroupKeys(d) - {Some(ms[0])}
    requires ParentsFrom(inner.slots, d)
    requires Consumed(inner.slots, d, inner.dict) && Kept(inner.dict, d) && Closed(inner.slots, d, inner.dict)
    requires GroupKeys(rest.dict) <= GroupKeys(inner.dict)
    requires GroupWalked(rest.slots, ms[1..])
    requires forall k | k in rest.slots :: (k in ms[1..] && rest.slots[k].parent == p) || InGroup(inner.dict, k, rest.slots[k].parent)
    requires Consumed(rest.slots, inner.dict, rest.dict) && Kept(rest.dict, inner.dict) && Closed(rest.slots, inner.dict, rest.dict)
    ensures GroupWalked(all, ms)
    ensures forall k | k in all :: (k in ms && all[k].parent == p) || InGroup(d, k, all[k].parent)
    ensures Consumed(all, d, rest.dict) && Kept(rest.dict, d) && Closed(all, d, rest.dict)
  {
    StepExtends(ms[0], Slot(cut, inner.cut, p), inner.slots, rest.slots, all);
    StepWalked(ms, p, cut, inner, rest, all);
    StepParents(d, ms, p, cut, inner, rest, all);
    forall q | q in GroupKeys(rest.dict)
      ensures Find(rest.dict, q) == Find(d, q)
    {
      assert q in GroupKeys(inner.dict);
    }
    forall q | q in GroupKeys(d) && q !in GroupKeys(rest.dict)
      ensures GroupWalked(all, Find(d, q).value)
    {
      if q in GroupKeys(inner.dict) {
        WalkedExtends(rest.slots, all, Find(inner.dict, q).value);
      } else {
        WalkedExtends(inner.slots, all, Find(d, q).value);
      }
    }
    forall k | k in all && Some(k) in GroupKeys(d)
      ensures Some(k) !in GroupKeys(rest.dict)
    {
      if k in rest.slots && Some(k) in GroupKeys(inner.dict) {
      }
    }
  }

  lemma StepExtends(m: Key, row: Row, a: Table, b: Table, all: Table)
    requires m !in a && (a.Keys + {m}) !! b.Keys
    requires all == a[m := row] + b
    ensures Extends(a, all) && Extends(b, all)
    ensures m in all && all[m] == row
  {
  }

  lemma StepWalked(ms: seq<Key>, p: Option<Key>, cut: int, inner: Pass, rest: Pass, all: Table)
    requires ms != []
    requires Spans(rest.slots, inner.cut + 1, rest.cut)
    requires GroupWalked(rest.slots, ms[1..])
    requires Extends(rest.slots, all)
    requires ms[0] in all && all[ms[0]] == Slot(cut, inner.cut, p)
    ensures GroupWalked(all, ms)
  {
    var tail := ms[1..];
    forall k | k in ms
      ensures k in all
    {
      if k != ms[0] {
        assert k in tail;
      }
    }
    forall i, j | 0 <= i < j < |ms| && ms[i] in all && ms[j] in all
      ensures all[ms[i]].rgt < all[ms[j]].lft
    {
      assert ms[j] == tail[j - 1] && ms[j] in rest.slots;
      if i > 0 {
        assert ms[i] == tail[i - 1] && ms[i] in rest.slots;
      }
    }
  }

  lemma StepParents(d: seq<Group>, ms: seq<Key>, p: Option<Key>, cut: int, inner: Pass, rest: Pass, all: Table)
    requires ms != []
    requires ms[0] !in inner.slots && (inner.slots.Keys + {ms[0]}) !! rest.slots.Keys
    requires all == inner.slots[ms[0] := Slot(cut, inner.cut, p)] + rest.slots
    requires ParentsFrom(inner.slots, d) && Kept(inner.dict, d)
    requires forall k | k in rest.slots :: (k in ms[1..] && rest.slots[k].parent == p) || InGroup(inner.dict, k, rest.slots[k].parent)
    ensures forall k | k in all :: (k in ms && all[k].parent == p) || InGroup(d, k, all[k].parent)
  {
    forall k | k in all
      ensures (k in ms && all[k].parent == p) || InGroup(d, k, all[k].parent)
    {
      if k in rest.slots {
        assert all[k] == rest.slots[k];
        if InGroup(inner.dict, k, rest.slots[k].parent) {
          assert rest.slots[k].parent in GroupKeys(inner.dict);
        } else {
          assert k in ms;
        }
      } else if k != ms[0] {
        assert all[k] == inner.slots[k];
      }
    }
  }
}

=== FILE: subtree_fix.dfy ===
/** `fixSubtree($root)` of src/QueryBuilder.php, and what goes wrong with
    it when the subtree grows.

    When the walk under the top ends past the top's right bound, the source
    first calls `makeGap`, which shifts the stored bounds of every row of
    the scope at or past the top's old right bound plus one, and then saves
    the walked models. Those models were loaded before the gap, and
    Eloquent writes only the columns that differ from what was loaded: a
    walked row whose computed bound equals its loaded bound keeps the
    shifted value in the table. `FixTree` in `Fix` follows the code as
    written; `FixSubtreeWritten` below writes every computed bound, which
    is what the renumbering evidently intends.
 */
module SubtreeFix {
  import opened Types
  import opened Bounds
  import opened Tree
  import opened Dictionary
  import opened Renumber
  import opened Fix

  /** The dictionary `fixSubtree` hands to `fixNodes` for top `n`. */
  function SubtreeDict(t: Table, s: nat, n: Key): (d: seq<Group>)
    requires n in t && t[n].scope == s
    ensures Inv(d) && MemberSet(d) == Selected(InScope(t, s), Some(n))
  {
    var u := InScope(t, s);
    GroupBy(LftOrder(u, Selected(u, Some(n))), u)
  }

  /** `fixSubtree` with every walked row written with the bounds and parent
      the walk computed, after the gap. */
  function FixSubtreeWritten(t: Table, s: nat, n: Key): (r: Fixed)
    requires n in t && t[n].scope == s
    ensures r.table.Keys == t.Keys
  {
    Settle(t, s, n, Walk(SubtreeDict(t, s, n), Some(n), t[n].lft + 1))
  }

  /** The writes after walk `w`: the gap when the subtree grew or shrank,
      then the walked rows and the top. */
  function Settle(t: Table, s: nat, n: Key, w: (int, Table)): (r: Fixed)
    requires n in t
    ensures r.table.Keys == t.Keys
  {
    SettleWith(t, n, w, MakeGap(t, s, t[n].rgt + 1, w.0 - t[n].rgt))
  }

  /** `Settle` with the table `makeGap` would leave, used only when the
      subtree's right bound changed. */
  function SettleWith(t: Table, n: Key, w: (int, Table), gap: (Table, nat)): (r: Fixed)
    requires n in t && gap.0.Keys == t.Keys
    ensures r.table.Keys == t.Keys
  {
    if w.0 != t[n].rgt then Grow(gap, w.1, n, Slot(t[n].lft, w.0, t[n].parent))
    else Land(t, w.1, n, t[n], 0)
  }

  /** The writes after a gap: the rows it moved count as written too. */
  function Grow(gap: (Table, nat), slots: Table, n: Key, own: Row): (r: Fixed)
    requires n in gap.0
    ensures r.table.Keys == gap.0.Keys
  {
    Land(gap.0, slots, n, own, 1 + gap.1)
  }

  /** The walked rows and then the top written onto table `now`; `extra`
      counts the top and the rows the gap moved. */
  function Land(now: Table, slots: Table, n: Key, own: Row, extra: nat): (r: Fixed)
    requires n in now
    ensures r.table.Keys == now.Keys
  {
    var saved := WriteAll(now, slots);
    Fixed(saved[n := Place(saved[n], own)], |DirtyKeys(now, now, slots)| + extra)
  }

  function WriteAll(t: Table, slots: Table): (r: Table)
    ensures r.Keys == t.Keys
    ensures forall k | k in t && k in slots :: r[k] == Place(t[k], slots[k])
    ensures forall k | k in t && k !in slots :: r[k] == t[k]
  {
    map k | k in t :: if k in slots then Place(t[k], slots[k]) else t[k]
  }

  /** What the written subtree fix establishes: the walked rows are laid
      out as a forest hanging from the top, numbered from the top's left
      bound plus one, the top now ends right after them, and every walked
      row holds exactly what the walk computed for it. */
  lemma WrittenLands(t: Table, s: nat, n: Key)
    requires n in t && t[n].scope == s
    ensures var w := Walk(SubtreeDict(t, s, n), Some(n), t[n].lft + 1);
      var r := FixSubtreeWritten(t, s, n).table;
      && Forest(w.1, Some(n), t[n].lft + 1, w.0)
      && w.1.Keys <= Selected(InScope(t, s), Some(n))
      && r[n].lft == t[n].lft && r[n].rgt == w.0 && r[n].parent == t[n].parent
      && forall k | k in w.1 :: r[k].lft == w.1[k].lft && r[k].rgt == w.1[k].rgt && r[k].parent == w.1[k].parent
  {
    var d := SubtreeDict(t, s, n);
    var w := Walk(d, Some(n), t[n].lft + 1);
    WalkForest(d, Some(n), t[n].lft + 1);
    WrittenIs(t, s, n);
    assert w.1.Keys <= Selected(InScope(t, s), Some(n));
    SettleLands(t, s, n, w);
  }

  /** The top ends where the walk ended, and every walked row holds what
      the walk computed for it, whether or not a gap was made first. */
  lemma SettleLands(t: Table, s: nat, n: Key, w: (int, Table))
    requires n in t && n !in w.1 && w.1.Keys <= t.Keys
    ensures var r := Settle(t, s, n, w).table;
      && r[n].lft == t[n].lft && r[n].rgt == w.0 && r[n].parent == t[n].parent
      && forall k | k in w.1 :: r[k].lft == w.1[k].lft && r[k].rgt == w.1[k].rgt && r[k].parent == w.1[k].parent
  {
  }

  /** A scope whose last child starts at its parent's right bound. The
      lemmas from here to `CrossedMended` evaluate the fix on it one step
      at a time, for the two lemmas that close the module. */
  function Crossed(): Table {
    map[1 := Row(1, 4, None, 0, None), 2 := Row(2, 3, Some(1), 0, None), 3 := Row(4, 5, Some(1), 0, None)]
  }

  lemma CrossedOrder()
    ensures LftOrder(Crossed(), {2, 3}) == [2, 3]
  {
    var u := Crossed();
    var o := LftOrder(u, {2, 3});
    assert Before(u, 2, 3) && !Before(u, 3, 2);
    assert |o| == 2 by { DistinctCard(o); }
    assert o[0] == 2;
  }

  lemma CrossedDict()
    ensures SubtreeDict(Crossed(), 0, 1) == [Group(Some(1), [2, 3])]
  {
    var t := Crossed();
    var u := InScope(t, 0);
    assert u == t;
    assert Selected(u, Some(1)) == {2, 3};
    CrossedOrder();
    assert [2, 3][..1] == [2];
    assert GroupBy([2], u) == [Group(Some(1), [2])];
  }

  lemma CrossedLeaf(m: Key, cut: int)
    ensures ReorderNodes([], Some(m), cut) == Pass([], cut, map[])
  {
  }

  lemma CrossedLast()
    ensures ReorderGroup([], [3], Some(1), 4) == Pass([], 6, map[3 := Slot(4, 5, Some(1))])
  {
    CrossedLeaf(3, 5);
    assert ReorderGroup([], [], Some(1), 6) == Pass([], 6, map[]);
  }

  lemma CrossedGroup()
    ensures ReorderGroup([], [2, 3], Some(1), 2) == Pass([], 6, CrossedSlots())
  {
    CrossedLeaf(2, 3);
    CrossedLast();
    assert [2, 3][1..] == [3];
    CrossedJoin();
  }

  lemma CrossedJoin()
    ensures map[][2 := Slot(2, 3, Some(1))] + map[3 := Slot(4, 5, Some(1))] == CrossedSlots()
  {
  }

  lemma CrossedTop()
    ensures ReorderNodes([Group(Some(1), [2, 3])], Some(1), 2) == Pass([], 6, CrossedSlots())
  {
    var d := [Group(Some(1), [2, 3])];
    CrossedGroup();
    assert Find(d, Some(1)) == Some([2, 3]);
    assert Remove(d, Some(1)) == [];
  }

  /** The walk under row 1 of `Crossed()`: the children keep their bounds
      and the walk ends at 6, past the top's right bound 4. */
  lemma CrossedWalk()
    ensures Walk([Group(Some(1), [2, 3])], Some(1), 2)
      == (6, CrossedSlots())
  {
    CrossedDictOk();
    CrossedTop();
    WalkConsumed([Group(Some(1), [2, 3])], Some(1), 2, 6, CrossedSlots());
  }

  lemma CrossedDictOk()
    ensures Inv([Group(Some(1), [2, 3])]) && 1 !in MemberSet([Group(Some(1), [2, 3])])
  {
    var d := [Group(Some(1), [2, 3])];
    assert d[1..] == [];
    assert MemberSet(d) == Elems([2, 3]);
  }

  /** A walk whose first pass consumes the whole dictionary is that
      pass. */
  lemma WalkConsumed(d: seq<Group>, top: Option<Key>, cut: int, end: int, slots: Table)
    requires Inv(d) && (top.Some? ==> top.value !in MemberSet(d))
    requires ReorderNodes(d, top, cut) == Pass([], end, slots)
    ensures Walk(d, top, cut) == (end, slots)
  {
    NoOrphans(top, end);
    UnionEmpty(slots);
  }

  lemma UnionEmpty(a: Table)
    ensures a + map[] == a
  {
  }

  lemma NoOrphans(top: Option<Key>, cut: int)
    ensures Orphans([], top, cut) == (cut, map[])
  {
  }

  /** The table `makeGap(5, 2)` leaves: row 3's right bound moves to 7. */
  lemma CrossedGap()
    ensures MakeGap(Crossed(), 0, 5, 2).0
      == map[1 := Row(1, 4, None, 0, None), 2 := Row(2, 3, Some(1), 0, None), 3 := Row(4, 7, Some(1), 0, None)]
  {
    var t := Crossed();
    GapOneScope(t, 0, 5, 2);
    var g := GapRows(t, 5, 2);
    assert g[1] == t[1] && g[2] == t[2] && g[3] == Row(4, 7, Some(1), 0, None);
    TablesEqual(g, map[1 := Row(1, 4, None, 0, None), 2 := Row(2, 3, Some(1), 0, None), 3 := Row(4, 7, Some(1), 0, None)]);
  }

  /** The numbering the walk computes for `Crossed()`. */
  function CrossedSlots(): Table {
    map[2 := Slot(2, 3, Some(1)), 3 := Slot(4, 5, Some(1))]
  }

  lemma SubtreeDictUsed(t: Table, s: nat, n: Key)
    requires n in t && t[n].scope == s
    ensures FixTree(t, s, Some(n)) == FixNodes(t, t, s, SubtreeDict(t, s, n), Some(n))
  {
  }

  lemma CrossedFixNodes()
    ensures FixTree(Crossed(), 0, Some(1)) == Grown(Crossed(), Crossed(), 0, CrossedSlots(), 1, 6)
  {
    var t := Crossed();
    var d := [Group(Some(1), [2, 3])];
    CrossedDict();
    SubtreeDictUsed(t, 0, 1);
    CrossedWalk();
  }

  lemma CrossedWritten()
    ensures FixSubtreeWritten(Crossed(), 0, 1)
      == Land(MakeGap(Crossed(), 0, 5, 2).0, CrossedSlots(), 1, Slot(1, 6, None), 1 + MakeGap(Crossed(), 0, 5, 2).1)
  {
    WrittenIs(Crossed(), 0, 1);
    CrossedWalked();
    CrossedSettled();
  }

  lemma WrittenIs(t: Table, s: nat, n: Key)
    requires n in t && t[n].scope == s
    ensures FixSubtreeWritten(t, s, n) == Settle(t, s, n, Walk(SubtreeDict(t, s, n), Some(n), t[n].lft + 1))
  {
  }

  lemma CrossedWalked()
    ensures Walk(SubtreeDict(Crossed(), 0, 1), Some(1), Crossed()[1].lft + 1) == (6, CrossedSlots())
  {
    CrossedDict();
    CrossedWalk();
  }

  lemma CrossedSettled()
    ensures Settle(Crossed(), 0, 1, (6, CrossedSlots()))
      == Land(MakeGap(Crossed(), 0, 5, 2).0, CrossedSlots(), 1, Slot(1, 6, None), 1 + MakeGap(Crossed(), 0, 5, 2).1)
  {
    SettleGrowing(Crossed(), 1, (6, CrossedSlots()), MakeGap(Crossed(), 0, 5, 2));
    GrowIs(MakeGap(Crossed(), 0, 5, 2), CrossedSlots(), 1, Slot(1, 6, None));
  }

  /** The writes when the walk ends past the top's right bound. */
  lemma SettleGrowing(t: Table, n: Key, w: (int, Table), gap: (Table, nat))
    requires n in t && gap.0.Keys == t.Keys && w.0 != t[n].rgt
    ensures SettleWith(t, n, w, gap) == Grow(gap, w.1, n, Slot(t[n].lft, w.0, t[n].parent))
  {
  }

  lemma GrowIs(gap: (Table, nat), slots: Table, n: Key, own: Row)
    requires n in gap.0
    ensures Grow(gap, slots, n, own) == Land(gap.0, slots, n, own, 1 + gap.1)
  {
  }

  /** Saving when no model is dirty writes nothing. */
  lemma SaveClean(t: Table, models: Table, now: Table, slots: Table)
    requires now.Keys == t.Keys && DirtyKeys(t, models, slots) == {}
    ensures SaveAll(t, models, now, slots) == now
  {
  }

  lemma CrossedClean()
    ensures DirtyKeys(Crossed(), Crossed(), CrossedSlots()) == {}
  {
    var t := Crossed();
    assert !Dirty(t[2], Place(t[2], CrossedSlots()[2])) && !Dirty(t[3], Place(t[3], CrossedSlots()[3]));
  }

  /** What `Grown` writes when no walked model is dirty. */
  lemma GrownClean(t: Table, models: Table, s: nat, slots: Table, n: Key, end: int)
    requires ModelsOf(t, models, s, slots.Keys)
    requires n in t && t[n].scope == s
    requires DirtyKeys(t, models, slots) == {}
    ensures var g := MakeGap(t, s, t[n].rgt + 1, end - t[n].rgt).0;
      Grown(t, models, s, slots, n, end).table == g[n := SaveRow(t[n], g[n], Place(t[n], Slot(t[n].lft, end, t[n].parent)))]
  {
    var g := MakeGap(t, s, t[n].rgt + 1, end - t[n].rgt).0;
    SaveClean(t, models, g, slots);
  }

  lemma CrossedGrownTop()
    ensures Grown(Crossed(), Crossed(), 0, CrossedSlots(), 1, 6).table == MakeGap(Crossed(), 0, 5, 2).0[1 := Row(1, 6, None, 0, None)]
  {
    var t := Crossed();
    CrossedModels();
    CrossedClean();
    GrownClean(t, t, 0, CrossedSlots(), 1, 6);
    var g := MakeGap(t, 0, 5, 2).0;
    CrossedGap();
    TopSaved(t[1], g[1]);
  }

  lemma CrossedModels()
    ensures ModelsOf(Crossed(), Crossed(), 0, CrossedSlots().Keys)
  {
  }

  /** The top of `Crossed()`, untouched by the gap, takes its new right
      bound. */
  lemma TopSaved(loaded: Row, now: Row)
    requires loaded == Row(1, 4, None, 0, None) && now == loaded
    ensures SaveRow(loaded, now, Place(loaded, Slot(loaded.lft, 6, loaded.parent))) == Row(1, 6, None, 0, None)
  {
  }

  lemma CrossedGrown()
    ensures Grown(Crossed(), Crossed(), 0, CrossedSlots(), 1, 6).table
      == map[1 := Row(1, 6, None, 0, None), 2 := Row(2, 3, Some(1), 0, None), 3 := Row(4, 7, Some(1), 0, None)]
  {
    CrossedGrownTop();
    CrossedGap();
    TopUpdate(Row(1, 4, None, 0, None), Row(1, 6, None, 0, None), Row(2, 3, Some(1), 0, None), Row(4, 7, Some(1), 0, None));
  }

  lemma TopUpdate(a: Row, a': Row, b: Row, c: Row)
    ensures map[1 := a, 2 := b, 3 := c][1 := a'] == map[1 := a', 2 := b, 3 := c]
  {
  }

  lemma CrossedLand()
    ensures Land(MakeGap(Crossed(), 0, 5, 2).0, CrossedSlots(), 1, Slot(1, 6, None), 1 + MakeGap(Crossed(), 0, 5, 2).1).table
      == map[1 := Row(1, 6, None, 0, None), 2 := Row(2, 3, Some(1), 0, None), 3 := Row(4, 5, Some(1), 0, None)]
  {
    var g := map[1 := Row(1, 4, None, 0, None), 2 := Row(2, 3, Some(1), 0, None), 3 := Row(4, 7, Some(1), 0, None)];
    CrossedGap();
    LandTable(MakeGap(Crossed(), 0, 5, 2).0, CrossedSlots(), 1, Slot(1, 6, None), 1 + MakeGap(Crossed(), 0, 5, 2).1);
    CrossedRewritten(g);
    assert Place(Crossed()[1], Slot(1, 6, None)) == Row(1, 6, None, 0, None);
    TopUpdate(Row(1, 4, None, 0, None), Row(1, 6, None, 0, None), Row(2, 3, Some(1), 0, None), Row(4, 5, Some(1), 0, None));
  }

  lemma LandTable(now: Table, slots: Table, n: Key, own: Row, extra: nat)
    requires n in now
    ensures Land(now, slots, n, own, extra).table == WriteAll(now, slots)[n := Place(WriteAll(now, slots)[n], own)]
  {
  }

  /** Writing the walk's bounds over the gapped table restores `Crossed()`. */
  lemma CrossedRewritten(g: Table)
    requires g == map[1 := Row(1, 4, None, 0, None), 2 := Row(2, 3, Some(1), 0, None), 3 := Row(4, 7, Some(1), 0, None)]
    ensures WriteAll(g, CrossedSlots()) == Crossed()
  {
    var r := WriteAll(g, CrossedSlots());
    assert r.Keys == {1, 2, 3};
    assert r[1] == Crossed()[1] && r[2] == Crossed()[2] && r[3] == Crossed()[3];
  }

  lemma CrossedBroken()
    ensures !ValidTree(map[1 := Row(1, 6, None, 0, None), 2 := Row(2, 3, Some(1), 0, None), 3 := Row(4, 7, Some(1), 0, None)], 0)
  {
    var r := map[1 := Row(1, 6, None, 0, None), 2 := Row(2, 3, Some(1), 0, None), 3 := Row(4, 7, Some(1), 0, None)];
    assert InScope(r, 0) == r;
    assert !Laminar(r[1], r[3]);
  }

  lemma CrossedMended()
    ensures ValidTree(map[1 := Row(1, 6, None, 0, None), 2 := Row(2, 3, Some(1), 0, None), 3 := Row(4, 5, Some(1), 0, None)], 0)
  {
    var r := map[1 := Row(1, 6, None, 0, None), 2 := Row(2, 3, Some(1), 0, None), 3 := Row(4, 5, Some(1), 0, None)];
    assert InScope(r, 0) == r;
    assert ParentOk(r, 1) && ParentOk(r, 2) && ParentOk(r, 3);
  }

  /** As written, fixing the subtree of row 1 in `Crossed()` saves the top
      as [1, 6] but leaves row 3 at [4, 7], where the gap put it: row 3 is
      not where the walk placed it, and the scope is no longer a tree. */
  lemma SubtreeGapCrosses()
    ensures var r := FixTree(Crossed(), 0, Some(1)).table;
      && r == map[1 := Row(1, 6, None, 0, None), 2 := Row(2, 3, Some(1), 0, None), 3 := Row(4, 7, Some(1), 0, None)]
      && r[3].rgt != CrossedSlots()[3].rgt
      && !ValidTree(r, 0)
  {
    CrossedFixNodes();
    CrossedGrown();
    CrossedBroken();
  }

  /** Writing the computed bounds in full lays the same scope out as a
      tree. */
  lemma SubtreeWrittenHolds()
    ensures var r := FixSubtreeWritten(Crossed(), 0, 1).table;
      && r == map[1 := Row(1, 6, None, 0, None), 2 := Row(2, 3, Some(1), 0, None), 3 := Row(4, 5, Some(1), 0, None)]
      && ValidTree(r, 0)
  {
    CrossedWritten();
    CrossedLand();
    CrossedMended();
  }
}

=== FILE: tree.dfy ===
/** What a correct nested-set table is, and the three structural facts the
    tree operations rely on: rewriting bounds through an order-preserving
    map keeps a tree valid, removing a closed set of rows keeps it valid,
    and a valid block dropped into a gap under its nearest enclosing node
    keeps it valid.

    A table is valid when every interval is well formed (`lft < rgt` with an
    odd difference, so the two bounds of every node are distinct and leave
    room for an even number of descendant bounds), any two intervals are
    disjoint or strictly nested, and every row's `parent` names the nearest
    row whose interval strictly contains it (a root is contained in none).
    Whether a row is soft-deleted plays no part: trashed rows keep their
    bounds and take part in every bound rewrite.
 */
module Tree {
  import opened Types

  predicate WellFormed(r: Row) {
    r.lft < r.rgt && (r.rgt - r.lft) % 2 == 1
  }

  /** `a` strictly contains `b`. */
  predicate Contains(a: Row, b: Row) {
    a.lft < b.lft && b.rgt < a.rgt
  }

  predicate Apart(a: Row, b: Row) {
    a.rgt < b.lft || b.rgt < a.lft
  }

  predicate Laminar(a: Row, b: Row) {
    Apart(a, b) || Contains(a, b) || Contains(b, a)
  }

  /** `p` is the nearest row of `t` strictly containing row `c`. */
  predicate Nearest(t: Table, p: Key, c: Key)
    requires c in t
  {
    && p in t
    && Contains(t[p], t[c])
    && forall a | a in t :: !(Contains(t[p], t[a]) && Contains(t[a], t[c]))
  }

  /** No row of `t` contains row `c`. */
  predicate Uncontained(t: Table, c: Key)
    requires c in t
  {
    forall a | a in t :: !Contains(t[a], t[c])
  }

  predicate ParentOk(t: Table, c: Key)
    requires c in t
  {
    match t[c].parent
    case None => Uncontained(t, c)
    case Some(p) => Nearest(t, p, c)
  }

  predicate Valid(t: Table) {
    && (forall k {:trigger WellFormed(t[k])} | k in t :: WellFormed(t[k]))
    && (forall a, b {:trigger Laminar(t[a], t[b])} | a in t && b in t && a != b :: Laminar(t[a], t[b]))
    && (forall c {:trigger ParentOk(t, c)} | c in t :: ParentOk(t, c))
  }

  /** The tree of one scope. */
  predicate ValidTree(t: Table, s: nat) {
    Valid(InScope(t, s))
  }

  /** Inserting at cut point `p` lands inside row `r`. */
  predicate Encloses(r: Row, p: int) {
    r.lft < p <= r.rgt
  }

  /** `q` is the parent a node inserted at cut point `p` must get: the
      innermost row enclosing `p`, or no parent when no row encloses it. */
  predicate NearestEnclosing(t: Table, p: int, q: Option<Key>) {
    match q
    case None => forall a | a in t :: !Encloses(t[a], p)
    case Some(x) =>
      && x in t
      && Encloses(t[x], p)
      && forall a | a in t && Encloses(t[a], p) :: !Contains(t[x], t[a])
  }

  /** In a valid table two distinct rows never share a bound. */
  lemma DistinctBounds(t: Table, a: Key, b: Key)
    requires Valid(t) && a in t && b in t && a != b
    ensures t[a].lft != t[b].lft && t[a].lft != t[b].rgt && t[a].rgt != t[b].rgt
  {
    assert Laminar(t[a], t[b]) && WellFormed(t[a]) && WellFormed(t[b]);
  }

  /** The nearest enclosing row of a cut point is unique. */
  lemma NearestEnclosingUnique(t: Table, p: int, q1: Option<Key>, q2: Option<Key>)
    requires Valid(t)
    requires NearestEnclosing(t, p, q1) && NearestEnclosing(t, p, q2)
    ensures q1 == q2
  {
    if q1.Some? && q2.Some? {
      var x, y := q1.value, q2.value;
      assert Laminar(t[x], t[y]) || x == y;
    }
  }

  /** Order of the bounds of two rows, which is all validity looks at. */
  predicate KeepsOrder(f: int -> int, x: Row, y: Row) {
    && (x.lft < y.lft <==> f(x.lft) < f(y.lft))
    && (x.lft < y.rgt <==> f(x.lft) < f(y.rgt))
    && (x.rgt < y.lft <==> f(x.rgt) < f(y.lft))
    && (x.rgt < y.rgt <==> f(x.rgt) < f(y.rgt))
  }

  predicate OrderEmbedding(t: Table, f: int -> int) {
    forall a, b | a in t && b in t :: KeepsOrder(f, t[a], t[b])
  }

  lemma ShiftRelations(f: int -> int, x: Row, y: Row)
    requires KeepsOrder(f, x, y) && KeepsOrder(f, y, x)
    ensures Contains(Shift(x, f), Shift(y, f)) <==> Contains(x, y)
    ensures Contains(Shift(y, f), Shift(x, f)) <==> Contains(y, x)
    ensures Apart(Shift(x, f), Shift(y, f)) <==> Apart(x, y)
  {
  }

  /** Rewriting every bound through a map that keeps their order (and keeps
      each interval's length odd) turns a valid table into a valid one. */
  lemma {:induction false} RelabelValid(t: Table, f: int -> int)
    requires Valid(t)
    requires OrderEmbedding(t, f)
    requires forall k | k in t :: WellFormed(Shift(t[k], f))
    ensures Valid(Relabel(t, f))
  {
    var t' := Relabel(t, f);
    forall a, b | a in t' && b in t' && a != b
      ensures Laminar(t'[a], t'[b])
    {
      assert KeepsOrder(f, t[a], t[b]) && KeepsOrder(f, t[b], t[a]);
      ShiftRelations(f, t[a], t[b]);
      assert Laminar(t[a], t[b]);
    }
    forall c | c in t'
      ensures ParentOk(t', c)
    {
      assert ParentOk(t, c);
      match t[c].parent
      case None =>
        forall a | a in t'
          ensures !Contains(t'[a], t'[c])
        {
          assert KeepsOrder(f, t[a], t[c]) && KeepsOrder(f, t[c], t[a]);
          ShiftRelations(f, t[a], t[c]);
        }
      case Some(p) =>
        assert KeepsOrder(f, t[p], t[c]) && KeepsOrder(f, t[c], t[p]);
        ShiftRelations(f, t[p], t[c]);
        forall a | a in t'
          ensures !(Contains(t'[p], t'[a]) && Contains(t'[a], t'[c]))
        {
          assert KeepsOrder(f, t[a], t[c]) && KeepsOrder(f, t[c], t[a]);
          assert KeepsOrder(f, t[a], t[p]) && KeepsOrder(f, t[p], t[a]);
          ShiftRelations(f, t[a], t[c]);
          ShiftRelations(f, t[p], t[a]);
        }
    }
  }

  /** Dropping rows keeps a table valid as long as no remaining row names a
      dropped row as its parent. */
  lemma {:induction false} RemoveValid(t: Table, gone: set<Key>)
    requires Valid(t)
    requires forall c | c in t && c !in gone && t[c].parent.Some? :: t[c].parent.value !in gone
    ensures Valid(t - gone)
  {
    var t' := t - gone;
    forall c | c in t'
      ensures ParentOk(t', c)
    {
      assert ParentOk(t, c);
    }
  }

  /** The rows of node `n`'s subtree: `n` and every row whose left bound
      lies in [lft+1, rgt] of `n`, the range the source's descendant
      queries select. */
  function Subtree(t: Table, n: Key): (r: set<Key>)
    requires n in t
    ensures r <= t.Keys && n in r
  {
    set k | k in t && (k == n || t[n].lft + 1 <= t[k].lft <= t[n].rgt)
  }

  /** Every bound of a subtree row lies in [lft, rgt] of its top, and every
      bound of any other row lies outside it. */
  predicate Separated(t: Table, n: Key)
    requires n in t
  {
    forall k | k in t ::
      if k in Subtree(t, n) then t[n].lft <= t[k].lft && t[k].rgt <= t[n].rgt && t[k].lft < t[k].rgt
      else !(t[n].lft <= t[k].lft <= t[n].rgt) && !(t[n].lft <= t[k].rgt <= t[n].rgt)
  }

  /** In a valid table the subtree of `n` is `n` and the rows `n` contains. */
  lemma {:induction false} SubtreeInside(t: Table, n: Key)
    requires Valid(t) && n in t
    ensures forall k | k in Subtree(t, n) && k != n :: Contains(t[n], t[k])
  {
    forall k | k in Subtree(t, n) && k != n
      ensures Contains(t[n], t[k])
    {
      assert Laminar(t[n], t[k]) && WellFormed(t[k]);
    }
  }

  /** In a valid table every row outside the subtree of `n` lies apart
      from `n` or contains it. */
  lemma {:induction false} SubtreeOutside(t: Table, n: Key)
    requires Valid(t) && n in t
    ensures forall k | k in t && k !in Subtree(t, n) :: Apart(t[k], t[n]) || Contains(t[k], t[n])
  {
    forall k | k in t && k !in Subtree(t, n)
      ensures Apart(t[k], t[n]) || Contains(t[k], t[n])
    {
      assert Laminar(t[n], t[k]) && WellFormed(t[k]);
    }
  }

  lemma {:induction false} SubtreeSeparated(t: Table, n: Key)
    requires Valid(t) && n in t
    ensures Separated(t, n)
  {
    SubtreeInside(t, n);
    SubtreeOutside(t, n);
    forall k | k in t
      ensures if k in Subtree(t, n) then t[n].lft <= t[k].lft && t[k].rgt <= t[n].rgt && t[k].lft < t[k].rgt
        else !(t[n].lft <= t[k].lft <= t[n].rgt) && !(t[n].lft <= t[k].rgt <= t[n].rgt)
    {
      assert WellFormed(t[k]);
    }
  }

  /** Every row of the subtree below its top has its parent in the
      subtree. */
  lemma {:induction false} SubtreeParentsInside(t: Table, n: Key)
    requires Valid(t) && n in t
    ensures forall k | k in Subtree(t, n) && k != n :: t[k].parent.Some? && t[k].parent.value in Subtree(t, n)
  {
    SubtreeInside(t, n);
    forall k | k in Subtree(t, n) && k != n
      ensures t[k].parent.Some? && t[k].parent.value in Subtree(t, n)
    {
      assert ParentOk(t, k);
      assert Contains(t[n], t[k]) && WellFormed(t[k]);
      assert !Uncontained(t, k);
      var p := t[k].parent.value;
      assert Nearest(t, p, k);
      if p != n {
        assert Laminar(t[p], t[n]);
        var rp, rn, rk := t[p], t[n], t[k];
        assert !(Contains(rp, rn) && Contains(rn, rk));
        assert WellFormed(t[p]);
      }
    }
  }

  /** No row outside the subtree has its parent inside it. */
  lemma {:induction false} SubtreeParentsOutside(t: Table, n: Key)
    requires Valid(t) && n in t
    ensures forall k | k in t && k !in Subtree(t, n) && t[k].parent.Some? :: t[k].parent.value !in Subtree(t, n)
  {
    SubtreeInside(t, n);
    SubtreeOutside(t, n);
    forall k | k in t && k !in Subtree(t, n) && t[k].parent.Some?
      ensures t[k].parent.value !in Subtree(t, n)
    {
      assert ParentOk(t, k);
      var p := t[k].parent.value;
      assert Nearest(t, p, k);
      assert Apart(t[k], t[n]) || Contains(t[k], t[n]);
      assert WellFormed(t[k]);
      assert p in Subtree(t, n) && p != n ==> Contains(t[n], t[p]);
    }
  }

  /** Removing a subtree keeps a valid table valid. */
  lemma RemoveSubtreeValid(t: Table, n: Key)
    requires Valid(t) && n in t
    ensures Valid(t - Subtree(t, n))
  {
    SubtreeParentsOutside(t, n);
    RemoveValid(t, Subtree(t, n));
  }
}

=== FILE: types.dfy ===
/** Shared vocabulary of the nested-set model: optional values, results,
    the stored row of one node, and a table of rows keyed by primary key.

    A row carries the two interval bounds (`_lft`, `_rgt`), the nullable
    `parent_id`, the scope value (the attributes a scoped model declares,
    folded into one number), and the soft-delete timestamp (`deleted_at`,
    an abstract clock value). Bounds are unbounded integers: the legacy
    engine stores negated bounds while it moves a subtree, and SQLite keeps
    them as signed values.
 */
module Types {

  type Key = nat

  datatype Option<+T> = None | Some(value: T) {
    function GetOr(default: T): T {
      match this
      case Some(v) => v
      case None => default
    }
  }

  /** Why an operation refuses to run; each one corresponds to an exception
      (or a refused event) of the source. */
  datatype Error =
    | CyclicMove       // a node would be moved into its own subtree
    | NotExisting      // the node given as target has never been saved
    | NotFound         // a key that names no row
    | ScopeMismatch    // the target lives in another scope
    | RootRefused      // the legacy engine refuses to delete or re-parent its root
    | NoParentRow      // the legacy engine needs the target's parent row and there is none
    | NullBounds       // a new row without bounds, which the NOT NULL bound columns refuse

  datatype Result<+T> = Ok(value: T) | Err(error: Error) {
    predicate IsFailure() { Err? }

    function PropagateFailure<U>(): Result<U>
      requires Err?
    {
      Err(error)
    }

    function Extract(): T
      requires Ok?
    {
      value
    }
  }

  datatype Row = Row(lft: int, rgt: int, parent: Option<Key>, scope: nat, deleted: Option<nat>)

  type Table = map<Key, Row>

  /** PHP's `==` and `!=` between two parent ids: besides equal ids,
      `null == 0`. */
  predicate LooseEq(a: Option<Key>, b: Option<Key>) {
    a == b || (a == None && b == Some(0)) || (a == Some(0) && b == None)
  }

  /** Row `j` is found by a query: it exists and, when the model
      soft-deletes (`soft`), it is not trashed. */
  predicate Loads(t: Table, j: Key, soft: bool) {
    j in t && !(soft && t[j].deleted.Some?)
  }

  /** Two tables with the same keys and the same row under each key are
      the same table. */
  lemma TablesEqual(a: Table, b: Table)
    requires a.Keys == b.Keys && forall j | j in a :: a[j] == b[j]
    ensures a == b
  {
  }

  /** The rows one scoped query sees. */
  function InScope(t: Table, s: nat): (r: Table)
    ensures forall k :: k in r <==> k in t && t[k].scope == s
    ensures forall k | k in r :: r[k] == t[k]
  {
    map k | k in t && t[k].scope == s :: t[k]
  }

  /** A table changed only inside scope `s`: the rows of every other scope,
      and the set of rows of every other scope, are as they were. */
  ghost predicate OtherScopesUnchanged(t: Table, t': Table, s: nat) {
    && (forall k | k in t && t[k].scope != s :: k in t' && t'[k] == t[k])
    && (forall k | k in t' && t'[k].scope != s :: k in t && t[k] == t'[k])
  }

  /** The bounds of a row rewritten through `f`, everything else kept. */
  function Shift(r: Row, f: int -> int): Row {
    r.(lft := f(r.lft), rgt := f(r.rgt))
  }

  /** Every row of an unscoped table has its bounds rewritten through `f`. */
  function Relabel(t: Table, f: int -> int): (r: Table)
    ensures r.Keys == t.Keys
  {
    map k | k in t :: Shift(t[k], f)
  }
}
